=== FILE: README.md ===
# ness-httpclient in Dafny

A model of the decision logic of the ness HTTP client, a thin layer over
Apache HttpClient 4, with proofs of what that logic promises. Each Dafny
module follows one component of the library:

- `AuthProviders`, `Credentials`: which user and password answer an
  authentication challenge. A provider accepts a scope when scheme, host,
  realm and port are each wildcard or equal. The credentials provider takes
  the first provider in list order that accepts.
- `Requests`, `BodySources`: the request builder. It keeps an ordered
  header and cookie list with add and replace-by-name, a last-write-wins
  parameter map, auth providers and one content slot. It also does the
  `k=v&...` form encoding, `request()` and `fromRequest`.
- `ObserverGroups`, `ObserverResolution`: observer groups and the Guice
  module's depth-first resolution of group inheritance. One visited set is
  shared across all declared groups, and the result is proved to be exactly
  the observers of the least inheritance-closed set of groups.
- `ApacheFactory`, `Trust`: the Apache factory's started/stopped life
  cycle and running guard. Also everything it does to a request before
  sending it: observers, default Accept-Encoding, Host filtering under a
  virtual host, cookies and the entity. Finally the trust manager and key
  manager choice, and the any-delegate-accepts trust combinator.
- `SizeLimiting`, `ContentResponse`: the byte-counting stream limiter and
  the content response handler pipeline. The pipeline runs the redirect
  check, the empty-body fallback, the declared-length check, the limiter,
  decompressor selection, the gzip header read while the decompressor is
  built, and error routing.
- `Converters`, `StreamedJson`: the status-code policies of the string,
  number, JSON and 2xx converters, and the streamed JSON envelope as a
  state machine over parser tokens.
- `InternalResponses`, `Responses`: the Apache response view.
  - header lookup is case-insensitive;
  - headers are grouped under the first-seen spelling;
  - a 3xx status counts as a redirect;
  - Content-Length is parsed.
- `TestingResponses`, `TestingDispatch`: the testing client.
  - canned responses (fixed, and derived from a JAX-RS response);
  - the ordered first-match table;
  - exact-name header lookup;
  - the memoising testing body source.
- `Clients`, `CookieSpecs`: the `HttpClient` facade, including the
  `perform` method-name parser, and the permissive "ness" cookie policy.
- `ObserverChains`: the chain of observer hooks, shared by the Apache
  factory and the testing client.
- `Outcomes`, `Strings`, `Sequences`: shared vocabulary.
  - Java's null becomes `Option`, and a thrown exception a `Result` whose
    failure names the exception;
  - Java string operations are spelled out: `trim`, ASCII case folding,
    `Long.parseLong` and 32-bit `int` arithmetic.

Objects are immutable values and every operation is a pure function. A
mutating Java method returns the updated value. Calls into code outside
this library become function-typed parameters. These are charset
encoding and decoding, Jackson, the decompressors, custom matchers,
generators, observers and response handlers, URI parsing and the JAX-RS
reason phrase.

## Model

| member | source | states |
|---|---|---|
| ApacheFactory.NewFactory | client/src/main/java/com/nesscomputing/httpclient/factory/httpclient4/ApacheHttpClient4Factory.java:121-150 | missing defaults are an illegal argument and a key-material failure an illegal state; a new factory is neither started nor stopped, retries 3 times, and keeps the default Accept-Encoding trimmed, blank meaning none |
| ApacheFactory.Start | client/src/main/java/com/nesscomputing/httpclient/factory/httpclient4/ApacheHttpClient4Factory.java:218-229 | only a factory never started nor stopped starts, with the idle reaper exactly when an idle timeout is set; otherwise nothing changes |
| ApacheFactory.Stop | client/src/main/java/com/nesscomputing/httpclient/factory/httpclient4/ApacheHttpClient4Factory.java:231-242 | only a running factory stops, and the reaper goes with it; otherwise nothing changes |
| ApacheFactory.CheckRunning | client/src/main/java/com/nesscomputing/httpclient/factory/httpclient4/ApacheHttpClient4Factory.java:350-354 | succeeds exactly when the factory is started and not stopped, an illegal state otherwise |
| ApacheFactory.SetIdleTimeout | client/src/main/java/com/nesscomputing/httpclient/factory/httpclient4/ApacheHttpClient4Factory.java:568-571 | changes the idle timeout and nothing else |
| ApacheFactory.LifecycleHistory | client/src/main/java/com/nesscomputing/httpclient/factory/httpclient4/ApacheHttpClient4Factory.java:218-242 | after any sequence of start/stop calls a fresh factory has started iff some start happened and stopped iff a stop followed a start |
| ApacheFactory.StoppedIsFinal | client/src/main/java/com/nesscomputing/httpclient/factory/httpclient4/ApacheHttpClient4Factory.java:218-242 | no sequence of calls changes a stopped factory |
| ApacheFactory.BodySourceFor | client/src/main/java/com/nesscomputing/httpclient/factory/httpclient4/ApacheHttpClient4Factory.java:262-283 | refused unless running; strings, byte arrays and streams get the matching entity (streams of unknown length -1), any other object no source |
| ApacheFactory.ContributeAcceptEncoding | client/src/main/java/com/nesscomputing/httpclient/factory/httpclient4/ApacheHttpClient4Factory.java:525-538 | the request is kept when there is no default or it has an Accept-Encoding header in any case; otherwise it is rebuilt with the default as its last header and nothing else changed |
| ApacheFactory.AcceptEncodingIdempotent | client/src/main/java/com/nesscomputing/httpclient/factory/httpclient4/ApacheHttpClient4Factory.java:525-538 | contributing the default to a request that already went through it changes nothing |
| ObserverChains.ApplyObservers | client/src/main/java/com/nesscomputing/httpclient/factory/httpclient4/ApacheHttpClient4Factory.java:291-300 | with no observers the request is the incoming one, with one it is that observer's result, and the first observer that throws ends the chain with its exception; the response observers of lines 401-407 and the testing factory's observers run through the same chain |
| ObserverChains.ApplyObserversAppend | client/src/main/java/com/nesscomputing/httpclient/factory/httpclient4/ApacheHttpClient4Factory.java:291-300 | running two observer lists one after the other, stopping at the first failure, is running their concatenation |
| ApacheFactory.SentHeaders | client/src/main/java/com/nesscomputing/httpclient/factory/httpclient4/ApacheHttpClient4Factory.java:484-502 | without a virtual host every header is sent as is; with one, no Host header (any case) is sent and every other header is, in order; a request without Host headers is sent unchanged |
| ApacheFactory.SentHeadersInPlace | client/src/main/java/com/nesscomputing/httpclient/factory/httpclient4/ApacheHttpClient4Factory.java:484-502 | each header is dropped or sent where it stands: the headers before it and after it are filtered on their own |
| ApacheFactory.VirtualHost | client/src/main/java/com/nesscomputing/httpclient/factory/httpclient4/ApacheHttpClient4Factory.java:504-515 | a virtual host (with its port) is set exactly when the host is not blank |
| ApacheFactory.BlankVirtualHostDropsHost | client/src/main/java/com/nesscomputing/httpclient/factory/httpclient4/ApacheHttpClient4Factory.java:484-515 | a blank virtual host removes the Host header yet sets no virtual host |
| ApacheFactory.ToClientCookie | client/src/main/java/com/nesscomputing/httpclient/factory/httpclient4/ApacheHttpClient4Factory.java:434-465 | a cookie keeps name, value, path, domain and secure flag at version 1; a positive max age gives an expiry that many seconds after `now` and a max-age attribute that parses back to it |
| ApacheFactory.EntityFor | client/src/main/java/com/nesscomputing/httpclient/factory/httpclient4/ApacheHttpClient4Factory.java:306-341 | only POST and PUT carry an entity, and only from the factory's own body source |
| ApacheFactory.PrepareRequest | client/src/main/java/com/nesscomputing/httpclient/factory/httpclient4/ApacheHttpClient4Factory.java:286-341 | refused unless running; an observer's exception leaves with it; otherwise the sent request is the observed, accept-encoded one with its entity, filtered headers, virtual host, the converted cookies in the order they are added to the store (an empty list clears the store), parameters and credentials |
| ApacheFactory.BuiltRequestKeepsEntity | client/src/main/java/com/nesscomputing/httpclient/factory/httpclient4/ApacheHttpClient4Factory.java:302-332 | rebuilding a request for the default Accept-Encoding does not lose the entity of a request the factory built |
| ApacheFactory.DeliverResponse | client/src/main/java/com/nesscomputing/httpclient/factory/httpclient4/ApacheHttpClient4Factory.java:394-417 | a response observer's exception leaves with it; without a handler the result is null; otherwise it is the handler's result on the observed response, failures included |
| Trust.CheckAll | src/main/java/com/nesscomputing/httpclient/internal/MultiTrustManager.java:21-61 | a chain is trusted iff some delegate trusts it; with no delegates the check fails with "No trust managers installed!", otherwise with the last delegate's exception |
| Trust.MultiVerdict | src/main/java/com/nesscomputing/httpclient/internal/MultiTrustManager.java:42-61 | the same decision as a function: trusted iff some verdict trusts, else the last exception |
| Trust.Check | src/main/java/com/nesscomputing/httpclient/internal/AlwaysTrustServerTrustManager.java:34-41 | the server-trusting wrapper trusts every server chain and passes client chains to its inner manager; a multi manager trusts iff a delegate does |
| Trust.MultiOrderIrrelevant | src/main/java/com/nesscomputing/httpclient/internal/MultiTrustManager.java:14-61 | the order of the delegate set changes which exception is reported, never whether the chain is trusted |
| Trust.Issuers | src/main/java/com/nesscomputing/httpclient/internal/MultiTrustManager.java:63-71 | the accepted issuers of a multi manager are the union of its delegates' |
| Trust.AddDelegate | src/main/java/com/nesscomputing/httpclient/internal/MultiTrustManager.java:16-19 | adding a delegate adds it to the set; adding one twice changes nothing |
| Trust.TrustManagerFor | client/src/main/java/com/nesscomputing/httpclient/factory/httpclient4/ApacheHttpClient4Factory.java:159-185 | the platform default unless trust store and password are both set, then a multi manager over the store with the platform default iff fallback is on; wrapped exactly when server verification is off |
| Trust.VerificationOffTrustsEveryServer | client/src/main/java/com/nesscomputing/httpclient/factory/httpclient4/ApacheHttpClient4Factory.java:180-183 | with server verification off every server chain is trusted |
| Trust.FallbackTrustsPlatformChains | client/src/main/java/com/nesscomputing/httpclient/factory/httpclient4/ApacheHttpClient4Factory.java:171-175 | with fallback on, a chain the platform trusts is trusted even if the store rejects it |
| Trust.KeyManagersFor | client/src/main/java/com/nesscomputing/httpclient/factory/httpclient4/ApacheHttpClient4Factory.java:195-208 | one key manager exactly when keystore, type and password are all set, built from them |
| AuthProviders.NewProvider | client/src/main/java/com/nesscomputing/httpclient/HttpClientDefaultAuthProvider.java:75-85 | host and realm are stored lower-cased (null stays null); scheme, port, user and password as given |
| AuthProviders.PinnedProviderAcceptsOnlyItsScope | client/src/main/java/com/nesscomputing/httpclient/HttpClientDefaultAuthProvider.java:87-94 | a provider whose scheme, host, port and realm are all set accepts its own scope and no other |
| AuthProviders.WildcardsWiden | client/src/main/java/com/nesscomputing/httpclient/HttpClientDefaultAuthProvider.java:87-94 | unsetting the scheme, host or realm, or setting the port to -1, keeps every accepted scope and then accepts any value in that part |
| AuthProviders.HostComparedLowerCased | client/src/main/java/com/nesscomputing/httpclient/HttpClientDefaultAuthProvider.java:75-94 | a provider built for any host spelling accepts exactly the lower-cased spelling |
| AuthProviders.UpperCaseHostExample | client/src/main/java/com/nesscomputing/httpclient/HttpClientDefaultAuthProvider.java:75-94 | built for "EXAMPLE.com" it accepts "example.com" and refuses "EXAMPLE.com" and other hosts |
| AuthProviders.SchemeComparedExactly | client/src/main/java/com/nesscomputing/httpclient/HttpClientDefaultAuthProvider.java:87-94 | the scheme is compared without case folding |
| AuthProviders.ForUser | client/src/main/java/com/nesscomputing/httpclient/HttpClientDefaultAuthProvider.java:44-47 | carries the login and password and accepts every scope |
| AuthProviders.ForUserAndHost | client/src/main/java/com/nesscomputing/httpclient/HttpClientDefaultAuthProvider.java:59-62 | the constructor with no scheme and no realm |
| AuthProviders.ForUserAndHostAccepts | client/src/main/java/com/nesscomputing/httpclient/HttpClientDefaultAuthProvider.java:59-94 | for a fixed port it accepts exactly the lower-cased host at that port, whatever the scheme and realm |
| AuthProviders.ProviderEqualsIsValueEquality | client/src/main/java/com/nesscomputing/httpclient/HttpClientDefaultAuthProvider.java:132-140 | equals holds iff all six stored fields are equal |
| AuthProviders.ConstructionNormalisesCase | client/src/main/java/com/nesscomputing/httpclient/HttpClientDefaultAuthProvider.java:75-140 | providers built for host spellings equal up to case are equal |
| Credentials.FirstAccepting | client/src/main/java/com/nesscomputing/httpclient/factory/httpclient4/InternalCredentialsProvider.java:50-72 | the index of the first provider accepting the scope, none before it accepting or being null; a null provider met first is a null-pointer failure, and none means every provider refuses |
| Credentials.GetCredentials | client/src/main/java/com/nesscomputing/httpclient/factory/httpclient4/InternalCredentialsProvider.java:50-72 | null iff every provider refuses; a null-pointer failure iff a null provider comes before any accepting one; otherwise the user and password of the first accepting provider, default or custom |
| Credentials.EarlierProviderShadows | client/src/main/java/com/nesscomputing/httpclient/factory/httpclient4/InternalCredentialsProvider.java:50-72 | once some provider accepts or is null, appending more providers changes nothing |
| Credentials.FirstAcceptingPrefix | client/src/main/java/com/nesscomputing/httpclient/factory/httpclient4/InternalCredentialsProvider.java:50-72 | the first accepting index, or the failure, is unchanged by appending providers after one that accepts or is null |
| Credentials.RefusingPrefixIsTransparent | client/src/main/java/com/nesscomputing/httpclient/factory/httpclient4/InternalCredentialsProvider.java:50-72 | providers that refuse the scope can be put in front without effect |
| Credentials.FirstAcceptingShift | client/src/main/java/com/nesscomputing/httpclient/factory/httpclient4/InternalCredentialsProvider.java:50-72 | in front of refusing providers the first accepting index shifts by their number, and a failure or an absence stays as it is |
| Credentials.DefaultProvidersNeverFail | client/src/main/java/com/nesscomputing/httpclient/factory/httpclient4/InternalCredentialsProvider.java:50-72 | a provider list without null entries and custom providers never fails |
| Credentials.SetCredentials | client/src/main/java/com/nesscomputing/httpclient/factory/httpclient4/InternalCredentialsProvider.java:43-47 | always an unsupported operation |
| Credentials.Clear | client/src/main/java/com/nesscomputing/httpclient/factory/httpclient4/InternalCredentialsProvider.java:74-78 | always an unsupported operation |
| BodySources.SetContentType | src/main/java/com/nesscomputing/httpclient/factory/httpclient4/InternalHttpBodySource.java:51-55 | the Apache source records the content type on its entity; the testing source ignores it |
| BodySources.SetContentEncoding | src/main/java/com/nesscomputing/httpclient/factory/httpclient4/InternalHttpBodySource.java:40-44 | both sources record the encoding and change nothing else |
| Requests.NewBuilder | src/main/java/com/nesscomputing/httpclient/HttpClientRequest.java:256-262 | a fresh builder keeps factory, method, URI and handler, with empty lists and map, no content and virtual port 0 |
| Requests.SetUrl | src/main/java/com/nesscomputing/httpclient/HttpClientRequest.java:280-286 | a null URI is an illegal argument and leaves the builder alone; otherwise only the URI changes |
| Requests.AddHeader | src/main/java/com/nesscomputing/httpclient/HttpClientRequest.java:293-300 | a null name or value is an illegal argument; otherwise the header is appended last |
| Requests.ReplaceHeader | src/main/java/com/nesscomputing/httpclient/HttpClientRequest.java:307-316 | removes every header with exactly that name, then adds the new one; a null value throws after the removal |
| Requests.AddCookie | src/main/java/com/nesscomputing/httpclient/HttpClientRequest.java:321-327 | a null cookie is an illegal argument; otherwise it is appended |
| Requests.ReplaceCookie | src/main/java/com/nesscomputing/httpclient/HttpClientRequest.java:332-342 | a null cookie is a null pointer when cookies exist, else an illegal argument; otherwise same-named cookies are dropped and the cookie appended |
| Requests.SetParameter | src/main/java/com/nesscomputing/httpclient/HttpClientRequest.java:347-353 | a null key is an illegal argument; otherwise the key maps to the value and every other key keeps its value |
| Requests.SetVirtualHost | src/main/java/com/nesscomputing/httpclient/HttpClientRequest.java:363-368 | sets host and port, null host included, and nothing else |
| Requests.SetContentType | src/main/java/com/nesscomputing/httpclient/HttpClientRequest.java:373-382 | a null content type is an illegal argument; otherwise only the content type changes |
| Requests.SetContentEncoding | src/main/java/com/nesscomputing/httpclient/HttpClientRequest.java:387-396 | a null encoding is an illegal argument; otherwise only the encoding changes |
| Requests.SetContent | src/main/java/com/nesscomputing/httpclient/HttpClientRequest.java:427-449 | the string, byte-array and stream overloads set the content, null clearing it, and nothing else |
| Requests.EncodedPairs | src/main/java/com/nesscomputing/httpclient/HttpClientRequest.java:402-417 | one encoded key=value part per pair, in order |
| Requests.SetFormContent | src/main/java/com/nesscomputing/httpclient/HttpClientRequest.java:398-422 | succeeds iff the encoding is given and, when there are pairs, supported with no null key or value; each failure has its own exception and leaves the builder unchanged; success sets the encoding and a text body |
| Requests.FormContentRoundTrip | src/main/java/com/nesscomputing/httpclient/HttpClientRequest.java:398-422 | with an encoder that never emits & or =, the body splits back into the encoded keys and values, pair by pair |
| Requests.AddAuth | src/main/java/com/nesscomputing/httpclient/HttpClientRequest.java:464-468 | appends the provider, whatever it is, and changes nothing else |
| Requests.AddBasicAuth | src/main/java/com/nesscomputing/httpclient/HttpClientRequest.java:456-459 | appends a default provider with that user and password that accepts every scope, and changes nothing else |
| Requests.BodySourceOf | src/main/java/com/nesscomputing/httpclient/HttpClientRequest.java:89-108 | no content means no source; otherwise the factory's source (or its failure), with content type and encoding applied when non-null |
| Requests.BuildRequest | src/main/java/com/nesscomputing/httpclient/HttpClientRequest.java:473-485 | the request carries every builder field and the body source the factory gives; it fails exactly when the factory refuses |
| Requests.FromRequest | src/main/java/com/nesscomputing/httpclient/HttpClientRequest.java:264-278 | the builder gets back each field of the request: factory, method, URI, headers, cookies, parameters, providers, virtual host and port, handler, content, type and encoding |
| Requests.FromRequestInvertsBuild | src/main/java/com/nesscomputing/httpclient/HttpClientRequest.java:264-278 | the builder recreated from a built request equals the original builder |
| Requests.RebuildIsIdentity | src/main/java/com/nesscomputing/httpclient/HttpClientRequest.java:264-278 | building again from a recreated builder gives the same request |
| Requests.ReplaceHeaderLeavesOne | src/main/java/com/nesscomputing/httpclient/HttpClientRequest.java:307-316 | after a successful replace exactly one header has that name, and it is last |
| Requests.ReplaceHeaderTwice | src/main/java/com/nesscomputing/httpclient/HttpClientRequest.java:307-316 | replacing twice equals replacing once with the second value |
| Requests.ReplaceAbsentHeaderIsAdd | src/main/java/com/nesscomputing/httpclient/HttpClientRequest.java:307-316 | with no header of that name, replace is add |
| Requests.ReplaceHeaderNullValueRemoves | src/main/java/com/nesscomputing/httpclient/HttpClientRequest.java:307-316 | a null value still removes the old same-named headers before it is rejected |
| Requests.SetParameterLastWins | src/main/java/com/nesscomputing/httpclient/HttpClientRequest.java:347-353 | the last value set for a key wins |
| ObserverGroups.Of | client/src/main/java/com/nesscomputing/httpclient/HttpClientObserverGroup.java:37-46 | a group exists exactly for a non-null, non-blank name, which it keeps; anything else is an illegal argument |
| ObserverGroups.PlatformInternalIsValid | client/src/main/java/com/nesscomputing/httpclient/HttpClientObserverGroup.java:32-33 | the predefined PLATFORM_INTERNAL group is the group of that name |
| ObserverGroups.Name | client/src/main/java/com/nesscomputing/httpclient/HttpClientObserverGroup.java:48-57 | the name gives back the same group through of |
| ObserverGroups.GroupHash | client/src/main/java/com/nesscomputing/httpclient/HttpClientObserverGroup.java:59-63 | the hash is the name's String.hashCode: its base-31 polynomial over the characters, wrapped to 32 bits |
| ObserverGroups.EqualGroupsHashEqually | client/src/main/java/com/nesscomputing/httpclient/HttpClientObserverGroup.java:59-69 | equal groups have equal hashes |
| ObserverGroups.OfIsInjective | client/src/main/java/com/nesscomputing/httpclient/HttpClientObserverGroup.java:43-69 | groups made from two names are equal exactly when the names are |
| ObserverResolution.ObserversOf | client/src/main/java/com/nesscomputing/httpclient/guice/HttpClientModule.java:223-227 | an observer belongs to a set of groups iff it is bound directly to one of them |
| ObserverResolution.Find | client/src/main/java/com/nesscomputing/httpclient/guice/HttpClientModule.java:217-237 | the group ends up marked, nothing marked is ever unmarked, and the observers found are exactly those bound to the groups this call newly marked |
| ObserverResolution.FindAll | client/src/main/java/com/nesscomputing/httpclient/guice/HttpClientModule.java:229-234 | walking a list of groups marks all of them and finds exactly the observers of the newly marked groups |
| ObserverResolution.FindClosed | client/src/main/java/com/nesscomputing/httpclient/guice/HttpClientModule.java:217-237 | the walk leaves every marked group not on the stack with all its super-groups marked |
| ObserverResolution.FindAllClosed | client/src/main/java/com/nesscomputing/httpclient/guice/HttpClientModule.java:229-234 | the same for a list of groups |
| ObserverResolution.FindWithin | client/src/main/java/com/nesscomputing/httpclient/guice/HttpClientModule.java:217-237 | a walk from inside an inheritance-closed set never leaves it |
| ObserverResolution.FindAllWithin | client/src/main/java/com/nesscomputing/httpclient/guice/HttpClientModule.java:229-234 | the same for a list of groups |
| ObserverResolution.ResolveGroups | client/src/main/java/com/nesscomputing/httpclient/guice/HttpClientModule.java:204-215 | every declared group is visited and the result is exactly the observers of the visited groups |
| ObserverResolution.ResolveIsClosed | client/src/main/java/com/nesscomputing/httpclient/guice/HttpClientModule.java:204-237 | the visited groups are closed under inheritance |
| ObserverResolution.ResolveIsLeast | client/src/main/java/com/nesscomputing/httpclient/guice/HttpClientModule.java:204-237 | the visited groups lie inside every inheritance-closed set holding the declared groups, so cycles and repeats change nothing |
| ObserverResolution.ResolveOrderIrrelevant | client/src/main/java/com/nesscomputing/httpclient/guice/HttpClientModule.java:204-237 | the order of declared groups and of inheritance bindings does not change the result |
| ObserverResolution.NoGroupsNoObservers | client/src/test/java/com/nesscomputing/httpclient/TestObserverGroups.java:44-58 | a client with no groups gets no group observers |
| ObserverResolution.DiamondExample | client/src/test/java/com/nesscomputing/httpclient/TestObserverGroups.java:139-165 | in the diamond test -> g1 -> {g2, g3}, g2 -> g3, with o1 on g3 and o2 on g1, the client gets exactly {o1, o2} |
| ObserverResolution.NewModule | client/src/main/java/com/nesscomputing/httpclient/guice/HttpClientModule.java:73-79 | a null client name is an illegal argument, a null group a null pointer; otherwise the groups are kept without repeats |
| ObserverResolution.Distinct | client/src/main/java/com/nesscomputing/httpclient/guice/HttpClientModule.java:78 | keeps each non-null group exactly once, after the groups already kept |
| ObserverResolution.FactoryObservers | client/src/main/java/com/nesscomputing/httpclient/guice/HttpClientModule.java:239-252 | the factory's observers are exactly the global, the annotation-bound and the group observers, a missing binding giving none |
| SizeLimiting.Open | client/src/main/java/com/nesscomputing/httpclient/io/SizeLimitingInputStream.java:42-50 | construction fails with a size-exceeded error exactly when the stream reports more bytes available than the limit; otherwise the count starts at 0 with no mark |
| SizeLimiting.EnsureLimit | client/src/main/java/com/nesscomputing/httpclient/io/SizeLimitingInputStream.java:52-64 | throws a size-exceeded error exactly when the count is above the limit, changing nothing |
| SizeLimiting.ReadByteAsWritten | client/src/main/java/com/nesscomputing/httpclient/io/SizeLimitingInputStream.java:66-76 | as written: a positive value read is added to the count, 32-bit wrapped, and the call throws exactly when the new count is above the limit |
| SizeLimiting.ReadChunkAsWritten | client/src/main/java/com/nesscomputing/httpclient/io/SizeLimitingInputStream.java:85-95 | as written: the number of bytes read is added to the 32-bit count, and the call throws exactly when it is then above the limit |
| SizeLimiting.SkipAsWritten | client/src/main/java/com/nesscomputing/httpclient/io/SizeLimitingInputStream.java:97-107 | as written: the low 32 bits of the skipped amount are added to the 32-bit count |
| SizeLimiting.Mark | client/src/main/java/com/nesscomputing/httpclient/io/SizeLimitingInputStream.java:109-114 | the current count is remembered and the wrapped stream is marked at its position; nothing else moves |
| SizeLimiting.ResetAsWritten | client/src/main/java/com/nesscomputing/httpclient/io/SizeLimitingInputStream.java:116-125 | as written: the count goes back to the mark only when the mark is above 0, the mark is forgotten, and the wrapped stream fails to reset without a mark |
| SizeLimiting.ReadByte | client/src/main/java/com/nesscomputing/httpclient/io/SizeLimitingInputStream.java:66-76 | intended: one byte read counts one, so count minus position is unchanged; -1 exactly at the end; throws exactly when the count passes the limit |
| SizeLimiting.ReadChunk | client/src/main/java/com/nesscomputing/httpclient/io/SizeLimitingInputStream.java:85-95 | intended: every byte read counts one in an unbounded counter |
| SizeLimiting.Skip | client/src/main/java/com/nesscomputing/httpclient/io/SizeLimitingInputStream.java:97-107 | intended: every byte skipped counts one in an unbounded counter |
| SizeLimiting.Reset | client/src/main/java/com/nesscomputing/httpclient/io/SizeLimitingInputStream.java:116-125 | intended: any mark that was taken restores the count; the wrapped stream returns to its mark or the call fails and leaves it as it was |
| SizeLimiting.ExecKeepsCounted | client/src/main/java/com/nesscomputing/httpclient/io/SizeLimitingInputStream.java:66-125 | every operation keeps the count at or above the bytes the wrapped stream has delivered |
| SizeLimiting.LimitNeverBypassed | client/src/main/java/com/nesscomputing/httpclient/io/SizeLimitingInputStream.java:52-125 | under any sequence of reads, skips, marks and resets that throws nothing, the wrapped stream never advances past the limit |
| SizeLimiting.ReadToEnd | client/src/main/java/com/nesscomputing/httpclient/io/SizeLimitingInputStream.java:66-76 | draining byte by byte succeeds exactly when the remaining bytes fit the limit and then returns all of them; otherwise it throws size-exceeded after delivering exactly the bytes the limit allowed |
| SizeLimiting.ReadToEndInBlocks | client/src/main/java/com/nesscomputing/httpclient/io/SizeLimitingInputStream.java:85-95 | reading read after read, each read getting what the wrapped stream returns, succeeds exactly when the remaining bytes fit the limit and then returns all of them; otherwise the read that crosses the limit is not delivered, so the reader gets a prefix within the limit that the next read would have carried past it, then size-exceeded |
| SizeLimiting.FullReadsDeliverWholeBlocks | client/src/main/java/com/nesscomputing/httpclient/io/SizeLimitingInputStream.java:85-95 | when the wrapped stream fills every read of a block, the truncated prefix is a whole number of blocks, fewer than one block short of the limit |
| SizeLimiting.ReadChunkAgreesWithAsWritten | client/src/main/java/com/nesscomputing/httpclient/io/SizeLimitingInputStream.java:85-95 | while the count stays within Integer.MAX_VALUE, the unbounded counter and the 32-bit one agree |
| SizeLimiting.ReadAll | client/src/main/java/com/nesscomputing/httpclient/io/SizeLimitingInputStream.java:42-76 | a fresh stream drained to the end yields all its bytes exactly when both the reported availability and the real size fit the limit; otherwise size-exceeded |
| SizeLimiting.ZeroBytesPassTheLimit | client/src/main/java/com/nesscomputing/httpclient/io/SizeLimitingInputStream.java:70-74 | three zero bytes read under a one-byte limit throw nothing |
| SizeLimiting.ZeroBytesCountedWhenIntended | client/src/main/java/com/nesscomputing/httpclient/io/SizeLimitingInputStream.java:70-74 | the same bytes under the intended counting throw on the second read |
| SizeLimiting.OneByteOverCounted | client/src/main/java/com/nesscomputing/httpclient/io/SizeLimitingInputStream.java:70-74 | a single byte of value 65 under a limit of ten throws as written and not as intended |
| SizeLimiting.GzipMagicOverCounted | client/src/main/java/com/nesscomputing/httpclient/io/SizeLimitingInputStream.java:66-76 | the gzip magic bytes 0x1f 0x8b, read one at a time, count 170 as written and throw on the second byte under a limit of 100; counted as intended, the first three header bytes pass |
| SizeLimiting.ResetToStartIgnored | client/src/main/java/com/nesscomputing/httpclient/io/SizeLimitingInputStream.java:116-125 | a mark at count 0 is ignored: reading five bytes twice around a reset throws under a limit of eight |
| SizeLimiting.ResetToStartRestored | client/src/main/java/com/nesscomputing/httpclient/io/SizeLimitingInputStream.java:116-125 | with the intended reset the same sequence stays within the limit |
| SizeLimiting.SkipTruncationBypassesLimit | client/src/main/java/com/nesscomputing/httpclient/io/SizeLimitingInputStream.java:97-107 | a skip of 2^32 bytes adds 0 to the count and passes a limit of 0, where the intended counting throws |
| ContentResponse.DecompressorFor | client/src/main/java/com/nesscomputing/httpclient/response/ContentResponseHandler.java:130-143 | lz4, gzip or x-gzip, and deflate each select their decompressor exactly when the trimmed header equals that name ignoring case; anything else, or no header, leaves the stream as it is |
| ContentResponse.DecompressorIgnoresCaseAndPadding | client/src/main/java/com/nesscomputing/httpclient/response/ContentResponseHandler.java:130-143 | two encodings equal after trimming and ignoring case select the same decompressor |
| ContentResponse.PaddedMixedCaseGzip | client/src/main/java/com/nesscomputing/httpclient/response/ContentResponseHandler.java:130-137 | " X-GZip" with a trailing tab selects gzip |
| ContentResponse.UnknownEncodingIsIdentity | client/src/main/java/com/nesscomputing/httpclient/response/ContentResponseHandler.java:130-143 | "br" and a missing header leave the stream undecoded |
| ContentResponse.WithLimit | client/src/main/java/com/nesscomputing/httpclient/response/ContentResponseHandler.java:70-73 | the two-argument handler keeps the limit and does not detect redirects |
| ContentResponse.BodyOf | client/src/main/java/com/nesscomputing/httpclient/response/ContentResponseHandler.java:104-116 | a body that is missing or cannot be fetched reads as an empty stream |
| ContentResponse.Prepare | client/src/main/java/com/nesscomputing/httpclient/response/ContentResponseHandler.java:113-143 | before any decompressor is built: with a positive limit, preparation fails with size-exceeded exactly when the declared length or the reported availability exceeds it, and otherwise wraps the body in a fresh limiter; with no positive limit the body passes unlimited |
| ContentResponse.Drain | client/src/main/java/com/nesscomputing/httpclient/response/ContentResponseHandler.java:127-145 | the converter reads the decompressor's output over what the limiter lets through once the decompressor is built; without a decompressor it reads the raw stream |
| ContentResponse.ReadPipe | client/src/main/java/com/nesscomputing/httpclient/response/ContentResponseHandler.java:121-128 | an unlimited body is read whole; a limited one is read through the limiter, read after read |
| ContentResponse.GzipHeaderUnlimited | client/src/main/java/com/nesscomputing/httpclient/response/ContentResponseHandler.java:135-137 | with no limit, building the gzip decompressor fails with end-of-stream, not-gzip or unsupported-method exactly as the first ten body bytes say, and otherwise leaves the body after those ten bytes |
| ContentResponse.SkipHeaderUnderLimit | client/src/main/java/com/nesscomputing/httpclient/response/ContentResponseHandler.java:135-137 | skipping header bytes through the limiter either consumes all of them, counting each one, or fails with end-of-stream when the body ends first or size-exceeded when the limit is reached first |
| ContentResponse.GzipHeaderUnderLimit | client/src/main/java/com/nesscomputing/httpclient/response/ContentResponseHandler.java:127-137 | counted as intended (each header byte one; the source counts byte values, see Findings): under a limiter within its limit the gzip header fails as the bytes to come and the remaining budget say, and otherwise leaves the limiter ten bytes further on |
| ContentResponse.GzipFlagsAsWritten | client/src/main/java/com/nesscomputing/httpclient/io/SizeLimitingInputStream.java:66-76 | with the source's `read()`, the flag byte adds its value and the six skipped bytes one each: the header fails with size-exceeded exactly when that takes the count past the limit, and otherwise leaves the limiter seven bytes on with that count |
| ContentResponse.GzipHeaderAsWritten | client/src/main/java/com/nesscomputing/httpclient/response/ContentResponseHandler.java:127-137 | with the source's `read()`, a well-formed fixed header under a fresh limiter costs 31 + 139 + 8 + FLG + 6: below that limit it fails with size-exceeded, from it on it leaves the limiter ten bytes in with that count |
| ContentResponse.OpenDecoder | client/src/main/java/com/nesscomputing/httpclient/response/ContentResponseHandler.java:130-143 | only the gzip decompressor reads while it is built; its header failure is an I/O failure, and lz4, deflate and no decompressor leave the stream untouched; an unlimited header, and a limited one counted as intended, fail exactly as the bytes and the budget say (the source's counting: see GzipHeaderOverCountedAsWritten) |
| ContentResponse.Handle | client/src/main/java/com/nesscomputing/httpclient/response/ContentResponseHandler.java:95-151 | for either counting of `read()`: a detected redirect is a redirect error; a preparation failure, a failure while building the decompressor and any I/O failure of the converter go to the converter's error hook; a success or a non-I/O failure is returned as it is |
| ContentResponse.RedirectSkipsConverter | client/src/main/java/com/nesscomputing/httpclient/response/ContentResponseHandler.java:98-100 | with redirect detection on, a redirected response gives the same error whatever the converter |
| ContentResponse.MissingBodyIsEmpty | client/src/main/java/com/nesscomputing/httpclient/response/ContentResponseHandler.java:104-116 | a missing body and an unfetchable one are prepared exactly as an empty body |
| ContentResponse.DefaultHandlerIsUnlimited | client/src/main/java/com/nesscomputing/httpclient/response/ContentResponseHandler.java:57-60 | the one-argument handler applies no limit and no redirect check: a gzip header failure goes to the error hook; otherwise the converter gets the whole (decoded) body, and an I/O failure of the converter goes to its error hook |
| ContentResponse.EmptyGzipBodyEndsInTheHeader | client/src/main/java/com/nesscomputing/httpclient/response/ContentResponseHandler.java:113-149 | a gzip response with an empty body, such as a 204, ends in the converter's error hook with an end-of-stream failure, whatever the limit and either counting of `read()` |
| ContentResponse.GzipHeaderCountsAgainstTheLimit | client/src/main/java/com/nesscomputing/httpclient/response/ContentResponseHandler.java:121-137 | counted as intended (the source counts byte values, see Findings): under a limit the gzip header is read through the limiter; it fails exactly when the header judged against the whole limit fails, and a good header spends ten bytes of the limit |
| ContentResponse.WellFormedHeaderBuildsAsIntended | client/src/main/java/com/nesscomputing/httpclient/response/ContentResponseHandler.java:121-137 | counted as intended, a gzip header with the right magic and method builds the decompressor under any limit of ten bytes or more |
| ContentResponse.GzipHeaderOverCountedAsWritten | client/src/main/java/com/nesscomputing/httpclient/response/ContentResponseHandler.java:113-149 | as written, a well-formed gzip body under a limit below 184 + FLG ends in the converter's error hook with size-exceeded before the converter runs; from that limit on the decompressor is built with 184 + FLG of the limit spent |
| ContentResponse.GzipUnderLimit100 | client/src/main/java/com/nesscomputing/httpclient/response/ContentResponseHandler.java:113-149 | as written, every well-formed gzip body under `new ContentResponseHandler(c, 100)` ends in the converter's error hook with size-exceeded |
| ContentResponse.DeclaredLengthOverLimitIsHandled | client/src/main/java/com/nesscomputing/httpclient/response/ContentResponseHandler.java:121-124 | a declared length above the limit reaches the converter's error hook whatever the body |
| ContentResponse.LimitedBodyIsTruncatedAtTheLimit | client/src/main/java/com/nesscomputing/httpclient/response/ContentResponseHandler.java:121-128 | under a limit an undecoded body reaches the converter whole exactly when it fits; otherwise the converter sees a prefix of at most maxBodyLength bytes, short of it by less than the read that crossed it, then size-exceeded |
| ContentResponse.LimitedBodyInWholeBlocks | client/src/main/java/com/nesscomputing/httpclient/response/ContentResponseHandler.java:121-128 | when every read is filled, the truncated body is whole blocks, fewer than one block short of maxBodyLength |
| ContentResponse.FirstBlockOverTheLimitDeliversNothing | client/src/main/java/com/nesscomputing/httpclient/response/ContentResponseHandler.java:121-128 | a 10-byte body under a limit of 5, read in filled blocks of 8192, delivers no bytes at all before size-exceeded |
| ContentResponse.ShortReadsDeliverBeforeTheLimit | client/src/main/java/com/nesscomputing/httpclient/response/ContentResponseHandler.java:121-128 | the same body read three bytes at a time delivers three bytes, then size-exceeded |
| ContentResponse.RethrowingHookSurfacesSizeFailure | client/src/main/java/com/nesscomputing/httpclient/response/ContentResponseHandler.java:147-149 | with a rethrowing error hook, a body reported larger than the limit reaches the caller as size-exceeded |
| Converters.Rethrow | client/src/main/java/com/nesscomputing/httpclient/response/AbstractErrorHandlingContentConverter.java:30-38 | the default error hook rethrows the failure it was given |
| Converters.ReadText | src/main/java/com/nesscomputing/httpclient/response/StringContentConverter.java:65-73 | the charset, UTF-8 when none is given, is looked up first and an unknown one is an illegal argument; then a read failure surfaces as it is; otherwise the body is decoded in that charset |
| Converters.ConvertString | src/main/java/com/nesscomputing/httpclient/response/StringContentConverter.java:58-89 | 200 and 201 give the body text, 204 and an ignored 404 give "", every other status is an HTTP response error |
| Converters.ConvertNumber | client/src/main/java/com/nesscomputing/httpclient/response/NumberContentConverter.java:72-113 | 200 and 201 parse the body text; an unparsable body is the empty value on 201 and an illegal argument on 200; 204 and an ignored 404 give the empty value; other statuses are HTTP response errors |
| Converters.LongConverter | client/src/main/java/com/nesscomputing/httpclient/response/NumberContentConverter.java:59-70 | the Long converter keeps the 404 policy it was given |
| Converters.LongConverterReadsItsOwnRendering | client/src/main/java/com/nesscomputing/httpclient/response/NumberContentConverter.java:59-93 | for Long the empty value is 0, and a 200 body decoding to any long's decimal rendering converts back to that long |
| Converters.ConvertJson | client/src/main/java/com/nesscomputing/httpclient/response/JsonContentConverter.java:71-103 | 200 returns what the mapper reads and fails as it fails; 201 gives no value exactly when the mapper hits a parse error; 204 and an ignored 404 give no value; other statuses are HTTP response errors |
| Converters.ConvertValid2xx | src/main/java/com/nesscomputing/httpclient/response/Valid2xxContentConverter.java:56-80 | true exactly for 200, 201 and 204; an error exactly when failing is on and the status is not answered; false otherwise |
| Converters.SharedStatusPolicy | src/main/java/com/nesscomputing/httpclient/response/Valid2xxContentConverter.java:56-80 | the string, number, JSON and failing 2xx converters refuse exactly the same statuses, with the same error |
| Converters.BodyIgnoredOutside200And201 | src/main/java/com/nesscomputing/httpclient/response/StringContentConverter.java:58-89 | outside 200 and 201 the string, number and JSON converters do not depend on the body |
| Converters.ReadFailureSurfaces | src/main/java/com/nesscomputing/httpclient/response/StringContentConverter.java:65-73 | on 200 and 201 an unknown charset is an illegal argument, and under a known one a read failure of the body is what the string and number converters return |
| Converters.Valid2xxPresets | src/main/java/com/nesscomputing/httpclient/response/Valid2xxContentConverter.java:32-34 | the three preset converters treat 404 and 500 as their flags say |
| StreamedJson.Expect | client/src/main/java/com/nesscomputing/httpclient/response/StreamedJsonContentConverter.java:134-139 | succeeds exactly when the token has the expected name; otherwise a parse error naming both; a broken stream fails with its own error |
| StreamedJson.Trailer | client/src/main/java/com/nesscomputing/httpclient/response/StreamedJsonContentConverter.java:123-126 | the stream ends normally exactly when the next field is "success" holding true |
| StreamedJson.Elements | client/src/main/java/com/nesscomputing/httpclient/response/StreamedJsonContentConverter.java:104-122 | elements accepted only grow, and the flag is set exactly when the callback interrupts at the next array element, failing with "Callback interrupted"; where the loop stops at a failure of the stream or at a token that is neither a value nor the array's end, it fails unchecked: an I/O failure there becomes an unchecked exception with it as the cause, as the mapping iterator rethrows it, so the handler's I/O error hook never sees it |
| StreamedJson.FailureInsideTheArrayIsUnchecked | client/src/main/java/com/nesscomputing/httpclient/response/StreamedJsonContentConverter.java:104-122 | an envelope whose stream fails (the size limit, say) after every element so far was accepted fails with an unchecked exception caused by that I/O failure, after delivering those elements |
| StreamedJson.ElementsFollowTheArray | client/src/main/java/com/nesscomputing/httpclient/response/StreamedJsonContentConverter.java:104-122 | the callback accepts a prefix of the array's elements, in order |
| StreamedJson.Envelope | client/src/main/java/com/nesscomputing/httpclient/response/StreamedJsonContentConverter.java:92-127 | success needs an object opening with field "results" holding an array, and what is accepted is a prefix of its elements |
| StreamedJson.Convert | client/src/main/java/com/nesscomputing/httpclient/response/StreamedJsonContentConverter.java:80-132 | 201 and 204 finish at once with nothing delivered, 200 streams the envelope, anything else is an HTTP response error |
| StreamedJson.EveryElementDelivered | client/src/main/java/com/nesscomputing/httpclient/response/StreamedJsonContentConverter.java:91-127 | a well-formed envelope whose callback accepts everything delivers every element in order and ends normally |
| StreamedJson.RefusalEndsNormally | client/src/main/java/com/nesscomputing/httpclient/response/StreamedJsonContentConverter.java:106-113 | a callback refusing an element ends the stream normally with exactly the elements before it accepted |
| StreamedJson.OneToTenScenarios | client/src/test/java/com/nesscomputing/httpclient/response/TestStreamedJsonContentConverter.java:41-68 | the envelope of 1..10 delivers all ten to an accepting callback and 1..4 to one refusing from 5, both ending normally |
| StreamedJson.MissingTrailerFails | client/src/main/java/com/nesscomputing/httpclient/response/StreamedJsonContentConverter.java:123-125 | an envelope cut after its array fails with "did not terminate normally" after delivering every element |
| InternalResponses.StatusCode | src/main/java/com/nesscomputing/httpclient/factory/httpclient4/InternalResponse.java:148-156 | the status line's code, 0 without a response or a status line |
| InternalResponses.StatusText | src/main/java/com/nesscomputing/httpclient/factory/httpclient4/InternalResponse.java:158-166 | the status line's reason phrase, "" without a response or a status line |
| InternalResponses.RedirectedExactly3xx | src/main/java/com/nesscomputing/httpclient/factory/httpclient4/InternalResponse.java:174-179 | a response is redirected exactly when its status is 300 to 399, so never without a response |
| InternalResponses.FirstIndex | src/main/java/com/nesscomputing/httpclient/factory/httpclient4/InternalResponse.java:88-96 | the position of the first header whose name matches ignoring case, no earlier one matching |
| InternalResponses.ValuesFor | src/main/java/com/nesscomputing/httpclient/factory/httpclient4/InternalResponse.java:98-110 | a name has values exactly when some header matches it, the first being the first match's value |
| InternalResponses.GetHeaders | src/main/java/com/nesscomputing/httpclient/factory/httpclient4/InternalResponse.java:98-110 | non-empty exactly when some header of the response matches the name ignoring case; empty without a response |
| InternalResponses.GetHeader | src/main/java/com/nesscomputing/httpclient/factory/httpclient4/InternalResponse.java:88-96 | present exactly when some header matches the name ignoring case, and then one such header's value |
| InternalResponses.GetHeaderHeadsGetHeaders | src/main/java/com/nesscomputing/httpclient/factory/httpclient4/InternalResponse.java:88-110 | the single-header lookup is the first of the multi-value lookup, and present exactly when that is non-empty |
| InternalResponses.ContentLength | src/main/java/com/nesscomputing/httpclient/factory/httpclient4/InternalResponse.java:57-74 | absent without a Content-Length header; otherwise the trimmed value parsed as a long, absent when it does not parse |
| InternalResponses.NegativeContentLength | src/main/java/com/nesscomputing/httpclient/factory/httpclient4/InternalResponse.java:57-74 | a Content-Length of "-1" reads as -1 |
| InternalResponses.PaddedContentLength | src/main/java/com/nesscomputing/httpclient/factory/httpclient4/InternalResponse.java:57-74 | a Content-Length of " 7 " reads as 7 |
| InternalResponses.UnparsableContentLength | src/main/java/com/nesscomputing/httpclient/factory/httpclient4/InternalResponse.java:57-74 | "7x", a missing header and a missing response give no length |
| InternalResponses.ContentType | src/main/java/com/nesscomputing/httpclient/factory/httpclient4/InternalResponse.java:44-55 | a content type is reported only for a response with an entity |
| InternalResponses.Charset | src/main/java/com/nesscomputing/httpclient/factory/httpclient4/InternalResponse.java:76-86 | a charset is reported only for a response with an entity |
| InternalResponses.BodyStream | src/main/java/com/nesscomputing/httpclient/factory/httpclient4/InternalResponse.java:136-146 | the entity's content, or an empty stream without a response or an entity |
| InternalResponses.ViewOf | src/main/java/com/nesscomputing/httpclient/factory/httpclient4/InternalResponse.java:44-179 | what the response handlers see is the status, redirect flag, parsed length, Content-Encoding header and body stream of the response |
| InternalResponses.AddHeaderKeepsGrouping | src/main/java/com/nesscomputing/httpclient/factory/httpclient4/InternalResponse.java:120-131 | adding one header to a grouping of the earlier headers groups all of them exactly |
| InternalResponses.GroupAllIsExact | src/main/java/com/nesscomputing/httpclient/factory/httpclient4/InternalResponse.java:112-134 | the grouping has one entry per case-insensitive name, named as first seen, holding every value of that name in order |
| InternalResponses.AllHeaders | src/main/java/com/nesscomputing/httpclient/factory/httpclient4/InternalResponse.java:112-134 | without a response a null-pointer failure; otherwise the exact case-insensitive grouping of the response's headers, as contents, not as the sorted order of its keys |
| InternalResponses.MixedCaseLookups | src/test/java/com/nesscomputing/httpclient/factory/httpclient4/InternalResponseTest.java:41-61 | namE1, Name1 and NAME1 are all found by "name1" and by "naMe1", values in order |
| InternalResponses.MixedCaseHeadersCollapse | src/test/java/com/nesscomputing/httpclient/factory/httpclient4/InternalResponseTest.java:41-61 | the three spellings collapse into one entry named namE1 holding val1, val2, val3 |
| TestingResponses.GetHeaders | src/main/java/com/nesscomputing/httpclient/testing/FixedResponseGenerator.java:166-170 | an exact table answers exactly for names it holds, with their list; a metadata table answers, non-empty, exactly for names some entry matches ignoring case |
| TestingResponses.GetHeader | src/main/java/com/nesscomputing/httpclient/testing/FixedResponseGenerator.java:154-164 | absent names give null, present names their first value, and only a stored empty list fails |
| TestingResponses.FixedOfBytes | src/main/java/com/nesscomputing/httpclient/testing/FixedResponseGenerator.java:34-56 | a fresh generator answers 200, "", text/plain, utf-8, no redirect, no URI, no headers, and a length equal to its buffer |
| TestingResponses.FixedOfText | src/main/java/com/nesscomputing/httpclient/testing/FixedResponseGenerator.java:47-50 | the text constructor is the byte constructor over the text's UTF-8 encoding |
| TestingResponses.Configure | src/main/java/com/nesscomputing/httpclient/testing/FixedResponseGenerator.java:58-92 | each setter keeps the headers, the buffer and the redirect flag |
| TestingResponses.AddHeader | src/main/java/com/nesscomputing/httpclient/testing/FixedResponseGenerator.java:94-104 | the value is appended to the key's list, created if missing; every other key is untouched |
| TestingResponses.RespondFixed | src/main/java/com/nesscomputing/httpclient/testing/FixedResponseGenerator.java:107-184 | the generated response reports exactly the generator's fields, its buffer and its header table |
| TestingResponses.SettersChangeOneGetter | src/main/java/com/nesscomputing/httpclient/testing/FixedResponseGenerator.java:58-92 | each setter changes exactly the one getter it names, and chunked sets the length to -1 |
| TestingResponses.AddedHeadersComeBackInOrder | src/main/java/com/nesscomputing/httpclient/testing/FixedResponseGenerator.java:94-170 | values added under a new key come back in order, the first one from getHeader |
| TestingResponses.ValidFixedHeaderLookup | src/main/java/com/nesscomputing/httpclient/testing/FixedResponseGenerator.java:154-164 | a generator whose lists are all non-empty never fails getHeader, which answers exactly for the added keys |
| TestingResponses.NewJaxRs | testing/src/main/java/com/nesscomputing/httpclient/testing/JaxRsResponseHttpResponseGenerator.java:73-116 | more than one Content-Type is an illegal argument and a single one that does not parse as a media type is the parser's failure; otherwise the content type is the parsed one or the entity's default, the body is the entity's bytes (empty, UTF-8 text, raw bytes or the mapper's output, a missing mapper being a null pointer and a failing one an illegal state), its length is the body length and the charset UTF-8 |
| TestingResponses.RespondJaxRs | testing/src/main/java/com/nesscomputing/httpclient/testing/JaxRsResponseHttpResponseGenerator.java:118-186 | the response reports the status, the request's URI, the derived fields and body, the metadata as headers and no redirect; an unknown status has no reason phrase and its status text fails |
| TestingResponses.JaxRsLengthIsBodyLength | testing/src/main/java/com/nesscomputing/httpclient/testing/JaxRsResponseHttpResponseGenerator.java:113-147 | the reported content length is always the number of body bytes, and the charset UTF-8 |
| TestingResponses.HeaderTestContentType | testing/src/test/java/com/nesscomputing/httpclient/testing/TestingHttpClientBuilderTest.java:198-210 | the builder test's response with entity {"a":"okay"} is accepted with its declared content type as the media-type parser renders it, and fails as the parser does otherwise |
| TestingResponses.HeaderTestLookups | testing/src/test/java/com/nesscomputing/httpclient/testing/TestingHttpClientBuilderTest.java:198-224 | "magic" gives a, then a, b, c; "Content-Language" gives klingon; "bogus" gives null from both getters |
| TestingDispatch.ApplyMethodPath | testing/src/main/java/com/nesscomputing/httpclient/testing/MethodPathMatcher.java:32-35 | matches exactly when the verb is the matcher's and the request URI's path equals the matcher's path; a different verb never matches; a matching verb with no URI path fails with a null pointer |
| TestingDispatch.MatcherEqualsIsEquality | testing/src/main/java/com/nesscomputing/httpclient/testing/MethodPathMatcher.java:51-74 | two matchers are equal exactly when verb and path are |
| TestingDispatch.MatcherHash | testing/src/main/java/com/nesscomputing/httpclient/testing/MethodPathMatcher.java:42-49 | the hash is 31 times (31 plus the verb's hash) plus the path's String.hashCode, wrapped to 32 bits; 961 for a matcher without verb and path |
| TestingDispatch.EqualMatchersHashAlike | testing/src/main/java/com/nesscomputing/httpclient/testing/MethodPathMatcher.java:42-74 | equal matchers hash equally |
| TestingDispatch.Apply | testing/src/main/java/com/nesscomputing/httpclient/testing/TestingHttpClientBuilder.java:107-136 | a method-and-path matcher applies as above; a custom matcher answers what its own predicate answers |
| TestingDispatch.Respond | testing/src/main/java/com/nesscomputing/httpclient/testing/TestingHttpClientFactory.java:103 | a thrown exception is the failure, a fixed or JAX-RS generator answers its canned response, a custom one whatever it answers |
| TestingDispatch.RespondWith | testing/src/main/java/com/nesscomputing/httpclient/testing/TestingHttpClientBuilder.java:107-123 | registering appends one entry after all earlier ones, keeping the mapper and observers |
| TestingDispatch.On | testing/src/main/java/com/nesscomputing/httpclient/testing/TestingHttpClientBuilder.java:129-136 | on(verb).of(path) is the method-and-path matcher for that verb and path |
| TestingDispatch.RespondWithException | testing/src/main/java/com/nesscomputing/httpclient/testing/TestingHttpClientBuilder.java:113-116 | responding with an exception registers a generator that throws it |
| TestingDispatch.RespondWithResponse | testing/src/main/java/com/nesscomputing/httpclient/testing/TestingHttpClientBuilder.java:109-112 | responding with a JAX-RS response registers its generator over the current mapper and media-type parser, or fails as its constructor fails |
| TestingDispatch.ObserveRequest | testing/src/main/java/com/nesscomputing/httpclient/testing/TestingHttpClientFactory.java:83-85 | the observer chain over the set's iteration order: with no observers the request is unchanged, with one it is that observer's result, and a failure of the first observer is the result |
| TestingDispatch.ObserveResponse | testing/src/main/java/com/nesscomputing/httpclient/testing/TestingHttpClientFactory.java:105-107 | the same for the response observers |
| TestingDispatch.WithObjectMapper | testing/src/main/java/com/nesscomputing/httpclient/testing/TestingHttpClientBuilder.java:89-93 | sets the mapper and nothing else |
| TestingDispatch.WithObserver | testing/src/main/java/com/nesscomputing/httpclient/testing/TestingHttpClientBuilder.java:151-155 | adds the observer to the set and nothing else |
| TestingDispatch.DuplicateAt | testing/src/main/java/com/nesscomputing/httpclient/testing/TestingHttpClientBuilder.java:68 | reports whether two entries from the given position on share a matcher |
| TestingDispatch.Build | testing/src/main/java/com/nesscomputing/httpclient/testing/TestingHttpClientBuilder.java:95-102 | building fails with an illegal argument exactly when two entries share a matcher; otherwise a factory with the entries in order and the observers, neither started nor stopped |
| TestingDispatch.BodySourceFor | testing/src/main/java/com/nesscomputing/httpclient/testing/TestingHttpClientFactory.java:73-76 | a body source over the content, without encoding and not yet read |
| TestingDispatch.Start | testing/src/main/java/com/nesscomputing/httpclient/testing/TestingHttpClientFactory.java:126-130 | marks the factory started and changes nothing else |
| TestingDispatch.Stop | testing/src/main/java/com/nesscomputing/httpclient/testing/TestingHttpClientFactory.java:132-136 | marks the factory stopped and changes nothing else |
| TestingDispatch.StartStopCommute | testing/src/main/java/com/nesscomputing/httpclient/testing/TestingHttpClientFactory.java:126-148 | start and stop commute and together leave the factory started and stopped |
| TestingDispatch.ExactValues | testing/src/main/java/com/nesscomputing/httpclient/testing/TestingHttpClientFactory.java:112-118 | the values of headers with exactly the name: empty exactly when none has it, two or more only when two headers have it |
| TestingDispatch.ExactHeader | testing/src/main/java/com/nesscomputing/httpclient/testing/TestingHttpClientFactory.java:112-124 | none when no header has exactly the name, an illegal argument when two do, otherwise the value of one that does |
| TestingDispatch.TwoExactHeadersRefused | testing/src/main/java/com/nesscomputing/httpclient/testing/TestingHttpClientFactory.java:119 | any two headers of exactly the name make the lookup fail |
| TestingDispatch.FirstMatch | testing/src/main/java/com/nesscomputing/httpclient/testing/TestingHttpClientFactory.java:87-96 | the first entry in registration order whose matcher accepts, every earlier one declining; a throwing matcher ends the search with its failure |
| TestingDispatch.PrepareBody | testing/src/main/java/com/nesscomputing/httpclient/testing/TestingHttpClientFactory.java:98-102 | a request without a body source is unchanged; otherwise its source receives the exact Content-Type and Content-Encoding headers, and repeated ones fail |
| TestingDispatch.Perform | testing/src/main/java/com/nesscomputing/httpclient/testing/TestingHttpClientFactory.java:78-110 | observers see the request first; no accepting matcher is an illegal state; a failure of the request observers, a matcher, the body preparation, the generator or the response observers is rethrown; the chosen response passes the observers and then the request's handler, and no handler is a null pointer |
| TestingDispatch.GetContent | testing/src/main/java/com/nesscomputing/httpclient/testing/TestingHttpClientFactory.java:171-186 | the first read of bytes or text is buffered and every later read returns that buffer; text is encoded in the content encoding, UTF-8 without one; a caller's stream is handed back; any other object is unsupported |
| TestingDispatch.ContentIsReadOnce | testing/src/main/java/com/nesscomputing/httpclient/testing/TestingHttpClientFactory.java:154-186 | after a successful read, reading again gives the same result and leaves the source unchanged, even after a new encoding is set |
| TestingDispatch.TextUsesContentEncoding | testing/src/main/java/com/nesscomputing/httpclient/testing/TestingHttpClientFactory.java:98-102 | a text body is encoded in the encoding taken from the request's Content-Encoding header |
| TestingDispatch.EmptyClientRefuses | testing/src/test/java/com/nesscomputing/httpclient/testing/TestingHttpClientBuilderTest.java:59-65 | a client built with no entries refuses every request with an illegal state |
| TestingDispatch.EarliestMatchAnswers | testing/src/main/java/com/nesscomputing/httpclient/testing/TestingHttpClientBuilder.java:35-41 | of several accepting entries, none after the earliest answers |
| TestingDispatch.ExceptionIsRethrown | testing/src/test/java/com/nesscomputing/httpclient/testing/TestingHttpClientBuilderTest.java:117-132 | a GET of /exception registered to throw "danger" throws exactly that |
| TestingDispatch.SimpleResponseDispatch | testing/src/test/java/com/nesscomputing/httpclient/testing/TestingHttpClientBuilderTest.java:67-87 | /whozamit, /foo and / each reach their own generator, and any other path none |
| Clients.NewClient | client/src/main/java/com/nesscomputing/httpclient/HttpClient.java:80-88 | a client exists exactly when both a factory and defaults are given; a missing factory is reported first, then missing defaults |
| Clients.Start | client/src/main/java/com/nesscomputing/httpclient/HttpClient.java:91-95 | starting a client starts its factory, whichever it is: a client not yet stopped is started afterwards, and starting never stops or un-stops it |
| Clients.Stop | client/src/main/java/com/nesscomputing/httpclient/HttpClient.java:97-101 | stopping a client stops its factory, whichever it is: a started client, or any client over the testing factory, ends stopped; an Apache client never started is untouched |
| Clients.Close | client/src/main/java/com/nesscomputing/httpclient/HttpClient.java:113-120 | closing is stopping |
| Clients.StartThenCloseStops | client/src/main/java/com/nesscomputing/httpclient/HttpClient.java:91-120 | a fresh client started and then closed reports started and stopped, and over the Apache factory a second start and close change nothing |
| Clients.CloseBeforeStart | client/src/main/java/com/nesscomputing/httpclient/HttpClient.java:97-120 | closing a fresh client marks the testing factory stopped and leaves the Apache factory as it was |
| Clients.Open | client/src/main/java/com/nesscomputing/httpclient/HttpClient.java:152-155 | each verb with a URI starts an empty builder for that verb, URI and handler over the client's factory |
| Clients.OpenText | client/src/main/java/com/nesscomputing/httpclient/HttpClient.java:162-165 | each verb with a string parses it as a URI first and fails as the parse fails |
| Clients.ParseMethod | client/src/main/java/com/nesscomputing/httpclient/HttpClient.java:270-276 | a null name is a null pointer; a name is accepted exactly when its upper-case form is one of the six verb names, and then gives that verb; otherwise an illegal argument naming it |
| Clients.Perform | client/src/main/java/com/nesscomputing/httpclient/HttpClient.java:270-279 | perform opens the same builder as the parsed verb's own method, or fails as the parse fails |
| Clients.MethodNamesRoundTrip | client/src/main/java/com/nesscomputing/httpclient/HttpClient.java:270-279 | every verb is found from its name in any mix of case, and perform then opens that verb's builder |
| Clients.UnknownMethodRefused | client/src/main/java/com/nesscomputing/httpclient/HttpClient.java:273-276 | "patch" is refused as "Unknown HTTP method type patch" |
| CookieSpecs.NewInstance | client/src/main/java/com/nesscomputing/httpclient/factory/httpclient4/NessCookieSpecFactory.java:36-58 | the spec is named "ness" and handles the domain attribute with the ness domain handler |
| CookieSpecs.Parse | client/src/main/java/com/nesscomputing/httpclient/factory/httpclient4/NessCookieSpecFactory.java:64-78 | a null cookie is an illegal argument, a null domain malformed, a domain of only characters up to space malformed as blank; otherwise the domain is set exactly as given |
| CookieSpecs.BlankTrimsToEmpty | client/src/main/java/com/nesscomputing/httpclient/factory/httpclient4/NessCookieSpecFactory.java:74 | trimming leaves nothing exactly when every character is at most a space |
| CookieSpecs.Validate | client/src/main/java/com/nesscomputing/httpclient/factory/httpclient4/NessCookieSpecFactory.java:80-92 | only a null cookie or a null origin is refused, as illegal arguments |
| CookieSpecs.Match | client/src/main/java/com/nesscomputing/httpclient/factory/httpclient4/NessCookieSpecFactory.java:94-106 | every cookie matches every origin; only null arguments are refused, as by validate |
| CookieSpecs.ParsedCookiesGoEverywhere | client/src/main/java/com/nesscomputing/httpclient/factory/httpclient4/NessCookieSpecFactory.java:64-106 | a cookie parsed with any non-blank domain validates against and matches every origin |
| CookieSpecs.DomainKeptVerbatim | client/src/main/java/com/nesscomputing/httpclient/factory/httpclient4/NessCookieSpecFactory.java:64-78 | a padded domain is kept with its padding, and one of a space and a tab is refused |

## Left out

- The network exchange, Apache's `DefaultHttpClient`, connection managers, scheme registries and `SSLContext` set-up: these are foreign library calls and I/O. `PrepareRequest` stops at the request handed to Apache, and `DeliverResponse` starts from the response it returns.
- Parameters are copied into the Apache request, the request's `followRedirects` setting is copied into a per-request copy of the client parameters (ApacheHttpClient4Factory.java:376, 540-547), and the request builder's settings reach the connection context (`HttpClient.setDefaults`). All of these consist only of calls into Apache.
- The idle connection reaper thread is modelled only as a flag that is running or not. The thread itself is concurrency.
- Cookie expiry reads the wall clock. The clock is the `now` parameter of `ToClientCookie`.
- Keystores and truststores are not loaded from disk or classpath. Each check's verdict and each delegate's issuers are parameters; a failure to load becomes the `loadFailure` parameter of `NewFactory`.
- The iteration order of hash sets is not modelled; where it matters it is an explicit parameter.
  - The trust combinator is proved independent of it (`Trust.MultiOrderIrrelevant`).
  - The testing factory receives it as `order`, constrained to enumerate its observer set.
- Guice injection is not modelled. Bindings are maps from group to observers, and an absent optional binding is `None`. `findObservers(key)` is the `Option` argument of `FactoryObservers`.
- Character handling:
  - case folding is ASCII only;
  - `Long.parseLong` accepts ASCII digits only;
  - charsets are named by strings, and decoding and encoding are parameters.
- Decompression (LZ4, gzip, raw deflate) is a tag plus an `inflate` parameter.
- The JSON parser is reduced to the token stream it yields. An object element is one opaque `JObject` value.
- `RegexPathMatcher` (`onRegex`) is left out. Its matching is Java's regular expression engine.
- Responses are snapshots. Several generated responses do not share one body stream, whereas the source hands the same stream to every call; a second read of it is not modelled.
- `available()` is a number given with the body. The model assumes nothing relating it to the real length, as the source does not.
- Logging, `toString` texts other than the cookie policy name, and `getConnectionContext` are left out.
- The `src/` copies of `TestingHttpClientFactory` and `MethodPathMatcher` are left out, and so is the `io/trumpet` package. They duplicate the `testing/` module and the `com/nesscomputing` classes that are modelled. `FixedResponseGenerator`, `StringContentConverter`, `Valid2xxContentConverter`, `InternalResponse` and `HttpClientRequest` exist only under `src/` and are modelled from there.
- `request()` is not disconnected from later builder changes. The source wraps the builder's own lists, so only the state at the moment of the call is modelled.
- TestingDispatch.Perform: its IllegalStateException message is "No response matcher found for request" without the request's `toString`.
- TestingDispatch.ObserveRequest and TestingDispatch.ObserveResponse: the observers are parameters, so only the empty, single-observer and first-failure cases are stated; both are `ObserverChains.ApplyObservers`, so its composition lemma applies to them.
- ApacheFactory.PrepareRequest: the cookies are stated as the sequence of `addCookie` calls. Apache's `BasicCookieStore` replaces an earlier cookie of the same name, domain and path and purges expired ones; that is library behaviour and is not modelled.
- ApacheFactory.ContributeAcceptEncoding: the rebuilt request takes its body source from the factory that performs it, where `fromRequest(...).request()` uses the request's own factory. The two differ only for a request built by another factory.
- How many bytes each `read(b, off, len)` of a consumer gets is the `served` parameter (`SizeLimiting.Reads`, keyed by stream position): the consumer's buffer size, or less when the wrapped stream returns a short read. Which sizes a real socket returns is not modelled. `ReadChunk` counts in an unbounded integer; `SizeLimiting.ReadChunkAgreesWithAsWritten` shows it agrees with the 32-bit field while the count cannot pass Integer.MAX_VALUE.
- SizeLimiting.ReadChunkAsWritten: a negative `len` is not modelled; the wrapped stream throws `IndexOutOfBoundsException` for it before the limiter counts anything.
- ContentResponse.OpenDecoder: only the fixed ten bytes of the gzip member header (section 2.3 of RFC 1952) are read while the decompressor is built. The optional FEXTRA, FNAME, FCOMMENT and FHCRC fields, the trailer, and a wrong header CRC are left to the `inflate` parameter.
- The gzip header's single-byte reads are modelled with both countings (`ContentResponse.Counting`): as written, `read()` adds the byte values, and counted as intended it adds one per byte (see Findings).
- ContentResponse.OpenDecoder: under a limit its contract states the header only for the intended counting. With the source's counting, a well-formed header is stated by `ContentResponse.GzipHeaderOverCountedAsWritten`; for a malformed one, which fails anyway, only that the failure is an I/O failure is stated.
- ContentResponse.GzipHeaderUnderLimit: states the intended counting. The source's counting is stated by `ContentResponse.GzipHeaderAsWritten` for a well-formed header under a fresh limiter, the only limiter the handler builds the decompressor over.
- ContentResponse.GzipHeaderCountsAgainstTheLimit: states the intended counting; as written the header costs 184 + FLG rather than ten (`ContentResponse.GzipHeaderOverCountedAsWritten`).
- StreamedJson.Elements: Jackson's `MappingIterator` is not part of this model. Its rethrowing of an I/O failure from `hasNext` or `next` as an unchecked exception is modelled as `UncheckedIo`, with the failure as its cause and without its message text. An element that is itself an array is not modelled: elements are scalars or whole objects.
- TestingDispatch.GetContent: the memoised stream is one `ByteArrayInputStream` whose read position every caller shares; the model hands back the buffered bytes and does not model that position.
- Credentials.GetCredentials: a custom provider's `acceptRequest`, `getUser` and `getPassword` are parameters and are assumed not to throw.
- Which charset names the JVM knows is the `supported` parameter of `Charsets`, and `Charset.decode` is its `decode` parameter.
- TestingResponses.NewJaxRs: `MediaType.valueOf` is the `mediaType` parameter, so nothing is stated about which strings parse.
- Clients.OpenText: `URI.create` is the `parse` parameter, so nothing is stated about which strings parse.
- CookieSpecs.NewInstance: the rest of Apache's browser-compatible policy is inherited and is not modelled.
- Converters.ConvertJson: what Jackson reads is the `read` parameter. A null body returned by Jackson and the entity type reference are not modelled.

## Findings

| source | as written | input that shows it | evidently intended | confidence | as-written member | corrected member |
|---|---|---|---|---|---|---|
| client/src/main/java/com/nesscomputing/httpclient/io/SizeLimitingInputStream.java:70-73 | `read()` adds the VALUE of the byte read to the count | three zero bytes under a limit of 1 pass; one byte 65 under a limit of 10 throws; every well-formed gzip body under a limit of 100 throws on its second header byte and reaches the converter's error hook as size-exceeded | every byte read counts one, as in `read(b, off, len)` | high, not executed | SizeLimiting.ReadByteAsWritten, SizeLimiting.ZeroBytesPassTheLimit, SizeLimiting.OneByteOverCounted, SizeLimiting.GzipMagicOverCounted, ContentResponse.GzipHeaderAsWritten, ContentResponse.GzipHeaderOverCountedAsWritten, ContentResponse.GzipUnderLimit100 | SizeLimiting.ReadByte, SizeLimiting.LimitNeverBypassed, SizeLimiting.ZeroBytesCountedWhenIntended, ContentResponse.GzipHeaderUnderLimit, ContentResponse.GzipHeaderCountsAgainstTheLimit, ContentResponse.WellFormedHeaderBuildsAsIntended |
| client/src/main/java/com/nesscomputing/httpclient/io/SizeLimitingInputStream.java:120-122 | `reset()` restores the count only when the mark is above 0 | mark a fresh stream of 5 bytes, read 5, reset, read 5 again under a limit of 8: throws | a mark taken at count 0 restores the count to 0 | high, not executed | SizeLimiting.ResetAsWritten, SizeLimiting.ResetToStartIgnored | SizeLimiting.Reset, SizeLimiting.ResetToStartRestored, SizeLimiting.LimitNeverBypassed |
| client/src/main/java/com/nesscomputing/httpclient/io/SizeLimitingInputStream.java:101-104 | `skip()` adds `(int)` of the `long` skipped, keeping its low 32 bits | skipping 2^32 bytes under a limit of 0 adds 0 and passes | every skipped byte counts | medium, not executed | SizeLimiting.SkipAsWritten, SizeLimiting.SkipTruncationBypassesLimit | SizeLimiting.Skip, SizeLimiting.LimitNeverBypassed |

=== FILE: apache_factory.dfy ===
/** `ApacheHttpClient4Factory`: the lifecycle (started / stopped), the body
    sources it hands out, and everything it does to a request before the
    Apache client sends it: request observers, the default
    `Accept-Encoding`, the HTTP method, headers, virtual host, cookies and
    credentials. The network exchange itself is not modelled; what comes
    back goes through the response observers and the handler. */
module ApacheFactory {
  import opened Outcomes
  import opened BodySources
  import opened Requests
  import Strings
  import Sequences
  import Trust
  import opened ObserverChains

  datatype Lifecycle = Lifecycle(started: bool, stopped: bool, idleThread: bool)

  datatype ClientDefaults = ClientDefaults(ssl: Trust.SslDefaults, defaultAcceptEncoding: Option<string>)

  datatype Factory = Factory(
    life: Lifecycle,
    idleTimeout: int,
    retries: int,
    defaultAcceptEncoding: Option<string>,
    trustManager: Trust.TrustManager,
    keyManager: Option<Trust.KeyManager>)

  const ACCEPT_ENCODING: string := "Accept-Encoding"
  const DEFAULT_RETRIES: int := 3

  /** The constructor: `clientDefaults` must be non-null; a failure while
      loading key material (`loadFailure`) becomes an illegal state; the
      default accept encoding is trimmed, blank meaning none. */
  function NewFactory(defaults: Option<ClientDefaults>, loadFailure: Option<string>): (r: Result<Factory>)
    ensures defaults.None? ==> r.Err? && r.failure.IllegalArgument?
    ensures defaults.Some? && loadFailure.Some? ==> r.Err? && r.failure.IllegalState?
    ensures r.Ok? ==>
      var f := r.value;
      && !f.life.started && !f.life.stopped && !f.life.idleThread
      && f.retries == DEFAULT_RETRIES && f.idleTimeout == 0
      && f.defaultAcceptEncoding == Strings.TrimToNull(defaults.value.defaultAcceptEncoding)
      && f.trustManager == Trust.TrustManagerFor(defaults.value.ssl)
      && f.keyManager == Trust.KeyManagersFor(defaults.value.ssl)
    ensures r.Ok? <==> defaults.Some? && loadFailure.None?
  {
    if defaults.None? then Err(IllegalArgument("clientDefaults can not be null!"))
    else if loadFailure.Some? then Err(IllegalState(loadFailure.value))
    else
      var d := defaults.value;
      Ok(Factory(Lifecycle(false, false, false), 0, DEFAULT_RETRIES,
                 Strings.TrimToNull(d.defaultAcceptEncoding),
                 Trust.TrustManagerFor(d.ssl), Trust.KeyManagersFor(d.ssl)))
  }

  predicate Running(f: Factory) { f.life.started && !f.life.stopped }

  /** `start`: only a factory that was neither started nor stopped starts;
      the idle-connection reaper runs when an idle timeout is set. */
  function Start(f: Factory): (r: Factory)
    ensures !f.life.started && !f.life.stopped ==> Running(r) && (r.life.idleThread <==> f.idleTimeout > 0)
    ensures f.life.started || f.life.stopped ==> r == f
    ensures r.(life := f.life) == f
  {
    if !f.life.started && !f.life.stopped then f.(life := Lifecycle(true, false, f.idleTimeout > 0)) else f
  }

  /** `stop`: only a running factory stops, and it stops for good. */
  function Stop(f: Factory): (r: Factory)
    ensures Running(f) ==> r.life.stopped && r.life.started && !r.life.idleThread
    ensures !Running(f) ==> r == f
    ensures r.(life := f.life) == f
  {
    if Running(f) then f.(life := Lifecycle(true, true, false)) else f
  }

  /** `checkRunning`, called before handing out body sources and before
      performing requests. */
  function CheckRunning(f: Factory): (r: Result<()>)
    ensures r.Ok? <==> Running(f)
    ensures r.Err? ==> r.failure.IllegalState?
  {
    if Running(f) then Ok(()) else Err(IllegalState("Factory was not started!"))
  }

  /** `setIdleTimeout` through the connection context: allowed at any time,
      read only by a later `start`. */
  function SetIdleTimeout(f: Factory, timeout: int): (r: Factory)
    ensures r.idleTimeout == timeout && r.(idleTimeout := f.idleTimeout) == f
  {
    f.(idleTimeout := timeout)
  }

  datatype LifeOp = StartOp | StopOp

  function Apply(f: Factory, op: LifeOp): Factory {
    match op
    case StartOp => Start(f)
    case StopOp => Stop(f)
  }

  /** Applies the operations in order. */
  function Run(f: Factory, ops: seq<LifeOp>): (r: Factory)
    decreases |ops|
  {
    if |ops| == 0 then f else Apply(Run(f, ops[..|ops| - 1]), ops[|ops| - 1])
  }

  /** From a fresh factory: it has started iff some `start` happened, and it
      has stopped iff a `stop` followed some `start`. So it is running
      exactly when it was started and never stopped afterwards; a `stop`
      before the first `start` is ignored and nothing restarts a stopped
      factory. */
  lemma {:induction false} LifecycleHistory(f: Factory, ops: seq<LifeOp>)
    requires !f.life.started && !f.life.stopped
    ensures Run(f, ops).life.started <==> exists i :: 0 <= i < |ops| && ops[i] == StartOp
    ensures Run(f, ops).life.stopped <==> exists i, j :: 0 <= i < j < |ops| && ops[i] == StartOp && ops[j] == StopOp
    ensures Run(f, ops).life.stopped ==> Run(f, ops).life.started
    decreases |ops|
  {
    if |ops| > 0 {
      var pre := ops[..|ops| - 1];
      LifecycleHistory(f, pre);
      assert forall i :: 0 <= i < |pre| ==> pre[i] == ops[i];
      if Run(f, ops).life.stopped && !Run(f, pre).life.stopped {
        assert ops[|ops| - 1] == StopOp;
        var i :| 0 <= i < |pre| && pre[i] == StartOp;
        assert ops[i] == StartOp;
      }
      if exists i, j :: 0 <= i < j < |ops| && ops[i] == StartOp && ops[j] == StopOp {
        var i, j :| 0 <= i < j < |ops| && ops[i] == StartOp && ops[j] == StopOp;
        if j < |ops| - 1 {
          assert pre[i] == StartOp && pre[j] == StopOp;
        } else {
          assert pre[i] == StartOp;
        }
      }
      if exists i :: 0 <= i < |ops| && ops[i] == StartOp {
        var i :| 0 <= i < |ops| && ops[i] == StartOp;
        if i < |ops| - 1 {
          assert pre[i] == StartOp;
        }
      }
    }
  }

  /** A stopped factory is final. */
  lemma StoppedIsFinal(f: Factory, ops: seq<LifeOp>)
    requires f.life.stopped
    ensures Run(f, ops) == f
    decreases |ops|
  {
    if |ops| > 0 {
      StoppedIsFinal(f, ops[..|ops| - 1]);
    }
  }

  /** `getHttpBodySourceFor`: strings become UTF-8 string entities, byte
      arrays byte-array entities, streams stream entities of unknown
      length (-1); any other object gets no body source. */
  function BodySourceFor(f: Factory, content: Content): (r: Result<Option<BodySource>>)
    ensures !Running(f) ==> r.Err? && r.failure.IllegalState?
    ensures Running(f) ==> r.Ok? && (r.value.Some? <==> content.IsBuilderContent())
    ensures r.Ok? && r.value.Some? ==>
      && r.value.value.Internal?
      && r.value.value.contentType.None? && r.value.value.contentEncoding.None?
      && (content.Text? ==> r.value.value.entity == StringEntity(content.text))
      && (content.Bytes? ==> r.value.value.entity == ByteArrayEntity(content.bytes))
      && (content.Stream? ==> r.value.value.entity == InputStreamEntity(content.streamId, -1))
  {
    if !Running(f) then Err(IllegalState("Factory was not started!"))
    else
      match content
      case Text(t) => Ok(Some(Internal(StringEntity(t), None, None)))
      case Bytes(b) => Ok(Some(Internal(ByteArrayEntity(b), None, None)))
      case Stream(id) => Ok(Some(Internal(InputStreamEntity(id, -1), None, None)))
      case OtherObject(_) => Ok(None)
  }

  function SourceFor(f: Factory): Content -> Result<Option<BodySource>> {
    c => BodySourceFor(f, c)
  }

  predicate IsAcceptEncoding(h: Header) {
    Strings.EqualsIgnoreCase(ACCEPT_ENCODING, h.name)
  }

  predicate HasAcceptEncoding(headers: seq<Header>) {
    exists i :: 0 <= i < |headers| && IsAcceptEncoding(headers[i])
  }

  /** `contributeAcceptEncoding`: without a configured default, or when the
      request already carries an `Accept-Encoding` header (in any letter
      case), the request is used as it is; otherwise it is rebuilt through
      a builder with the default appended as the last header. */
  function ContributeAcceptEncoding(f: Factory, r: Request): (out: Result<Request>)
    requires Running(f)
    ensures out.Ok?
    ensures f.defaultAcceptEncoding.None? || HasAcceptEncoding(r.headers) ==> out.value == r
    ensures f.defaultAcceptEncoding.Some? && !HasAcceptEncoding(r.headers) ==>
      && out.value.headers == r.headers + [Header(ACCEPT_ENCODING, f.defaultAcceptEncoding.value)]
      && out.value.(headers := r.headers, bodySource := r.bodySource) == r
      && out.value.bodySource == BodySourceOf(r.content, r.contentType, r.contentEncoding, SourceFor(f)).value
    ensures f.defaultAcceptEncoding.Some? ==> HasAcceptEncoding(out.value.headers)
  {
    if f.defaultAcceptEncoding.None? || HasAcceptEncoding(r.headers) then Ok(r)
    else
      var b := AddHeader(FromRequest(r), Some(ACCEPT_ENCODING), f.defaultAcceptEncoding).after;
      var out := BuildRequest(b, SourceFor(f));
      assert IsAcceptEncoding(out.value.headers[|r.headers|]);
      out
  }

  /** Contributing the default twice is contributing it once. */
  lemma AcceptEncodingIdempotent(f: Factory, r: Request)
    requires Running(f)
    ensures var once := ContributeAcceptEncoding(f, r).value;
      ContributeAcceptEncoding(f, once) == Ok(once)
  {
  }

  predicate IsHostHeader(h: Header) {
    Strings.ToLower(h.name) == "host"
  }

  /** `contributeHeaders`: every header is sent in order, except that
      `Host` headers (any letter case) are dropped when a virtual host is
      set, even a blank one. */
  function SentHeaders(r: Request): (hs: seq<Header>)
    ensures r.virtualHost.None? ==> hs == r.headers
    ensures r.virtualHost.Some? ==> forall i :: 0 <= i < |hs| ==> !IsHostHeader(hs[i])
    ensures (forall i :: 0 <= i < |r.headers| ==> !IsHostHeader(r.headers[i])) ==> hs == r.headers
    ensures forall h :: h in r.headers && !IsHostHeader(h) ==> h in hs
    ensures forall i :: 0 <= i < |hs| ==> hs[i] in r.headers
  {
    if r.virtualHost.None? then r.headers
    else Sequences.Filter(r.headers, NotHostHeader)
  }

  predicate NotHostHeader(h: Header) {
    !IsHostHeader(h)
  }

  /** Each header's fate is decided in place: with the request's headers
      split around any one header `h`, what is sent is what the part
      before sends, then `h` unless it is a dropped `Host` header, then
      what the part after sends. So the kept headers go out once each, in
      their original order. */
  lemma SentHeadersInPlace(r: Request, before: seq<Header>, h: Header, after: seq<Header>)
    requires r.headers == before + [h] + after
    ensures SentHeaders(r) ==
      SentHeaders(r.(headers := before))
      + (if r.virtualHost.Some? && IsHostHeader(h) then [] else [h])
      + SentHeaders(r.(headers := after))
  {
    if r.virtualHost.Some? {
      Sequences.FilterAppend(before + [h], after, NotHostHeader);
      Sequences.FilterAppend(before, [h], NotHostHeader);
      assert [h][1..] == [];
    }
  }

  /** `contributeVirtualHost`: the host and port, when the host is not blank. */
  function VirtualHost(r: Request): (vh: Option<(string, int)>)
    ensures vh.Some? <==> !Strings.IsBlank(r.virtualHost)
    ensures vh.Some? ==> vh.value == (r.virtualHost.value, r.virtualPort)
  {
    if Strings.IsBlank(r.virtualHost) then None else Some((r.virtualHost.value, r.virtualPort))
  }

  /** A blank (non-null) virtual host drops the request's `Host` headers
      and sets no virtual host in their place. */
  lemma BlankVirtualHostDropsHost(r: Request)
    requires r.virtualHost == Some(" ")
    requires r.headers == [Header("Host", "example.com")]
    ensures SentHeaders(r) == [] && VirtualHost(r).None?
  {
    assert IsHostHeader(r.headers[0]);
    assert Strings.IsJavaWhitespace(" "[0]);
  }

  /** The cookie the Apache client stores for a request cookie. */
  datatype ClientCookie = ClientCookie(
    name: string, value: Option<string>, expiry: Option<int>, maxAgeAttribute: Option<string>,
    version: int, path: Option<string>, domain: Option<string>, secure: bool)

  /** `contributeCookies` for one cookie: a positive max age (seconds)
      becomes an expiry `now` + max age milliseconds and a max-age
      attribute; the version is always 1. */
  function ToClientCookie(c: Cookie, now: int): (cc: ClientCookie)
    ensures cc.name == c.name && cc.value == c.value && cc.version == 1
    ensures cc.path == c.path && cc.domain == c.domain && cc.secure == c.secure
    ensures cc.expiry.Some? <==> c.maxAge > 0
    ensures c.maxAge > 0 ==> cc.expiry.value - now == c.maxAge * 1000
    ensures cc.maxAgeAttribute.Some? <==> c.maxAge > 0
    ensures c.maxAge > 0 ==> Strings.ParseLong(cc.maxAgeAttribute.value) == Some(c.maxAge as int)
  {
    if c.maxAge > 0 then
      Strings.ParseLongRoundTrip(c.maxAge);
      ClientCookie(c.name, c.value, Some(now + c.maxAge * 1000), Some(Strings.LongToString(c.maxAge)),
                   1, c.path, c.domain, c.secure)
    else
      ClientCookie(c.name, c.value, None, None, 1, c.path, c.domain, c.secure)
  }

  /** What the factory hands to the Apache client for one request. */
  datatype Outgoing = Outgoing(
    verb: Method,
    url: Option<Uri>,
    entity: Option<Entity>,
    headers: seq<Header>,
    virtualHost: Option<(string, int)>,
    cookies: Option<seq<ClientCookie>>,
    parameters: map<string, Option<string>>,
    usesCredentials: bool)

  /** Only POST and PUT carry an entity, and only one of this factory's
      own body sources. */
  function EntityFor(r: Request): (e: Option<Entity>)
    ensures e.Some? <==> (r.verb == POST || r.verb == PUT) && r.bodySource.Some? && r.bodySource.value.Internal?
    ensures e.Some? ==> e.value == r.bodySource.value.entity
  {
    if (r.verb == POST || r.verb == PUT) && r.bodySource.Some? && r.bodySource.value.Internal? then
      Some(r.bodySource.value.entity)
    else None
  }

  /** `performRequest` up to the network call: the running check, the
      request observers (whose exception ends the call), the default
      accept encoding, then the request the Apache client sends. The
      cookies are the sequence of `addCookie` calls on the client's cookie
      store, one per request cookie in order; an empty request cookie list
      clears the store instead (`None`). Credentials are installed only
      for a non-empty provider list. */
  function PrepareRequest(f: Factory, observers: seq<Request -> Result<Request>>, incoming: Request, now: int): (out: Result<Outgoing>)
    ensures out.Ok? <==> Running(f) && ApplyObservers(observers, incoming).Ok?
    ensures !Running(f) ==> out.Err? && out.failure.IllegalState?
    ensures Running(f) && ApplyObservers(observers, incoming).Err? ==> out == Err(ApplyObservers(observers, incoming).failure)
    ensures out.Ok? ==>
      var r := ContributeAcceptEncoding(f, ApplyObservers(observers, incoming).value).value;
      && out.value.verb == r.verb && out.value.url == r.url
      && out.value.entity == EntityFor(r)
      && out.value.headers == SentHeaders(r)
      && out.value.virtualHost == VirtualHost(r)
      && (out.value.cookies.None? <==> |r.cookies| == 0)
      && (out.value.cookies.Some? ==>
            && |out.value.cookies.value| == |r.cookies|
            && forall i :: 0 <= i < |r.cookies| ==> out.value.cookies.value[i] == ToClientCookie(r.cookies[i], now))
      && out.value.parameters == r.parameters
      && (out.value.usesCredentials <==> |r.authProviders| > 0)
  {
    if !Running(f) then Err(IllegalState("Factory was not started!"))
    else
      match ApplyObservers(observers, incoming)
      case Err(e) => Err(e)
      case Ok(observed) =>
        var r := ContributeAcceptEncoding(f, observed).value;
        var cookies := if |r.cookies| == 0 then None
          else Some(seq(|r.cookies|, i requires 0 <= i < |r.cookies| => ToClientCookie(r.cookies[i], now)));
        Ok(Outgoing(r.verb, r.url, EntityFor(r), SentHeaders(r), VirtualHost(r), cookies,
                    r.parameters, |r.authProviders| > 0))
  }

  /** A request built by a running factory keeps its entity through
      `performRequest`: the accept-encoding rebuild asks the same factory
      for a body source again. */
  lemma BuiltRequestKeepsEntity(f: Factory, b: Builder, now: int)
    requires Running(f) && BuildRequest(b, SourceFor(f)).Ok?
    ensures var r := BuildRequest(b, SourceFor(f)).value;
      PrepareRequest(f, [], r, now).value.entity == EntityFor(r)
  {
    var r := BuildRequest(b, SourceFor(f)).value;
    FromRequestInvertsBuild(b, SourceFor(f));
  }

  /** `executeRequest` after the exchange: the response observers in
      order, whose first exception ends the call, then the handler;
      without a handler the response is discarded and the result is
      `null`. */
  function DeliverResponse<R, T>(observers: seq<R -> Result<R>>, handler: Option<R -> Result<T>>, response: R): (out: Result<Option<T>>)
    ensures ApplyObservers(observers, response).Err? ==> out == Err(ApplyObservers(observers, response).failure)
    ensures ApplyObservers(observers, response).Ok? ==>
      var observed := ApplyObservers(observers, response).value;
      && (handler.None? ==> out == Ok(None))
      && (handler.Some? ==> (out.Ok? <==> handler.value(observed).Ok?))
      && (handler.Some? && out.Ok? ==> out.value == Some(handler.value(observed).value))
      && (handler.Some? && out.Err? ==> out.failure == handler.value(observed).failure)
  {
    match ApplyObservers(observers, response)
    case Err(f) => Err(f)
    case Ok(observed) =>
      match handler
      case None => Ok(None)
      case Some(h) =>
        match h(observed)
        case Ok(v) => Ok(Some(v))
        case Err(e) => Err(e)
  }
}

=== FILE: auth_provider.dfy ===
/** `HttpClientDefaultAuthProvider`: an authentication scope (scheme, host,
    port, realm) where `None` / `-1` is a wildcard, plus the credentials. */
module AuthProviders {
  import opened Outcomes
  import Strings

  const ANY_PORT: int := -1

  datatype AuthProvider = AuthProvider(
    scheme: Option<string>,
    host: Option<string>,
    port: int,
    realm: Option<string>,
    user: Option<string>,
    password: Option<string>)

  /** An element of a request's provider list, typed by the
      `HttpClientAuthProvider` interface: this class, any other
      implementation (known by its identity; what it answers is the
      caller's business), or `null`, which `addAuth` does not refuse. */
  datatype Provider = DefaultProvider(p: AuthProvider) | CustomProvider(id: nat) | NullProvider

  function LowerOpt(s: Option<string>): Option<string> {
    match s
    case None => None
    case Some(v) => Some(Strings.ToLower(v))
  }

  /** The constructor lower-cases host and realm and stores the rest as given. */
  function NewProvider(scheme: Option<string>, host: Option<string>, port: int,
                       realm: Option<string>, login: Option<string>, password: Option<string>): (p: AuthProvider)
    ensures p.scheme == scheme && p.port == port && p.user == login && p.password == password
    ensures p.host.Some? <==> host.Some?
    ensures p.realm.Some? <==> realm.Some?
    ensures host.Some? ==> p.host.value == Strings.ToLower(host.value)
    ensures realm.Some? ==> p.realm.value == Strings.ToLower(realm.value)
  {
    AuthProvider(scheme, LowerOpt(host), port, LowerOpt(realm), login, password)
  }

  /** A non-wildcard field has to equal the offered value exactly. */
  predicate FieldAccepts(field: Option<string>, offered: Option<string>) {
    field.None? || field == offered
  }

  predicate AcceptRequest(p: AuthProvider, authScheme: Option<string>, authHost: Option<string>,
                          authPort: int, authRealm: Option<string>)
  {
    && FieldAccepts(p.scheme, authScheme)
    && FieldAccepts(p.host, authHost)
    && (p.port == ANY_PORT || p.port == authPort)
    && FieldAccepts(p.realm, authRealm)
  }

  /** A provider that names all four parts of its scope accepts that
      scope and nothing else. */
  lemma PinnedProviderAcceptsOnlyItsScope(p: AuthProvider, scheme: Option<string>, host: Option<string>,
                                          port: int, realm: Option<string>)
    requires p.scheme.Some? && p.host.Some? && p.realm.Some? && p.port != ANY_PORT
    ensures AcceptRequest(p, p.scheme, p.host, p.port, p.realm)
    ensures AcceptRequest(p, scheme, host, port, realm) <==>
      scheme == p.scheme && host == p.host && port == p.port && realm == p.realm
  {
  }

  /** Turning any one part of the scope into a wildcard keeps every scope
      the provider accepted, and the wildcard part then accepts any value. */
  lemma WildcardsWiden(p: AuthProvider, scheme: Option<string>, host: Option<string>,
                       port: int, realm: Option<string>)
    requires AcceptRequest(p, scheme, host, port, realm)
    ensures forall s :: AcceptRequest(p.(scheme := None), s, host, port, realm)
    ensures forall h :: AcceptRequest(p.(host := None), scheme, h, port, realm)
    ensures forall q :: AcceptRequest(p.(port := ANY_PORT), scheme, host, q, realm)
    ensures forall r :: AcceptRequest(p.(realm := None), scheme, host, port, r)
  {
  }

  /** Host and realm are compared against the lower-cased stored value:
      a provider built for an upper-case host accepts the lower-case
      spelling and refuses the spelling it was built with. */
  lemma HostComparedLowerCased(hostSpelling: string, port: int, login: Option<string>,
                               password: Option<string>, offered: string)
    ensures var p := NewProvider(None, Some(hostSpelling), port, None, login, password);
      AcceptRequest(p, None, Some(offered), port, None) <==> offered == Strings.ToLower(hostSpelling)
  {
  }

  lemma UpperCaseHostExample()
    ensures var p := NewProvider(None, Some("EXAMPLE.com"), -1, None, None, None);
      && AcceptRequest(p, Some("BASIC"), Some("example.com"), 80, None)
      && !AcceptRequest(p, Some("BASIC"), Some("EXAMPLE.com"), 80, None)
      && !AcceptRequest(p, Some("BASIC"), Some("other.com"), 80, None)
  {
    var p := NewProvider(None, Some("EXAMPLE.com"), -1, None, None, None);
    assert p.host.value == "example.com";
    assert p.host.value[0] != "EXAMPLE.com"[0];
  }

  /** Scheme comparison is exact: no case folding. */
  lemma SchemeComparedExactly(scheme: string, offered: string)
    ensures var p := NewProvider(Some(scheme), None, -1, None, None, None);
      AcceptRequest(p, Some(offered), None, 0, None) <==> offered == scheme
  {
  }

  function ForUser(login: Option<string>, password: Option<string>): (p: AuthProvider)
    ensures p.user == login && p.password == password
    ensures forall s, h, port, r :: AcceptRequest(p, s, h, port, r)
  {
    NewProvider(None, None, ANY_PORT, None, login, password)
  }

  function ForUserAndHost(host: Option<string>, port: int, login: Option<string>,
                          password: Option<string>): (p: AuthProvider)
    ensures p == NewProvider(None, host, port, None, login, password)
    ensures p.scheme.None? && p.realm.None?
  {
    NewProvider(None, host, port, None, login, password)
  }

  /** `forUserAndHost` constrains host and port only. */
  lemma ForUserAndHostAccepts(host: string, port: int, login: Option<string>, password: Option<string>,
                              s: Option<string>, h: Option<string>, q: int, r: Option<string>)
    requires port != ANY_PORT
    ensures AcceptRequest(ForUserAndHost(Some(host), port, login, password), s, h, q, r)
      <==> h == Some(Strings.ToLower(host)) && q == port
  {
  }

  /** `equals` compares the six stored fields. */
  predicate ProviderEquals(a: AuthProvider, b: AuthProvider) {
    && a.scheme == b.scheme && a.host == b.host && a.port == b.port
    && a.realm == b.realm && a.user == b.user && a.password == b.password
  }

  lemma ProviderEqualsIsValueEquality(a: AuthProvider, b: AuthProvider)
    ensures ProviderEquals(a, b) <==> a == b
  {
  }

  /** Two providers built from host spellings that differ only in letter case are equal. */
  lemma ConstructionNormalisesCase(h1: string, h2: string, port: int)
    requires Strings.EqualsIgnoreCase(h1, h2)
    ensures ProviderEquals(NewProvider(None, Some(h1), port, None, None, None),
                           NewProvider(None, Some(h2), port, None, None, None))
  {
  }
}

=== FILE: body_source.dfy ===
/** Request payloads and the body sources the factories wrap them in
    (`HttpClientBodySource` and its two implementations). */
module BodySources {
  import opened Outcomes

  newtype byte = x: int | 0 <= x < 256

  /** What a consumer that reads a stream to its end sees: the bytes
      delivered, and the exception that stopped it early, if any. */
  datatype Drained = Drained(bytes: seq<byte>, failure: Option<IoFailure>)
  {
    /** The whole content, for consumers that only use a complete read. */
    function Whole(): (r: Result<seq<byte>>)
      ensures r.Ok? <==> failure.None?
      ensures r.Ok? ==> r.value == bytes
      ensures r.Err? ==> r.failure == Io(failure.value)
    {
      match failure
      case None => Ok(bytes)
      case Some(f) => Err(Io(f))
    }
  }

  /** The content object handed to the factory. `OtherObject` is any type
      other than `String`, `byte[]` and `InputStream`. */
  datatype Content =
    | Text(text: string)
    | Bytes(bytes: seq<byte>)
    | Stream(streamId: nat)
    | OtherObject(className: string)
  {
    /** The types the builder's `setContent` overloads accept. */
    predicate IsBuilderContent() { !OtherObject? }
  }

  /** The Apache entity chosen for a content object. */
  datatype Entity =
    | StringEntity(text: string)
    | ByteArrayEntity(bytes: seq<byte>)
    | InputStreamEntity(streamId: nat, length: int)

  datatype BodySource =
    | Internal(entity: Entity, contentType: Option<string>, contentEncoding: Option<string>)
    /** The testing source; `memo` is the stream it hands out once
        `getContent` has buffered the content. */
    | Testing(content: Content, encoding: Option<string>, memo: Option<seq<byte>>)

  /** `setContentType`: the Apache source stores it on its entity; the
      testing source ignores it. */
  function SetContentType(src: BodySource, contentType: Option<string>): (r: BodySource)
    ensures r.Internal? ==> src.Internal? && r == src.(contentType := contentType)
    ensures r.Testing? ==> r == src
    ensures r.Internal? <==> src.Internal?
  {
    match src
    case Internal(e, _, enc) => Internal(e, contentType, enc)
    case Testing(_, _, _) => src
  }

  /** `setContentEncoding` on either source. */
  function SetContentEncoding(src: BodySource, encoding: Option<string>): (r: BodySource)
    ensures src.Internal? ==> r == src.(contentEncoding := encoding)
    ensures src.Testing? ==> r == src.(encoding := encoding)
    ensures r.Internal? <==> src.Internal?
  {
    match src
    case Internal(e, t, _) => Internal(e, t, encoding)
    case Testing(c, _, m) => Testing(c, encoding, m)
  }
}

=== FILE: client.dfy ===
/** `HttpClient`: the facade callers hold. It refuses a missing factory or
    missing defaults, hands every lifecycle call to its factory, starts a
    request builder for each HTTP verb, and parses a method name for
    `perform`. */
module Clients {
  import opened Outcomes
  import opened Requests
  import Strings
  import ApacheFactory
  import TestingDispatch

  /** The two factories of this library. */
  datatype FactoryState =
    | ApacheF(apache: ApacheFactory.Factory)
    | TestingF(testing: TestingDispatch.TestingFactory)

  /** The `HttpClientDefaults` object: only its presence matters here. */
  datatype DefaultsRef = DefaultsRef(id: nat)

  /** `ref` is the identity builders keep of the factory. */
  datatype Client = Client(ref: FactoryRef, factory: FactoryState)

  /** The checked constructor: the factory is examined first. */
  function NewClient(ref: FactoryRef, factory: Option<FactoryState>, defaults: Option<DefaultsRef>): (r: Result<Client>)
    ensures r.Ok? <==> factory.Some? && defaults.Some?
    ensures factory.None? ==> r == Err(IllegalArgument("http client factory can not be null!"))
    ensures factory.Some? && defaults.None? ==> r == Err(IllegalArgument("http client defaults can not be null!"))
    ensures r.Ok? ==> r.value.factory == factory.value && r.value.ref == ref
  {
    if factory.None? then Err(IllegalArgument("http client factory can not be null!"))
    else if defaults.None? then Err(IllegalArgument("http client defaults can not be null!"))
    else Ok(Client(ref, factory.value))
  }

  predicate IsStarted(c: Client) {
    match c.factory
    case ApacheF(a) => a.life.started
    case TestingF(t) => t.started
  }

  predicate IsStopped(c: Client) {
    match c.factory
    case ApacheF(a) => a.life.stopped
    case TestingF(t) => t.stopped
  }

  /** `start`: whatever the factory's `start` does. A client that was not
      stopped is started afterwards; whether it is stopped never changes. */
  function Start(c: Client): (r: Client)
    ensures r.ref == c.ref && r.factory.ApacheF? == c.factory.ApacheF?
    ensures !IsStopped(c) ==> IsStarted(r)
    ensures IsStopped(r) == IsStopped(c)
    ensures c.factory.ApacheF? ==> r.factory == ApacheF(ApacheFactory.Start(c.factory.apache))
    ensures c.factory.TestingF? ==> r.factory == TestingF(TestingDispatch.Start(c.factory.testing))
  {
    match c.factory
    case ApacheF(a) => c.(factory := ApacheF(ApacheFactory.Start(a)))
    case TestingF(t) => c.(factory := TestingF(TestingDispatch.Start(t)))
  }

  /** `stop`: whatever the factory's `stop` does. A started client, or any
      client over the testing factory, is stopped afterwards; an Apache
      client that never started is left as it is. Whether it is started
      never changes. */
  function Stop(c: Client): (r: Client)
    ensures r.ref == c.ref && r.factory.ApacheF? == c.factory.ApacheF?
    ensures IsStarted(c) || c.factory.TestingF? ==> IsStopped(r)
    ensures c.factory.ApacheF? && !IsStarted(c) ==> r == c
    ensures IsStarted(r) == IsStarted(c)
    ensures c.factory.ApacheF? ==> r.factory == ApacheF(ApacheFactory.Stop(c.factory.apache))
    ensures c.factory.TestingF? ==> r.factory == TestingF(TestingDispatch.Stop(c.factory.testing))
  {
    match c.factory
    case ApacheF(a) => c.(factory := ApacheF(ApacheFactory.Stop(a)))
    case TestingF(t) => c.(factory := TestingF(TestingDispatch.Stop(t)))
  }

  /** `close`. */
  function Close(c: Client): (r: Client)
    ensures r == Stop(c)
  {
    Stop(c)
  }

  /** Started then closed, a client over either factory reports itself
      started and stopped; a client over the Apache factory has then also
      stopped running for good. */
  lemma StartThenCloseStops(c: Client)
    requires !IsStarted(c) && !IsStopped(c)
    ensures IsStarted(Start(c)) && !IsStopped(Start(c))
    ensures IsStarted(Close(Start(c))) && IsStopped(Close(Start(c)))
    ensures c.factory.ApacheF? ==> Close(Start(c)) == Close(Start(Close(Start(c))))
  {
  }

  /** Closing a client that was never started: the testing factory still
      records the stop, the Apache factory ignores it. */
  lemma CloseBeforeStart(c: Client)
    requires !IsStarted(c) && !IsStopped(c)
    ensures c.factory.TestingF? ==> IsStopped(Close(c))
    ensures c.factory.ApacheF? ==> Close(c) == c
  {
  }

  /** `get`, `head`, `delete`, `options`, `put` and `post` with a `URI`: a
      fresh builder for that verb over this client's factory. */
  function Open(c: Client, verb: Method, uri: Option<Uri>, handler: Option<Handler>): (b: Builder)
    ensures b.factory == c.ref && b.verb == verb && b.url == uri && b.handler == handler
    ensures b.headers == [] && b.cookies == [] && b.parameters == map[] && b.authProviders == []
    ensures b.content.None? && b.virtualHost.None?
  {
    NewBuilder(c.ref, verb, uri, handler)
  }

  /** The same verbs with a string: `URI.create`, whose failure is an
      `IllegalArgumentException`, is `parse`. */
  function OpenText(c: Client, verb: Method, uri: string, handler: Option<Handler>, parse: string -> Result<Uri>): (r: Result<Builder>)
    ensures parse(uri).Err? ==> r == Err(parse(uri).failure)
    ensures parse(uri).Ok? ==> r == Ok(Open(c, verb, Some(parse(uri).value), handler))
  {
    match parse(uri)
    case Err(f) => Err(f)
    case Ok(u) => Ok(Open(c, verb, Some(u), handler))
  }

  /** The enum constant names of `HttpClientMethod`. */
  function MethodName(m: Method): (s: string)
    ensures |s| > 0
  {
    match m
    case GET => "GET"
    case POST => "POST"
    case PUT => "PUT"
    case DELETE => "DELETE"
    case HEAD => "HEAD"
    case OPTIONS => "OPTIONS"
  }

  /** `HttpClientMethod.valueOf(name.toUpperCase())`: a `null` name fails
      on `toUpperCase`, an unknown one is reported by name. */
  function ParseMethod(name: Option<string>): (r: Result<Method>)
    ensures name.None? ==> r == Err(NullPointer)
    ensures name.Some? ==> (r.Ok? <==> exists m :: MethodName(m) == Strings.ToUpper(name.value))
    ensures r.Ok? ==> MethodName(r.value) == Strings.ToUpper(name.value)
    ensures name.Some? && r.Err? ==> r == Err(IllegalArgument("Unknown HTTP method type " + name.value))
  {
    if name.None? then Err(NullPointer)
    else
      var u := Strings.ToUpper(name.value);
      if u == MethodName(GET) then Ok(GET)
      else if u == MethodName(POST) then Ok(POST)
      else if u == MethodName(PUT) then Ok(PUT)
      else if u == MethodName(DELETE) then Ok(DELETE)
      else if u == MethodName(HEAD) then Ok(HEAD)
      else if u == MethodName(OPTIONS) then Ok(OPTIONS)
      else
        assert forall m :: MethodName(m) != u;
        Err(IllegalArgument("Unknown HTTP method type " + name.value))
  }

  /** `perform(methodName, uri, handler)`. */
  function Perform(c: Client, name: Option<string>, uri: Option<Uri>, handler: Option<Handler>): (r: Result<Builder>)
    ensures ParseMethod(name).Err? ==> r == Err(ParseMethod(name).failure)
    ensures ParseMethod(name).Ok? ==> r == Ok(Open(c, ParseMethod(name).value, uri, handler))
  {
    match ParseMethod(name)
    case Err(f) => Err(f)
    case Ok(m) => Ok(Open(c, m, uri, handler))
  }

  lemma UpperOfLower(s: string)
    ensures Strings.ToUpper(Strings.ToLower(s)) == Strings.ToUpper(s)
  {
  }

  /** Every verb is found under its own name, in any mix of case, and
      `perform` then opens the same builder as the verb's own method. */
  lemma MethodNamesRoundTrip(c: Client, m: Method, spelled: string, uri: Option<Uri>, handler: Option<Handler>)
    requires Strings.ToUpper(spelled) == MethodName(m)
    ensures ParseMethod(Some(spelled)) == Ok(m)
    ensures ParseMethod(Some(MethodName(m))) == Ok(m)
    ensures ParseMethod(Some(Strings.ToLower(MethodName(m)))) == Ok(m)
    ensures Perform(c, Some(spelled), uri, handler) == Ok(Open(c, m, uri, handler))
  {
    MethodNameIsUpperCase(m);
    UpperOfLower(MethodName(m));
    MethodNameInjective(m);
  }

  lemma MethodNameIsUpperCase(m: Method)
    ensures Strings.ToUpper(MethodName(m)) == MethodName(m)
  {
    var n := MethodName(m);
    assert forall i :: 0 <= i < |n| ==> 'A' <= n[i] <= 'Z';
  }

  lemma MethodNameInjective(m: Method)
    ensures forall k :: MethodName(k) == MethodName(m) ==> k == m
  {
  }

  /** A name that is not one of the six verbs. */
  lemma UnknownMethodRefused()
    ensures ParseMethod(Some("patch")) == Err(IllegalArgument("Unknown HTTP method type patch"))
  {
    var u := Strings.ToUpper("patch");
    assert u[0] == 'P' && u[1] == 'A' && u[2] == 'T' && u[3] == 'C' && u[4] == 'H';
    assert u == "PATCH";
    assert forall m :: |MethodName(m)| != |u|;
    assert "Unknown HTTP method type " + "patch" == "Unknown HTTP method type patch";
  }
}

=== FILE: content_response.dfy ===
/** `ContentResponseHandler`: turns a response into a value through a
    content converter. It short-circuits redirects, falls back to an empty
    body, enforces an optional body-size limit (first against the declared
    length, then by wrapping the stream in a `SizeLimitingInputStream`),
    picks a decompressor from the Content-Encoding header, and routes every
    I/O failure of that pipeline to the converter's `handleError`. The
    decompressors are tags; what they produce is a parameter. */
module ContentResponse {
  import opened Outcomes
  import opened BodySources
  import opened Responses
  import SizeLimiting
  import Strings

  datatype Decompressor = Identity | Lz4 | Gzip | Deflate

  /** The Content-Encoding names the handler knows. */
  const LZ4_NAME: string := "lz4"
  const GZIP_NAME: string := "gzip"
  const X_GZIP_NAME: string := "x-gzip"
  const DEFLATE_NAME: string := "deflate"

  /** The trimmed Content-Encoding header, compared ignoring case; a missing
      header counts as "". */
  function DecompressorFor(encoding: Option<string>): (d: Decompressor)
    ensures var e := Strings.TrimToEmpty(encoding);
      && (d == Lz4 <==> Strings.EqualsIgnoreCase(e, LZ4_NAME))
      && (d == Gzip <==> Strings.EqualsIgnoreCase(e, GZIP_NAME) || Strings.EqualsIgnoreCase(e, X_GZIP_NAME))
      && (d == Deflate <==> Strings.EqualsIgnoreCase(e, DEFLATE_NAME))
  {
    var e := Strings.TrimToEmpty(encoding);
    if Strings.EqualsIgnoreCase(e, LZ4_NAME) then Lz4
    else if Strings.EqualsIgnoreCase(e, GZIP_NAME) || Strings.EqualsIgnoreCase(e, X_GZIP_NAME) then Gzip
    else if Strings.EqualsIgnoreCase(e, DEFLATE_NAME) then Deflate
    else Identity
  }

  /** The choice depends only on the trimmed value up to case. */
  lemma DecompressorIgnoresCaseAndPadding(a: string, b: string)
    requires Strings.EqualsIgnoreCase(Strings.Trim(a), Strings.Trim(b))
    ensures DecompressorFor(Some(a)) == DecompressorFor(Some(b))
  {
  }

  /** Surrounding whitespace and case do not matter. */
  lemma PaddedMixedCaseGzip()
    ensures DecompressorFor(Some(" X-GZip\t")) == Gzip
  {
    var padded := " X-GZip\t";
    assert Strings.TrimStart(padded) == padded[1..];
    assert Strings.TrimEnd(padded[1..]) == "X-GZip";
    assert Strings.ToLower("X-GZip") == "x-gzip" == Strings.ToLower("x-gzip");
  }

  /** An unknown encoding, or none, leaves the stream as it is. */
  lemma UnknownEncodingIsIdentity()
    ensures DecompressorFor(Some("br")) == Identity
    ensures DecompressorFor(None) == Identity
  {
    assert Strings.TrimStart("br") == "br" && Strings.TrimEnd("br") == "br";
  }

  /** The raw stream: unlimited, or behind a size limiter. */
  datatype Pipe = Unlimited(data: seq<byte>) | Limited(limiter: SizeLimiting.Limiter)
  {
    predicate Valid() { Limited? ==> SizeLimiting.Valid(limiter) }
  }

  /** The stream the converter reads: the decompressor over the raw
      stream. */
  datatype Wrapped = Wrapped(decompressor: Decompressor, pipe: Pipe)
  {
    predicate Valid() { pipe.Valid() }
  }

  /** What the decompressors make of the bytes they are fed. */
  type Inflate = (Decompressor, Drained) -> Drained

  /** Reading the raw stream to its end, each read getting what `served`
      says. */
  function ReadPipe(p: Pipe, served: SizeLimiting.Reads): (r: Drained)
    requires p.Valid()
    ensures p.Unlimited? ==> r == Drained(p.data, None)
    ensures p.Limited? ==> r == SizeLimiting.ReadToEndInBlocks(p.limiter, served)
  {
    match p
    case Unlimited(data) => Drained(data, None)
    case Limited(l) => SizeLimiting.ReadToEndInBlocks(l, served)
  }

  /** Reading the wrapped stream to its end: the decompressor is fed what
      the limiter lets through after the decompressor was built. */
  function Drain(w: Wrapped, inflate: Inflate, served: SizeLimiting.Reads): (r: Drained)
    requires w.Valid()
    ensures w.decompressor == Identity ==> r == ReadPipe(w.pipe, served)
    ensures w.decompressor != Identity ==> r == inflate(w.decompressor, ReadPipe(w.pipe, served))
  {
    if w.decompressor == Identity then ReadPipe(w.pipe, served) else inflate(w.decompressor, ReadPipe(w.pipe, served))
  }

  // ---------------------------------------------------------------------
  // Building the gzip decompressor: `new GZIPInputStream(is)` reads the
  // fixed part of a member header (section 2.3 of RFC 1952) from the raw
  // stream before the converter sees anything.

  /** ID1, ID2, CM, FLG, four bytes of MTIME, XFL and OS. */
  const GZIP_HEADER_SIZE: nat := 10
  const GZIP_ID1: byte := 0x1f
  const GZIP_ID2: byte := 0x8b
  /** The only compression method, deflate. */
  const GZIP_DEFLATE: byte := 8

  const END_OF_STREAM: IoFailure := IoError("EOFException")
  const NOT_GZIP: IoFailure := IoError("Not in GZIP format")
  const UNSUPPORTED_METHOD: IoFailure := IoError("Unsupported compression method")

  /** Which `read()` the limiter has: the one as written, which adds the
      value of each byte read to the count, or the intended one, which
      adds one. Only the header's single-byte reads tell them apart:
      everything else reads through `read(b, off, len)`. */
  datatype Counting = AsWritten | Intended

  /** One header byte through `read()`: the end of the stream is an
      `EOFException`, and a limiter may throw. */
  function HeaderByte(p: Pipe, counting: Counting): (r: Result<(Pipe, byte)>)
    requires p.Valid()
    ensures r.Ok? ==> r.value.0.Valid() && r.value.0.Limited? == p.Limited?
    ensures r.Err? ==> r.failure == Io(END_OF_STREAM) || (p.Limited? && r.failure == Io(SizeExceeded))
  {
    match p
    case Unlimited(data) =>
      if |data| == 0 then Err(Io(END_OF_STREAM)) else Ok((Unlimited(data[1..]), data[0]))
    case Limited(l) =>
      var s := if counting == AsWritten then SizeLimiting.ReadByteAsWritten(l) else SizeLimiting.ReadByte(l);
      if s.thrown.Some? then Err(s.thrown.value)
      else if s.value == -1 then Err(Io(END_OF_STREAM))
      else Ok((Limited(s.after), s.value as byte))
  }

  /** Skipping `n` header bytes through `read(b, off, len)`, each read
      getting what `served` allows, until `n` bytes are gone or the stream
      ends. Without a limiter nothing counts, so how the bytes arrive
      does not matter. */
  function SkipHeader(p: Pipe, n: nat, served: SizeLimiting.Reads): (r: Result<Pipe>)
    requires p.Valid()
    ensures r.Ok? ==> r.value.Valid() && r.value.Limited? == p.Limited?
    ensures r.Err? ==> r.failure == Io(END_OF_STREAM) || (p.Limited? && r.failure == Io(SizeExceeded))
    decreases n
  {
    if n == 0 then Ok(p)
    else
      match p
      case Unlimited(data) =>
        if |data| < n then Err(Io(END_OF_STREAM)) else Ok(Unlimited(data[n..]))
      case Limited(l) =>
        var ask := if served(l.src.pos) < n then served(l.src.pos) else n;
        var s := SizeLimiting.ReadChunk(l, ask);
        if s.thrown.Some? then Err(s.thrown.value)
        else if s.value == -1 then Err(Io(END_OF_STREAM))
        else SkipHeader(Limited(s.after), n - s.value, served)
  }

  /** The header as the constructor reads it: the two magic bytes, then
      the method byte, then the flag byte, each through `read()`, then the
      other six fixed bytes skipped. A wrong magic is a `ZipException`,
      and so is a method other than deflate. */
  function GzipHeader(p: Pipe, served: SizeLimiting.Reads, counting: Counting): (r: Result<Pipe>)
    requires p.Valid()
    ensures r.Ok? ==> r.value.Valid() && r.value.Limited? == p.Limited?
    ensures r.Err? ==> r.failure.Io?
  {
    var id1 :- HeaderByte(p, counting);
    var id2 :- HeaderByte(id1.0, counting);
    if id1.1 != GZIP_ID1 || id2.1 != GZIP_ID2 then Err(Io(NOT_GZIP))
    else GzipMethod(id2.0, served, counting)
  }

  /** The header from the method byte on. */
  function GzipMethod(p: Pipe, served: SizeLimiting.Reads, counting: Counting): (r: Result<Pipe>)
    requires p.Valid()
    ensures r.Ok? ==> r.value.Valid() && r.value.Limited? == p.Limited?
    ensures r.Err? ==> r.failure.Io?
  {
    var cm :- HeaderByte(p, counting);
    if cm.1 != GZIP_DEFLATE then Err(Io(UNSUPPORTED_METHOD))
    else GzipFlags(cm.0, served, counting)
  }

  /** The header from the flag byte on: the flags are read and the six
      bytes after them skipped. */
  function GzipFlags(p: Pipe, served: SizeLimiting.Reads, counting: Counting): (r: Result<Pipe>)
    requires p.Valid()
    ensures r.Ok? ==> r.value.Valid() && r.value.Limited? == p.Limited?
    ensures r.Err? ==> r.failure.Io?
  {
    var flg :- HeaderByte(p, counting);
    SkipHeader(flg.0, GZIP_HEADER_SIZE - 4, served)
  }

  /** How many of the bytes still to come a reader can take before it
      meets the end of the stream or the limit. */
  function Reach(rest: seq<byte>, budget: nat): (n: nat)
    ensures n <= |rest| && n <= budget && (n == |rest| || n == budget)
  {
    if |rest| < budget then |rest| else budget
  }

  /** Which of the two a reader that wants more than `Reach` meets: the
      end of the stream when the body runs out within the budget, else the
      limit. */
  function Stop(rest: seq<byte>, budget: nat): (f: IoFailure)
    ensures f == END_OF_STREAM <==> |rest| <= budget
    ensures f == END_OF_STREAM || f == SizeExceeded
  {
    if |rest| <= budget then END_OF_STREAM else SizeExceeded
  }

  /** What reading the fixed header meets first, judged from the bytes
      still to come and the number of bytes the limit lets through:
      reading stops at the first byte that is missing (the end of the
      stream) or over the budget (the limit), and the magic is looked at
      once two bytes are in. `None` when all ten bytes arrive and check
      out. */
  function HeaderFailure(rest: seq<byte>, budget: nat): (f: Option<IoFailure>)
    ensures f.None? ==> |rest| >= GZIP_HEADER_SIZE && budget >= GZIP_HEADER_SIZE
  {
    if Reach(rest, budget) < 2 then Some(Stop(rest, budget))
    else if rest[0] != GZIP_ID1 || rest[1] != GZIP_ID2 then Some(NOT_GZIP)
    else MethodFailure(rest[2..], budget - 2)
  }

  /** The same from the method byte on: the method is looked at once it
      is in, then the seven bytes after it must arrive. */
  function MethodFailure(rest: seq<byte>, budget: nat): (f: Option<IoFailure>)
    ensures f.None? ==> |rest| >= GZIP_HEADER_SIZE - 2 && budget >= GZIP_HEADER_SIZE - 2
  {
    if Reach(rest, budget) < 1 then Some(Stop(rest, budget))
    else if rest[0] != GZIP_DEFLATE then Some(UNSUPPORTED_METHOD)
    else if Reach(rest, budget) < GZIP_HEADER_SIZE - 2 then Some(Stop(rest, budget))
    else None
  }

  /** The header with no limiter in the way: it fails as the bytes alone
      say, and otherwise the decompressor is left with everything after
      the ten bytes. */
  lemma GzipHeaderUnlimited(data: seq<byte>, served: SizeLimiting.Reads, counting: Counting)
    ensures var f := HeaderFailure(data, |data|);
      && (f.Some? ==> GzipHeader(Unlimited(data), served, counting) == Err(Io(f.value)))
      && (f.None? ==> GzipHeader(Unlimited(data), served, counting) == Ok(Unlimited(data[GZIP_HEADER_SIZE..])))
  {
    if |data| >= 4 {
      assert data[1..][0] == data[1] && data[1..][1..][0] == data[2] && data[1..][1..][1..][0] == data[3];
      assert data[1..][1..][1..][1..] == data[4..];
      if |data| >= GZIP_HEADER_SIZE {
        assert data[4..][6..] == data[GZIP_HEADER_SIZE..];
      }
    } else if |data| >= 2 {
      assert data[1..][0] == data[1];
      if |data| == 3 {
        assert data[1..][1..][0] == data[2];
      }
    }
  }

  /** The limiter after `n` more bytes, each counted once. */
  function Advanced(l: SizeLimiting.Limiter, n: nat): (r: SizeLimiting.Limiter)
    ensures r.src.data == l.src.data && r.src.markPos == l.src.markPos && r.mark == l.mark
    ensures r.maxSize == l.maxSize && r.src.pos == l.src.pos + n && r.count == l.count + n
  {
    l.(src := l.src.(pos := l.src.pos + n), count := l.count + n)
  }

  /** Advancing twice is advancing by the sum. */
  lemma AdvancedTwice(l: SizeLimiting.Limiter, m: nat, n: nat)
    ensures Advanced(Advanced(l, m), n) == Advanced(l, m + n)
  {
  }

  /** The bytes still to come, and the budget, of a limiter. */
  function Rest(l: SizeLimiting.Limiter): (rest: seq<byte>)
    ensures l.src.pos <= |l.src.data| ==> rest == l.src.data[l.src.pos..]
  {
    if l.src.pos <= |l.src.data| then l.src.data[l.src.pos..] else []
  }

  /** A limiter advanced by `n` of its remaining bytes within its budget
      has those bytes and that budget behind it. */
  lemma AdvancedRest(l: SizeLimiting.Limiter, n: nat)
    requires SizeLimiting.Valid(l) && l.count <= l.maxSize
    requires n <= Reach(Rest(l), SizeLimiting.Budget(l))
    ensures SizeLimiting.Valid(Advanced(l, n)) && Advanced(l, n).count <= l.maxSize
    ensures Rest(Advanced(l, n)) == Rest(l)[n..]
    ensures SizeLimiting.Budget(Advanced(l, n)) == SizeLimiting.Budget(l) - n
  {
  }

  /** The skip under a limiter: it throws exactly when the bytes it can
      reach take the count past the limit, otherwise meets the end of the
      stream exactly when fewer than `n` bytes remain, and otherwise
      counts the `n` bytes it skipped. */
  predicate Skipped(l: SizeLimiting.Limiter, n: nat, r: Result<Pipe>) {
    var rem := |l.src.data| - l.src.pos;
    var reach := if n < rem then n else rem;
    && (l.count + reach > l.maxSize ==> r == Err(Io(SizeExceeded)))
    && (l.count + reach <= l.maxSize && rem < n ==> r == Err(Io(END_OF_STREAM)))
    && (l.count + reach <= l.maxSize && rem >= n ==> r == Ok(Limited(Advanced(l, n))))
  }

  lemma {:induction false} SkipHeaderUnderLimit(l: SizeLimiting.Limiter, n: nat, served: SizeLimiting.Reads)
    requires SizeLimiting.Valid(l) && l.count <= l.maxSize
    ensures Skipped(l, n, SkipHeader(Limited(l), n, served))
    decreases n
  {
    if n > 0 {
      var more, k, next := SkipStep(l, n, served);
      if more {
        SkipHeaderUnderLimit(next, n - k, served);
        SkipThenRest(l, n, k, SkipHeader(Limited(next), n - k, served));
      }
    } else {
      assert Advanced(l, 0) == l;
    }
  }

  /** A read of `k` bytes within the limit, then the rest of the skip. */
  lemma SkipThenRest(l: SizeLimiting.Limiter, n: nat, k: nat, r: Result<Pipe>)
    requires SizeLimiting.Valid(l) && 0 < k <= n && l.src.pos + k <= |l.src.data| && l.count + k <= l.maxSize
    requires Skipped(Advanced(l, k), n - k, r)
    ensures Skipped(l, n, r)
  {
    AdvancedTwice(l, k, n - k);
  }

  /** One read of the skip: a read that throws or meets the end settles
      the skip; one within the limit takes `k` bytes and leaves the rest
      of the skip to do from `next`. */
  lemma SkipStep(l: SizeLimiting.Limiter, n: nat, served: SizeLimiting.Reads) returns (more: bool, k: nat, next: SizeLimiting.Limiter)
    requires SizeLimiting.Valid(l) && l.count <= l.maxSize && n > 0
    ensures !more ==> Skipped(l, n, SkipHeader(Limited(l), n, served))
    ensures more ==> && 0 < k <= n && l.src.pos + k <= |l.src.data| && l.count + k <= l.maxSize
                     && next == Advanced(l, k) && SizeLimiting.Valid(next)
                     && SkipHeader(Limited(l), n, served) == SkipHeader(Limited(next), n - k, served)
  {
    var ask := if served(l.src.pos) < n then served(l.src.pos) else n;
    var s := SizeLimiting.ReadChunk(l, ask);
    more, k, next := false, 0, l;
    if s.thrown.Some? {
      assert SkipHeader(Limited(l), n, served) == Err(Io(SizeExceeded));
    } else if s.value == -1 {
      assert SkipHeader(Limited(l), n, served) == Err(Io(END_OF_STREAM));
    } else {
      more, k, next := true, s.value, s.after;
    }
  }

  /** One header byte under a limiter within its limit. */
  lemma HeaderByteUnderLimit(l: SizeLimiting.Limiter)
    requires SizeLimiting.Valid(l) && l.count <= l.maxSize
    ensures var r := HeaderByte(Limited(l), Intended);
      && (Reach(Rest(l), SizeLimiting.Budget(l)) < 1 ==> r == Err(Io(Stop(Rest(l), SizeLimiting.Budget(l)))))
      && (Reach(Rest(l), SizeLimiting.Budget(l)) >= 1 ==> r == Ok((Limited(Advanced(l, 1)), Rest(l)[0])))
  {
  }

  /** The flag byte and the skip under a limiter: seven bytes within
      reach, or the end of the stream or the limit. */
  lemma GzipFlagsUnderLimit(l: SizeLimiting.Limiter, served: SizeLimiting.Reads)
    requires SizeLimiting.Valid(l) && l.count <= l.maxSize
    ensures var rest := Rest(l);
      var budget := SizeLimiting.Budget(l);
      && (Reach(rest, budget) < 7 ==> GzipFlags(Limited(l), served, Intended) == Err(Io(Stop(rest, budget))))
      && (Reach(rest, budget) >= 7 ==> GzipFlags(Limited(l), served, Intended) == Ok(Limited(Advanced(l, 7))))
  {
    HeaderByteUnderLimit(l);
    if Reach(Rest(l), SizeLimiting.Budget(l)) >= 1 {
      AdvancedRest(l, 1);
      ReachAfter(Rest(l), SizeLimiting.Budget(l), 1);
      SkipHeaderUnderLimit(Advanced(l, 1), 6, served);
      AdvancedTwice(l, 1, 6);
    }
  }

  /** From the method byte on, under a limiter. */
  lemma GzipMethodUnderLimit(l: SizeLimiting.Limiter, served: SizeLimiting.Reads)
    requires SizeLimiting.Valid(l) && l.count <= l.maxSize
    ensures var f := MethodFailure(Rest(l), SizeLimiting.Budget(l));
      var r := GzipMethod(Limited(l), served, Intended);
      && (f.Some? ==> r == Err(Io(f.value)))
      && (f.None? ==> r == Ok(Limited(Advanced(l, GZIP_HEADER_SIZE - 2))))
  {
    HeaderByteUnderLimit(l);
    if Reach(Rest(l), SizeLimiting.Budget(l)) >= 1 {
      AdvancedRest(l, 1);
      ReachAfter(Rest(l), SizeLimiting.Budget(l), 1);
      GzipFlagsUnderLimit(Advanced(l, 1), served);
      AdvancedTwice(l, 1, 7);
    }
  }

  /** Taking `k` bytes within reach leaves `k` fewer within reach, and
      the same thing to stop at. */
  lemma ReachAfter(rest: seq<byte>, budget: nat, k: nat)
    requires k <= Reach(rest, budget)
    ensures Reach(rest[k..], budget - k) == Reach(rest, budget) - k
    ensures Stop(rest[k..], budget - k) == Stop(rest, budget)
  {
  }

  /** The two magic bytes under a limiter: they are within reach, or the
      reading stops; once both are in, a wrong one ends the header and
      right ones lead on to the method byte. */
  lemma GzipMagicUnderLimit(l: SizeLimiting.Limiter, served: SizeLimiting.Reads)
    requires SizeLimiting.Valid(l) && l.count <= l.maxSize
    ensures var rest := Rest(l);
      var budget := SizeLimiting.Budget(l);
      var r := GzipHeader(Limited(l), served, Intended);
      && (Reach(rest, budget) < 2 ==> r == Err(Io(Stop(rest, budget))))
      && (Reach(rest, budget) >= 2 && (rest[0] != GZIP_ID1 || rest[1] != GZIP_ID2) ==> r == Err(Io(NOT_GZIP)))
      && (Reach(rest, budget) >= 2 && rest[0] == GZIP_ID1 && rest[1] == GZIP_ID2 ==>
            && SizeLimiting.Valid(Advanced(l, 2)) && Advanced(l, 2).count <= l.maxSize
            && r == GzipMethod(Limited(Advanced(l, 2)), served, Intended))
  {
    var rest := Rest(l);
    var budget := SizeLimiting.Budget(l);
    HeaderByteUnderLimit(l);
    if Reach(rest, budget) < 1 {
      assert HeaderByte(Limited(l), Intended) == Err(Io(Stop(rest, budget)));
    } else {
      var l1 := Advanced(l, 1);
      assert HeaderByte(Limited(l), Intended) == Ok((Limited(l1), rest[0]));
      AdvancedRest(l, 1);
      ReachAfter(rest, budget, 1);
      HeaderByteUnderLimit(l1);
      AdvancedTwice(l, 1, 1);
      if Reach(rest, budget) < 2 {
        assert HeaderByte(Limited(l1), Intended) == Err(Io(Stop(rest, budget)));
      } else {
        AdvancedRest(l, 2);
        assert HeaderByte(Limited(l1), Intended) == Ok((Limited(Advanced(l, 2)), rest[1]));
      }
    }
  }

  /** The header under a limiter within its limit: it fails exactly as
      `HeaderFailure` judges from the bytes to come and the budget left,
      and otherwise has counted its ten bytes against the limit. */
  lemma GzipHeaderUnderLimit(l: SizeLimiting.Limiter, served: SizeLimiting.Reads)
    requires SizeLimiting.Valid(l)
    ensures l.count <= l.maxSize ==>
      var f := HeaderFailure(Rest(l), SizeLimiting.Budget(l));
      && (f.Some? ==> GzipHeader(Limited(l), served, Intended) == Err(Io(f.value)))
      && (f.None? ==> GzipHeader(Limited(l), served, Intended) == Ok(Limited(Advanced(l, GZIP_HEADER_SIZE))))
  {
    if l.count <= l.maxSize {
      var rest := Rest(l);
      var budget := SizeLimiting.Budget(l);
      GzipMagicUnderLimit(l, served);
      if Reach(rest, budget) < 2 {
        assert HeaderFailure(rest, budget) == Some(Stop(rest, budget));
      } else if rest[0] != GZIP_ID1 || rest[1] != GZIP_ID2 {
        assert HeaderFailure(rest, budget) == Some(NOT_GZIP);
      } else {
        var l2 := Advanced(l, 2);
        AdvancedRest(l, 2);
        assert HeaderFailure(rest, budget) == MethodFailure(Rest(l2), SizeLimiting.Budget(l2));
        GzipMethodUnderLimit(l2, served);
        AdvancedTwice(l, 2, 8);
      }
    }
  }

  /** A fixed header whose magic and method are right. */
  predicate WellFormedHeader(rest: seq<byte>) {
    |rest| >= GZIP_HEADER_SIZE && rest[0] == GZIP_ID1 && rest[1] == GZIP_ID2 && rest[2] == GZIP_DEFLATE
  }

  /** What the source's `read()` counts for the fixed header `rest`: the
      values of ID1, ID2, CM and FLG, and one for each of the six skipped
      bytes. */
  function AsWrittenHeaderCost(rest: seq<byte>): (n: nat)
    requires WellFormedHeader(rest)
    ensures n == 184 + rest[3] as int
  {
    GZIP_ID1 as int + GZIP_ID2 as int + GZIP_DEFLATE as int + rest[3] as int + (GZIP_HEADER_SIZE - 4)
  }

  /** The flag byte and the skip with the source's `read()`: the flag
      byte adds its value and the six skipped bytes one each. */
  lemma GzipFlagsAsWritten(l: SizeLimiting.Limiter, served: SizeLimiting.Reads)
    requires SizeLimiting.Valid(l) && 0 <= l.count <= 1000 && l.count <= l.maxSize
    requires |Rest(l)| >= GZIP_HEADER_SIZE - 3
    ensures var cost := l.count + Rest(l)[0] as int + (GZIP_HEADER_SIZE - 4);
      && (l.maxSize < cost ==> GzipFlags(Limited(l), served, AsWritten) == Err(Io(SizeExceeded)))
      && (l.maxSize >= cost ==> GzipFlags(Limited(l), served, AsWritten) == Ok(Limited(Advanced(l, GZIP_HEADER_SIZE - 3).(count := cost))))
  {
    var flg := Rest(l)[0] as int;
    var s := SizeLimiting.ReadByteAsWritten(l);
    assert s.value == flg && s.after.count == l.count + flg;
    if s.thrown.Some? {
      assert GzipFlags(Limited(l), served, AsWritten) == Err(Io(SizeExceeded));
    } else {
      var l1 := s.after;
      assert l1 == Advanced(l, 1).(count := l.count + flg);
      assert GzipFlags(Limited(l), served, AsWritten) == SkipHeader(Limited(l1), GZIP_HEADER_SIZE - 4, served);
      SkipHeaderUnderLimit(l1, GZIP_HEADER_SIZE - 4, served);
    }
  }

  /** The fixed header under a limiter that has counted nothing yet, with
      the source's `read()`: ID1, ID2, CM and FLG add their values,
      31 + 139 + 8 + FLG, and the six skipped bytes one each. So a
      well-formed header passes exactly when the limit is at least
      184 + FLG, and otherwise ends in `SizeExceeded`; counted as
      intended it needs ten (`GzipHeaderUnderLimit`). */
  lemma GzipHeaderAsWritten(l: SizeLimiting.Limiter, served: SizeLimiting.Reads)
    requires SizeLimiting.Valid(l) && l.count == 0
    requires WellFormedHeader(Rest(l))
    ensures var cost := AsWrittenHeaderCost(Rest(l));
      && (l.maxSize < cost ==> GzipHeader(Limited(l), served, AsWritten) == Err(Io(SizeExceeded)))
      && (l.maxSize >= cost ==> GzipHeader(Limited(l), served, AsWritten) == Ok(Limited(Advanced(l, GZIP_HEADER_SIZE).(count := cost))))
  {
    var rest := Rest(l);
    var s1 := SizeLimiting.ReadByteAsWritten(l);
    assert s1.value == 31 && s1.after.count == 31;
    if l.maxSize < 31 {
      assert GzipHeader(Limited(l), served, AsWritten) == Err(Io(SizeExceeded));
    } else {
      var l1 := s1.after;
      assert l1 == Advanced(l, 1).(count := 31);
      var s2 := SizeLimiting.ReadByteAsWritten(l1);
      assert s2.value == 139 && s2.after.count == 170;
      if l.maxSize < 170 {
        assert GzipHeader(Limited(l), served, AsWritten) == Err(Io(SizeExceeded));
      } else {
        var l2 := s2.after;
        assert l2 == Advanced(l, 2).(count := 170);
        assert GzipHeader(Limited(l), served, AsWritten) == GzipMethod(Limited(l2), served, AsWritten);
        var s3 := SizeLimiting.ReadByteAsWritten(l2);
        assert s3.value == 8 && s3.after.count == 178;
        if l.maxSize < 178 {
          assert GzipMethod(Limited(l2), served, AsWritten) == Err(Io(SizeExceeded));
        } else {
          var l3 := s3.after;
          assert l3 == Advanced(l, 3).(count := 178);
          assert GzipMethod(Limited(l2), served, AsWritten) == GzipFlags(Limited(l3), served, AsWritten);
          assert Rest(l3)[0] == rest[3];
          GzipFlagsAsWritten(l3, served);
          assert Advanced(l3, GZIP_HEADER_SIZE - 3).src == Advanced(l, GZIP_HEADER_SIZE).src;
        }
      }
    }
  }

  /** The gzip decompressor over what is left after its header. */
  function StartGzip(p: Pipe, served: SizeLimiting.Reads, counting: Counting): (r: Result<Wrapped>)
    requires p.Valid()
    ensures r.Ok? ==> r.value.Valid() && r.value.decompressor == Gzip
    ensures r.Err? ==> r.failure.Io?
    ensures GzipHeader(p, served, counting).Err? ==> r == Err(GzipHeader(p, served, counting).failure)
    ensures GzipHeader(p, served, counting).Ok? ==> r == Ok(Wrapped(Gzip, GzipHeader(p, served, counting).value))
  {
    match GzipHeader(p, served, counting)
    case Err(f) => Err(f)
    case Ok(rest) => Ok(Wrapped(Gzip, rest))
  }

  /** Building the decompressor over the raw stream. Only
      `GZIPInputStream` reads while it is built, and what fails there
      fails inside the handler's `try`; `LZ4BlockInputStream` and
      `InflaterInputStream` read nothing until the converter does. */
  function OpenDecoder(w: Wrapped, served: SizeLimiting.Reads, counting: Counting): (r: Result<Wrapped>)
    requires w.Valid()
    ensures r.Ok? ==> r.value.Valid() && r.value.decompressor == w.decompressor
    ensures r.Err? ==> r.failure.Io?
    ensures w.decompressor != Gzip ==> r == Ok(w)
    ensures w.decompressor == Gzip && w.pipe.Unlimited? ==>
      var f := HeaderFailure(w.pipe.data, |w.pipe.data|);
      && (f.Some? ==> r == Err(Io(f.value)))
      && (f.None? ==> r == Ok(Wrapped(Gzip, Unlimited(w.pipe.data[GZIP_HEADER_SIZE..]))))
    ensures w.decompressor == Gzip && w.pipe.Limited? && w.pipe.limiter.count <= w.pipe.limiter.maxSize && counting == Intended ==>
      var l := w.pipe.limiter;
      var f := HeaderFailure(Rest(l), SizeLimiting.Budget(l));
      && (f.Some? ==> r == Err(Io(f.value)))
      && (f.None? ==> r == Ok(Wrapped(Gzip, Limited(Advanced(l, GZIP_HEADER_SIZE)))))
  {
    if w.decompressor != Gzip then Ok(w)
    else
      match w.pipe
      case Unlimited(data) =>
        GzipHeaderUnlimited(data, served, counting);
        StartGzip(w.pipe, served, counting)
      case Limited(l) =>
        GzipHeaderUnderLimit(l, served);
        StartGzip(w.pipe, served, counting)
  }

  /** `ContentConverter<T>`: `convert` reads the body as it sees fit. */
  datatype Converter<T> = Converter(
    convert: (View, Drained) -> Result<T>,
    handleError: (View, IoFailure) -> Result<T>)

  datatype Handler = Handler(maxBodyLength: Strings.Int32, allowRedirect: bool)

  /** `new ContentResponseHandler(c)` and `forConverter(c)`: unlimited
      body, no redirect detection. */
  const DEFAULT_HANDLER: Handler := Handler(-1, false)

  /** `new ContentResponseHandler(c, max)`. */
  function WithLimit(maxBodyLength: Strings.Int32): (h: Handler)
    ensures h.maxBodyLength == maxBodyLength && !h.allowRedirect
  {
    Handler(maxBodyLength, false)
  }

  /** The body stream, empty when the response has none or fetching it
      failed. */
  function BodyOf(v: View): (b: Body)
    ensures v.body.Ok? && v.body.value.Some? ==> b == v.body.value.value
    ensures v.body.Err? || v.body.value.None? ==> b == EMPTY_BODY
  {
    match v.body
    case Ok(Some(b)) => b
    case _ => EMPTY_BODY
  }

  /** The steps of `handle` before the decompressor is built: the
      declared-length check, the limiter and the choice of decompressor.
      A failure here is an `IOException` inside the handler's `try`. */
  function Prepare(h: Handler, v: View): (r: Result<Wrapped>)
    ensures r.Ok? ==> r.value.Valid()
    ensures r.Ok? ==> r.value.decompressor == DecompressorFor(v.contentEncoding)
    ensures r.Err? ==> r.failure == Io(SizeExceeded)
    ensures h.maxBodyLength <= 0 ==> r == Ok(Wrapped(DecompressorFor(v.contentEncoding), Unlimited(BodyOf(v).data)))
    ensures h.maxBodyLength > 0 ==>
      (r.Err? <==> (v.contentLength.Some? && v.contentLength.value > h.maxBodyLength) || BodyOf(v).available > h.maxBodyLength)
    ensures h.maxBodyLength > 0 && r.Ok? ==>
      && r.value.pipe.Limited?
      && r.value.pipe.limiter.src == SizeLimiting.Source(BodyOf(v).data, 0, None)
      && r.value.pipe.limiter.maxSize == h.maxBodyLength as int
      && SizeLimiting.Counted(r.value.pipe.limiter) && r.value.pipe.limiter.count == 0
  {
    var body := BodyOf(v);
    var d := DecompressorFor(v.contentEncoding);
    if h.maxBodyLength > 0 then
      if v.contentLength.Some? && v.contentLength.value > h.maxBodyLength then Err(Io(SizeExceeded))
      else
        match SizeLimiting.Open(body.data, body.available, h.maxBodyLength)
        case Err(f) => Err(f)
        case Ok(l) => Ok(Wrapped(d, Limited(l)))
    else Ok(Wrapped(d, Unlimited(body.data)))
  }

  /** `handle`. `served` says how many bytes each read of whatever
      consumes the stream gets (the converter's reader or the
      decompressor). */
  function Handle<T>(h: Handler, c: Converter<T>, v: View, inflate: Inflate, served: SizeLimiting.Reads, counting: Counting): (r: Result<T>)
    ensures h.allowRedirect && v.redirected ==> r == Err(Io(Redirected(v.status)))
    ensures !(h.allowRedirect && v.redirected) && Prepare(h, v).Err? ==>
      r == c.handleError(v, SizeExceeded)
    ensures !(h.allowRedirect && v.redirected) && Prepare(h, v).Ok? ==>
      var built := OpenDecoder(Prepare(h, v).value, served, counting);
      built.Err? ==> r == c.handleError(v, built.failure.io)
    ensures !(h.allowRedirect && v.redirected) && Prepare(h, v).Ok? && OpenDecoder(Prepare(h, v).value, served, counting).Ok? ==>
      var out := c.convert(v, Drain(OpenDecoder(Prepare(h, v).value, served, counting).value, inflate, served));
      && (out.Ok? ==> r == out)
      && (out.Err? && out.failure.Io? ==> r == c.handleError(v, out.failure.io))
      && (out.Err? && !out.failure.Io? ==> r == out)
  {
    if h.allowRedirect && v.redirected then Err(Io(Redirected(v.status)))
    else
      match Prepare(h, v)
      case Err(f) => c.handleError(v, f.io)
      case Ok(w) =>
        match OpenDecoder(w, served, counting)
        case Err(f) => c.handleError(v, f.io)
        case Ok(w') =>
          match c.convert(v, Drain(w', inflate, served))
          case Ok(x) => Ok(x)
          case Err(f) => if f.Io? then c.handleError(v, f.io) else Err(f)
  }

  // ---------------------------------------------------------------------
  // Properties of the pipeline

  /** A redirect never reaches the converter: any two converters give the
      same answer. */
  lemma RedirectSkipsConverter<T>(h: Handler, c1: Converter<T>, c2: Converter<T>, v: View, inflate: Inflate, served: SizeLimiting.Reads, counting: Counting)
    requires h.allowRedirect && v.redirected
    ensures Handle(h, c1, v, inflate, served, counting) == Handle(h, c2, v, inflate, served, counting)
    ensures Handle(h, c1, v, inflate, served, counting).Err?
  {
  }

  /** A missing body, or one that could not be fetched, gives the
      converter the same stream as an empty one. */
  lemma MissingBodyIsEmpty(h: Handler, v: View)
    requires v.body.Err? || v.body == Ok(None)
    ensures Prepare(h, v) == Prepare(h, v.(body := Ok(Some(EMPTY_BODY))))
  {
  }

  /** The default handler neither limits the body nor detects redirects.
      Over a gzip body the header is read first and fails as the bytes
      alone say; otherwise the converter sees the whole (decompressed)
      body, read in any way, and what it answers is the handler's answer,
      an I/O failure going to `handleError` and any other passing
      through. */
  lemma DefaultHandlerIsUnlimited<T>(c: Converter<T>, v: View, inflate: Inflate, served: SizeLimiting.Reads, counting: Counting)
    ensures var d := DecompressorFor(v.contentEncoding);
      var data := BodyOf(v).data;
      var header := if d == Gzip then HeaderFailure(data, |data|) else None;
      var fed := if d == Gzip && |data| >= GZIP_HEADER_SIZE then data[GZIP_HEADER_SIZE..] else data;
      var whole := if d == Identity then Drained(data, None) else inflate(d, Drained(fed, None));
      var out := c.convert(v, whole);
      var r := Handle(DEFAULT_HANDLER, c, v, inflate, served, counting);
      && (header.Some? ==> r == c.handleError(v, header.value))
      && (header.None? && out.Err? && out.failure.Io? ==> r == c.handleError(v, out.failure.io))
      && (header.None? && (out.Ok? || !out.failure.Io?) ==> r == out)
  {
  }

  /** A gzip response with an empty body, a 204 say, fails in the
      decompressor's constructor with an `EOFException`, which the
      converter's error hook receives. */
  lemma EmptyGzipBodyEndsInTheHeader<T>(h: Handler, c: Converter<T>, v: View, inflate: Inflate, served: SizeLimiting.Reads, counting: Counting)
    requires !(h.allowRedirect && v.redirected)
    requires BodyOf(v).data == [] && DecompressorFor(v.contentEncoding) == Gzip
    requires Prepare(h, v).Ok?
    ensures Handle(h, c, v, inflate, served, counting) == c.handleError(v, END_OF_STREAM)
  {
    var w := Prepare(h, v).value;
    assert w.decompressor == Gzip;
    assert w.pipe.Unlimited? ==> w.pipe.data == [];
    assert w.pipe.Limited? ==> w.pipe.limiter.src.pos == |w.pipe.limiter.src.data| && w.pipe.limiter.count <= w.pipe.limiter.maxSize;
    EmptyStreamEndsInTheHeader(w.pipe, served, counting);
    assert OpenDecoder(w, served, counting) == StartGzip(w.pipe, served, counting);
  }

  /** The gzip header over a stream with nothing left to read. */
  lemma EmptyStreamEndsInTheHeader(p: Pipe, served: SizeLimiting.Reads, counting: Counting)
    requires p.Valid()
    requires p.Unlimited? ==> p.data == []
    requires p.Limited? ==> p.limiter.src.pos == |p.limiter.src.data| && p.limiter.count <= p.limiter.maxSize
    ensures GzipHeader(p, served, counting) == Err(Io(END_OF_STREAM))
  {
    assert HeaderByte(p, counting) == Err(Io(END_OF_STREAM));
  }

  /** Under a limit the gzip header shares the budget with the body: the
      header fails as `HeaderFailure` judges with the whole limit as
      budget, and a good header leaves the limiter ten bytes in, with ten
      bytes of the limit spent. */
  lemma GzipHeaderCountsAgainstTheLimit(h: Handler, v: View, served: SizeLimiting.Reads)
    requires h.maxBodyLength > 0 && Prepare(h, v).Ok?
    requires DecompressorFor(v.contentEncoding) == Gzip
    ensures var built := OpenDecoder(Prepare(h, v).value, served, Intended);
      var f := HeaderFailure(BodyOf(v).data, h.maxBodyLength as nat);
      && (built.Err? <==> f.Some?)
      && (built.Err? ==> built.failure == Io(f.value))
      && (built.Ok? ==> && built.value.pipe.Limited?
                         && built.value.pipe.limiter.src.pos == GZIP_HEADER_SIZE
                         && built.value.pipe.limiter.count == GZIP_HEADER_SIZE
                         && SizeLimiting.Budget(built.value.pipe.limiter) == h.maxBodyLength as int - GZIP_HEADER_SIZE)
  {
    var w := Prepare(h, v).value;
    var l := w.pipe.limiter;
    assert l.count == 0 && l.src.pos == 0 && l.maxSize == h.maxBodyLength as int;
    assert Rest(l) == BodyOf(v).data;
    assert SizeLimiting.Budget(l) == h.maxBodyLength as int;
    var f := HeaderFailure(BodyOf(v).data, h.maxBodyLength as nat);
    if f.None? {
      assert OpenDecoder(w, served, Intended) == Ok(Wrapped(Gzip, Limited(Advanced(l, GZIP_HEADER_SIZE))));
    } else {
      assert OpenDecoder(w, served, Intended) == Err(Io(f.value));
    }
  }

  /** As written, a well-formed gzip body under a limit below 184 + FLG
      never reaches the converter: its header alone takes the count past
      the limit inside the decompressor's constructor, and the error hook
      receives `SizeExceeded`. From that limit on the decompressor is
      built with 184 + FLG of the limit spent. */
  lemma GzipHeaderOverCountedAsWritten<T>(h: Handler, c: Converter<T>, v: View, inflate: Inflate, served: SizeLimiting.Reads)
    requires !(h.allowRedirect && v.redirected)
    requires h.maxBodyLength > 0 && Prepare(h, v).Ok? && DecompressorFor(v.contentEncoding) == Gzip
    requires WellFormedHeader(BodyOf(v).data)
    ensures var cost := AsWrittenHeaderCost(BodyOf(v).data);
      && (h.maxBodyLength as int < cost ==> Handle(h, c, v, inflate, served, AsWritten) == c.handleError(v, SizeExceeded))
      && (h.maxBodyLength as int >= cost ==>
            var built := OpenDecoder(Prepare(h, v).value, served, AsWritten);
            && built.Ok? && built.value.pipe.Limited?
            && built.value.pipe.limiter.src.pos == GZIP_HEADER_SIZE && built.value.pipe.limiter.count == cost)
  {
    var l := Prepare(h, v).value.pipe.limiter;
    assert Rest(l) == BodyOf(v).data;
    GzipHeaderAsWritten(l, served);
  }

  /** Any well-formed gzip body under `WithLimit(100)`: as written the
      error hook receives `SizeExceeded`, thrown by the second header
      byte. Counted as intended the decompressor is built
      (`WellFormedHeaderBuildsAsIntended`). */
  lemma GzipUnderLimit100<T>(c: Converter<T>, v: View, inflate: Inflate, served: SizeLimiting.Reads)
    requires v.contentLength.None? && DecompressorFor(v.contentEncoding) == Gzip && BodyOf(v).available <= 100
    requires WellFormedHeader(BodyOf(v).data)
    ensures Handle(WithLimit(100), c, v, inflate, served, AsWritten) == c.handleError(v, SizeExceeded)
  {
    GzipHeaderOverCountedAsWritten(WithLimit(100), c, v, inflate, served);
  }

  /** Counted as intended, a well-formed gzip header builds the
      decompressor under any limit of ten bytes or more. */
  lemma WellFormedHeaderBuildsAsIntended(h: Handler, v: View, served: SizeLimiting.Reads)
    requires h.maxBodyLength >= GZIP_HEADER_SIZE as int && Prepare(h, v).Ok? && DecompressorFor(v.contentEncoding) == Gzip
    requires WellFormedHeader(BodyOf(v).data)
    ensures OpenDecoder(Prepare(h, v).value, served, Intended).Ok?
  {
    GoodHeaderChecksOut(BodyOf(v).data, h.maxBodyLength as nat);
    GzipHeaderCountsAgainstTheLimit(h, v, served);
  }

  /** Ten bytes with the right magic and method check out under any
      budget of ten bytes or more. */
  lemma GoodHeaderChecksOut(data: seq<byte>, budget: nat)
    requires WellFormedHeader(data) && budget >= GZIP_HEADER_SIZE
    ensures HeaderFailure(data, budget) == None
  {
    assert data[2..][0] == GZIP_DEFLATE;
  }

  /** A declared length over the limit goes to `handleError`, not to the
      caller directly, whatever the body. */
  lemma DeclaredLengthOverLimitIsHandled<T>(h: Handler, c: Converter<T>, v: View, inflate: Inflate, served: SizeLimiting.Reads, counting: Counting)
    requires !(h.allowRedirect && v.redirected)
    requires h.maxBodyLength > 0 && v.contentLength.Some? && v.contentLength.value > h.maxBodyLength
    ensures Handle(h, c, v, inflate, served, counting) == c.handleError(v, SizeExceeded)
  {
  }

  /** With a limit, an uncompressed body is delivered to the converter in
      full exactly when it fits. Otherwise the converter receives a prefix
      of at most the limit, then `SizeExceeded`: the read that crosses the
      limit is taken from the wire but never handed on, so the prefix is
      short of the limit by less than that read. */
  lemma LimitedBodyIsTruncatedAtTheLimit(h: Handler, v: View, inflate: Inflate, served: SizeLimiting.Reads)
    requires h.maxBodyLength > 0 && Prepare(h, v).Ok?
    requires DecompressorFor(v.contentEncoding) == Identity
    ensures var got := Drain(Prepare(h, v).value, inflate, served);
      var data := BodyOf(v).data;
      && (got.failure.None? <==> |data| <= h.maxBodyLength)
      && (got.failure.None? ==> got.bytes == data)
      && (got.failure.Some? ==>
            && got.failure == Some(SizeExceeded)
            && h.maxBodyLength as int - served(|got.bytes|) < |got.bytes| <= h.maxBodyLength as int
            && got.bytes == data[..|got.bytes|])
  {
    var l := Prepare(h, v).value.pipe.limiter;
    assert SizeLimiting.Budget(l) == h.maxBodyLength as int;
    assert l.src.data[l.src.pos..] == BodyOf(v).data;
  }

  /** When the wrapped stream fills every read of `block` bytes, the
      truncated body is a whole number of blocks, fewer than one block
      short of the limit. */
  lemma LimitedBodyInWholeBlocks(h: Handler, v: View, inflate: Inflate, block: SizeLimiting.BlockSize)
    requires h.maxBodyLength > 0 && Prepare(h, v).Ok?
    requires DecompressorFor(v.contentEncoding) == Identity
    ensures var got := Drain(Prepare(h, v).value, inflate, SizeLimiting.FullReads(block));
      got.failure.Some? ==>
        && SizeLimiting.WholeBlocks(|got.bytes|, block)
        && h.maxBodyLength as int - block < |got.bytes| <= h.maxBodyLength as int
  {
    var l := Prepare(h, v).value.pipe.limiter;
    SizeLimiting.FullReadsDeliverWholeBlocks(l, block);
    LimitedBodyIsTruncatedAtTheLimit(h, v, inflate, SizeLimiting.FullReads(block));
  }

  /** Ten bytes under a limit of five, read in the usual 8192-byte blocks
      that the wrapped stream fills: the converter receives nothing before
      `SizeExceeded`. */
  lemma FirstBlockOverTheLimitDeliversNothing(v: View, inflate: Inflate)
    requires v.body == Ok(Some(Body(seq(10, _ => 0 as byte), 0)))
    requires v.contentLength.None? && DecompressorFor(v.contentEncoding) == Identity
    ensures Drain(Prepare(WithLimit(5), v).value, inflate, SizeLimiting.FullReads(8192)) == Drained([], Some(SizeExceeded))
  {
    var h := WithLimit(5);
    var served := SizeLimiting.FullReads(8192);
    assert |BodyOf(v).data| == 10 && Prepare(h, v).Ok?;
    LimitedBodyIsTruncatedAtTheLimit(h, v, inflate, served);
    LimitedBodyInWholeBlocks(h, v, inflate, 8192);
    var got := Drain(Prepare(h, v).value, inflate, served);
    assert got.failure == Some(SizeExceeded) && |got.bytes| == 0;
  }

  /** The same ten bytes when the wrapped stream answers every read with
      three bytes: the converter receives the first three, then
      `SizeExceeded`. */
  lemma ShortReadsDeliverBeforeTheLimit(v: View, inflate: Inflate)
    requires v.body == Ok(Some(Body(seq(10, _ => 0 as byte), 0)))
    requires v.contentLength.None? && DecompressorFor(v.contentEncoding) == Identity
    ensures Drain(Prepare(WithLimit(5), v).value, inflate, SizeLimiting.FullReads(3)) == Drained([0, 0, 0], Some(SizeExceeded))
  {
    var h := WithLimit(5);
    var served := SizeLimiting.FullReads(3);
    var data := BodyOf(v).data;
    assert |data| == 10 && Prepare(h, v).Ok?;
    LimitedBodyIsTruncatedAtTheLimit(h, v, inflate, served);
    LimitedBodyInWholeBlocks(h, v, inflate, 3);
    var got := Drain(Prepare(h, v).value, inflate, served);
    assert got.failure == Some(SizeExceeded);
    assert |got.bytes| == 3 by {
      assert !SizeLimiting.WholeBlocks(4, 3) && !SizeLimiting.WholeBlocks(5, 3);
    }
    assert got.bytes == data[..3] == [0, 0, 0];
  }

  /** With the default converter error hook a size failure reaches the
      caller as `SizeExceeded`. */
  lemma RethrowingHookSurfacesSizeFailure<T>(h: Handler, convert: (View, Drained) -> Result<T>, v: View, inflate: Inflate, served: SizeLimiting.Reads, counting: Counting)
    requires !(h.allowRedirect && v.redirected) && h.maxBodyLength > 0
    requires BodyOf(v).available > h.maxBodyLength
    ensures Handle(h, Converter(convert, (v': View, e: IoFailure) => Err(Io(e))), v, inflate, served, counting) == Err(Io(SizeExceeded))
  {
  }
}

=== FILE: converters.dfy ===
/** The stock content converters and their status-code policies:
    `StringContentConverter`, `NumberContentConverter`,
    `JsonContentConverter` and `Valid2xxContentConverter`. Each turns a
    response and its drained body into a value or an exception. Charset
    decoding, `valueOf` and Jackson are foreign calls and enter as
    parameters. */
module Converters {
  import opened Outcomes
  import opened BodySources
  import opened Responses
  import Strings

  const UTF8: string := "UTF-8"

  /** The JVM's charsets: which names `Charset.forName` knows, and what an
      `InputStreamReader` in a known charset reads from given bytes. */
  datatype Charsets = Charsets(supported: string -> bool, decode: (string, seq<byte>) -> Result<string>)

  /** The statuses a converter answers without raising
      `HttpResponseException`: 200, 201, 204, and 404 when told to ignore
      it. */
  predicate Answers(status: int, ignore404: bool) {
    status == 200 || status == 201 || status == 204 || (status == 404 && ignore404)
  }

  /** The exception for a status a converter does not answer. */
  function HttpFailure(v: View): (f: Failure)
    ensures f.Io? && f.io.HttpResponse? && f.io.status == v.status
  {
    Io(HttpResponse(v.status))
  }

  /** `AbstractErrorHandlingContentConverter.handleError`: rethrows. */
  function Rethrow<T>(v: View, e: IoFailure): (r: Result<T>)
    ensures r.Err? && r.failure == Io(e)
  {
    Err(Io(e))
  }

  /** The charset a text converter reads in: the response's, UTF-8 when
      it has none. */
  function CharsetName(v: View): string {
    v.charset.GetOr(UTF8)
  }

  /** The body as text. `Charset.forName` runs before the stream is
      touched, so an unknown charset fails with its unchecked
      `UnsupportedCharsetException` (an illegal argument) whatever the
      body holds; otherwise a read failure surfaces as it is, and a
      complete body is decoded. */
  function ReadText(v: View, body: Drained, cs: Charsets): (r: Result<string>)
    ensures !cs.supported(CharsetName(v)) ==> r == Err(IllegalArgument(CharsetName(v)))
    ensures cs.supported(CharsetName(v)) && body.failure.Some? ==> r == Err(Io(body.failure.value))
    ensures cs.supported(CharsetName(v)) && body.failure.None? ==> r == cs.decode(CharsetName(v), body.bytes)
  {
    var name := CharsetName(v);
    if !cs.supported(name) then Err(IllegalArgument(name))
    else
      match body.Whole()
      case Err(f) => Err(f)
      case Ok(bytes) => cs.decode(name, bytes)
  }

  // ---------------------------------------------------------------------
  // StringContentConverter

  datatype StringConverter = StringConverter(ignore404: bool)

  const STRING_DEFAULT: StringConverter := StringConverter(false)
  const STRING_404OK: StringConverter := StringConverter(true)

  function ConvertString(c: StringConverter, v: View, body: Drained, cs: Charsets): (r: Result<string>)
    ensures !Answers(v.status, c.ignore404) ==> r == Err(HttpFailure(v))
    ensures v.status == 200 || v.status == 201 ==> r == ReadText(v, body, cs)
    ensures v.status == 204 || (v.status == 404 && c.ignore404) ==> r == Ok("")
  {
    match v.status
    case 200 => ReadText(v, body, cs)
    case 201 => ReadText(v, body, cs)
    case 204 => Ok("")
    case 404 => if c.ignore404 then Ok("") else Err(HttpFailure(v))
    case _ => Err(HttpFailure(v))
  }

  // ---------------------------------------------------------------------
  // NumberContentConverter

  /** A converter for one number class; `valueOf` is that class's static
      `valueOf(String)` behind `safeInvoke`, so a failure is `None`. */
  datatype NumberConverter<T> = NumberConverter(ignore404: bool, valueOf: string -> Option<T>)

  /** The empty value is `valueOf("0")`. */
  function EmptyValue<T>(c: NumberConverter<T>): Option<T> {
    c.valueOf("0")
  }

  function ConvertNumber<T>(c: NumberConverter<T>, v: View, body: Drained, cs: Charsets): (r: Result<Option<T>>)
    ensures !Answers(v.status, c.ignore404) ==> r == Err(HttpFailure(v))
    ensures v.status == 204 || (v.status == 404 && c.ignore404) ==> r == Ok(EmptyValue(c))
    ensures (v.status == 200 || v.status == 201) && ReadText(v, body, cs).Err? ==> r == Err(ReadText(v, body, cs).failure)
    ensures (v.status == 200 || v.status == 201) && ReadText(v, body, cs).Ok? ==>
      var parsed := c.valueOf(ReadText(v, body, cs).value);
      && (parsed.Some? ==> r == Ok(parsed))
      && (parsed.None? && v.status == 201 ==> r == Ok(EmptyValue(c)))
      && (parsed.None? && v.status == 200 ==> r.Err? && r.failure.IllegalArgument?)
  {
    if v.status == 200 || v.status == 201 then
      match ReadText(v, body, cs)
      case Err(f) => Err(f)
      case Ok(data) =>
        match c.valueOf(data)
        case Some(n) => Ok(Some(n))
        case None =>
          if v.status == 201 then Ok(EmptyValue(c))
          else Err(IllegalArgument("Could not parse result '" + data + "'"))
    else if v.status == 204 then Ok(EmptyValue(c))
    else if v.status == 404 && c.ignore404 then Ok(EmptyValue(c))
    else Err(HttpFailure(v))
  }

  /** The `Long` converter. */
  function LongConverter(ignore404: bool): (c: NumberConverter<int>)
    ensures c.ignore404 == ignore404
  {
    NumberConverter(ignore404, Strings.ParseLong)
  }

  /** For `Long` the empty value is 0, and a 200 body holding the decimal
      rendering of any `long` converts back to that number. */
  lemma LongConverterReadsItsOwnRendering(ignore404: bool, v: View, body: Drained, cs: Charsets, n: int)
    requires Strings.LONG_MIN <= n <= Strings.LONG_MAX
    requires v.status == 200 && body.failure.None?
    requires cs.supported(CharsetName(v)) && cs.decode(CharsetName(v), body.bytes) == Ok(Strings.LongToString(n))
    ensures EmptyValue(LongConverter(ignore404)) == Some(0)
    ensures ConvertNumber(LongConverter(ignore404), v, body, cs) == Ok(Some(n))
  {
    Strings.ParseLongRoundTrip(0);
    assert Strings.LongToString(0) == "0";
    Strings.ParseLongRoundTrip(n);
  }

  // ---------------------------------------------------------------------
  // JsonContentConverter

  datatype JsonConverter = JsonConverter(ignore404: bool)

  /** The two-argument constructor. */
  const JSON_DEFAULT: JsonConverter := JsonConverter(false)

  /** `objectMapper.readValue(in, type)` is `read`. A 201 body that does
      not parse as JSON gives `null`; any other failure is rethrown. */
  function ConvertJson<T>(c: JsonConverter, v: View, body: Drained, read: Drained -> Result<T>): (r: Result<Option<T>>)
    ensures !Answers(v.status, c.ignore404) ==> r == Err(HttpFailure(v))
    ensures v.status == 204 || (v.status == 404 && c.ignore404) ==> r == Ok(None)
    ensures v.status == 200 ==> (r.Ok? <==> read(body).Ok?)
    ensures v.status == 200 && r.Ok? ==> r.value == Some(read(body).value)
    ensures v.status == 200 && r.Err? ==> r.failure == read(body).failure
    ensures v.status == 201 ==> (r == Ok(None) <==> read(body).Err? && read(body).failure.Io? && read(body).failure.io.JsonParse?)
    ensures v.status == 201 && read(body).Ok? ==> r == Ok(Some(read(body).value))
    ensures v.status == 201 && r.Err? ==> r.failure == read(body).failure
  {
    match v.status
    case 200 =>
      (match read(body)
       case Ok(x) => Ok(Some(x))
       case Err(f) => Err(f))
    case 204 => Ok(None)
    case 201 =>
      (match read(body)
       case Ok(x) => Ok(Some(x))
       case Err(f) => if f.Io? && f.io.JsonParse? then Ok(None) else Err(f))
    case 404 => if c.ignore404 then Ok(None) else Err(HttpFailure(v))
    case _ => Err(HttpFailure(v))
  }

  // ---------------------------------------------------------------------
  // Valid2xxContentConverter

  datatype Valid2xxConverter = Valid2xxConverter(failOnError: bool, ignore404: bool)

  const VALID2XX_DEFAULT: Valid2xxConverter := Valid2xxConverter(false, false)
  const VALID2XX_FAILING: Valid2xxConverter := Valid2xxConverter(true, false)
  const VALID2XX_404OK: Valid2xxConverter := Valid2xxConverter(true, true)

  /** TRUE for 200, 201 and 204; otherwise FALSE, or the HTTP exception
      when failing on errors (404 only when not ignored). The body is not
      a parameter: it is never read. */
  function ConvertValid2xx(c: Valid2xxConverter, v: View): (r: Result<bool>)
    ensures r == Ok(true) <==> v.status == 200 || v.status == 201 || v.status == 204
    ensures r.Err? <==> c.failOnError && !Answers(v.status, c.ignore404)
    ensures r.Err? ==> r.failure == HttpFailure(v)
  {
    match v.status
    case 200 => Ok(true)
    case 201 => Ok(true)
    case 204 => Ok(true)
    case 404 =>
      if c.ignore404 then Ok(false)
      else if c.failOnError then Err(HttpFailure(v)) else Ok(false)
    case _ => if c.failOnError then Err(HttpFailure(v)) else Ok(false)
  }

  // ---------------------------------------------------------------------
  // Properties across the converters

  /** The four converters share one status policy: each raises the HTTP
      exception exactly on the statuses `Answers` rejects (the `Valid2xx`
      converter when it fails on errors), whatever the body and the
      foreign calls produce. */
  lemma SharedStatusPolicy<T, J>(ignore404: bool, v: View, body: Drained, cs: Charsets,
                                 valueOf: string -> Option<T>, read: Drained -> Result<J>)
    requires !Answers(v.status, ignore404)
    ensures ConvertString(StringConverter(ignore404), v, body, cs) == Err(HttpFailure(v))
    ensures ConvertNumber(NumberConverter(ignore404, valueOf), v, body, cs) == Err(HttpFailure(v))
    ensures ConvertJson(JsonConverter(ignore404), v, body, read) == Err(HttpFailure(v))
    ensures ConvertValid2xx(Valid2xxConverter(true, ignore404), v) == Err(HttpFailure(v))
  {
  }

  /** Outside 200 and 201 the body is not consulted: two responses that
      differ only in their bodies convert alike. */
  lemma BodyIgnoredOutside200And201<T, J>(ignore404: bool, v: View, b1: Drained, b2: Drained, cs: Charsets,
                                          valueOf: string -> Option<T>, read: Drained -> Result<J>)
    requires v.status != 200 && v.status != 201
    ensures ConvertString(StringConverter(ignore404), v, b1, cs) == ConvertString(StringConverter(ignore404), v, b2, cs)
    ensures ConvertNumber(NumberConverter(ignore404, valueOf), v, b1, cs) == ConvertNumber(NumberConverter(ignore404, valueOf), v, b2, cs)
    ensures ConvertJson(JsonConverter(ignore404), v, b1, read) == ConvertJson(JsonConverter(ignore404), v, b2, read)
  {
  }

  /** On 200 and 201 the charset is looked up first: an unknown one fails
      the text converters with an illegal argument (unchecked, so a
      response handler does not route it to `handleError`) even when the
      body could not be read; with a known one, a body that could not be
      read fully fails them with the reading exception, so a size limit
      reaches the caller rather than a truncated value. */
  lemma ReadFailureSurfaces<T>(ignore404: bool, v: View, body: Drained, cs: Charsets, valueOf: string -> Option<T>)
    requires v.status == 200 || v.status == 201
    requires body.failure.Some?
    ensures !cs.supported(CharsetName(v)) ==>
      && ConvertString(StringConverter(ignore404), v, body, cs) == Err(IllegalArgument(CharsetName(v)))
      && ConvertNumber(NumberConverter(ignore404, valueOf), v, body, cs) == Err(IllegalArgument(CharsetName(v)))
    ensures cs.supported(CharsetName(v)) ==>
      && ConvertString(StringConverter(ignore404), v, body, cs) == Err(Io(body.failure.value))
      && ConvertNumber(NumberConverter(ignore404, valueOf), v, body, cs) == Err(Io(body.failure.value))
  {
  }

  /** The presets: the default answers FALSE for failures, the failing one
      raises them, and the 404-tolerant one fails on everything but 404. */
  lemma Valid2xxPresets(v: View)
    ensures v.status == 404 ==> ConvertValid2xx(VALID2XX_DEFAULT, v) == Ok(false)
    ensures v.status == 404 ==> ConvertValid2xx(VALID2XX_FAILING, v) == Err(HttpFailure(v))
    ensures v.status == 404 ==> ConvertValid2xx(VALID2XX_404OK, v) == Ok(false)
    ensures v.status == 500 ==> ConvertValid2xx(VALID2XX_404OK, v) == Err(HttpFailure(v))
    ensures v.status == 500 ==> ConvertValid2xx(VALID2XX_DEFAULT, v) == Ok(false)
  {
  }
}

=== FILE: cookie_spec.dfy ===
/** `NessCookieSpecFactory`: the "ness" cookie policy, the browser
    compatible policy with a domain handler that takes any non-blank domain
    attribute as it is and lets every cookie through to every origin. The
    rest of the browser compatible policy is Apache's and is not
    modelled. */
module CookieSpecs {
  import opened Outcomes
  import Strings

  const NESS_COOKIE_POLICY: string := "ness"

  /** A cookie as the attribute handlers see it. */
  datatype SetCookie = SetCookie(name: string, value: Option<string>, domain: Option<string>, path: Option<string>)

  /** Where a response came from. */
  datatype Origin = Origin(host: string, port: int, path: string, secure: bool)

  datatype DomainHandler = NessDomainHandler

  /** The spec `newInstance` builds: its `toString` and the handler it
      registers for the domain attribute. */
  datatype CookieSpec = CookieSpec(name: string, domainHandler: DomainHandler)

  function NewInstance(): (s: CookieSpec)
    ensures s.name == NESS_COOKIE_POLICY && s.domainHandler == NessDomainHandler
  {
    CookieSpec(NESS_COOKIE_POLICY, NessDomainHandler)
  }

  /** `parse`: a missing cookie is an illegal argument, a missing or blank
      (only characters up to space) domain is malformed; otherwise the
      domain is set exactly as given, padding included. */
  function Parse(cookie: Option<SetCookie>, value: Option<string>): (r: Result<SetCookie>)
    ensures cookie.None? ==> r == Err(IllegalArgument("Cookie may not be null"))
    ensures cookie.Some? && value.None? ==> r == Err(MalformedCookie("Missing value for domain attribute"))
    ensures cookie.Some? && value.Some? ==>
      (r.Err? <==> forall i :: 0 <= i < |value.value| ==> value.value[i] <= ' ')
    ensures r.Err? && cookie.Some? && value.Some? ==> r == Err(MalformedCookie("Blank value for domain attribute"))
    ensures r.Ok? ==> r.value == cookie.value.(domain := value)
  {
    if cookie.None? then Err(IllegalArgument("Cookie may not be null"))
    else if value.None? then Err(MalformedCookie("Missing value for domain attribute"))
    else if |Strings.Trim(value.value)| == 0 then
      BlankTrimsToEmpty(value.value);
      Err(MalformedCookie("Blank value for domain attribute"))
    else
      BlankTrimsToEmpty(value.value);
      Ok(cookie.value.(domain := value))
  }

  /** `String.trim` leaves nothing exactly when every character is at most
      a space. */
  lemma {:induction false} BlankTrimsToEmpty(s: string)
    ensures |Strings.Trim(s)| == 0 <==> forall i :: 0 <= i < |s| ==> s[i] <= ' '
    decreases |s|
  {
    if |s| > 0 && s[0] <= ' ' {
      BlankTrimsToEmpty(s[1..]);
      assert Strings.TrimStart(s) == Strings.TrimStart(s[1..]);
      assert forall i :: 0 < i < |s| ==> s[i] == s[1..][i - 1];
    }
  }

  /** `validate`: only missing arguments are refused. */
  function Validate(cookie: Option<SetCookie>, origin: Option<Origin>): (r: Result<()>)
    ensures r.Ok? <==> cookie.Some? && origin.Some?
    ensures cookie.None? ==> r == Err(IllegalArgument("Cookie may not be null"))
    ensures cookie.Some? && origin.None? ==> r == Err(IllegalArgument("Cookie origin may not be null"))
  {
    if cookie.None? then Err(IllegalArgument("Cookie may not be null"))
    else if origin.None? then Err(IllegalArgument("Cookie origin may not be null"))
    else Ok(())
  }

  /** `match`: every cookie matches every origin. */
  function Match(cookie: Option<SetCookie>, origin: Option<Origin>): (r: Result<bool>)
    ensures r.Ok? <==> cookie.Some? && origin.Some?
    ensures r.Ok? ==> r.value
    ensures r.Err? ==> r.failure == Validate(cookie, origin).failure
  {
    if cookie.None? then Err(IllegalArgument("Cookie may not be null"))
    else if origin.None? then Err(IllegalArgument("Cookie origin may not be null"))
    else Ok(true)
  }

  /** Whatever domain a cookie declared, once parsed the domain handler
      validates it for, and matches it to, every origin. Whether the cookie
      is then sent is up to the rest of the cookie spec, which is not part
      of this model. */
  lemma ParsedCookiesGoEverywhere(cookie: SetCookie, value: string, origin: Origin)
    requires Parse(Some(cookie), Some(value)).Ok?
    ensures var parsed := Parse(Some(cookie), Some(value)).value;
      && parsed.domain == Some(value)
      && Validate(Some(parsed), Some(origin)).Ok?
      && Match(Some(parsed), Some(origin)) == Ok(true)
  {
  }

  /** A padded domain is kept with its padding; a domain of spaces and tabs
      is refused. */
  lemma DomainKeptVerbatim(cookie: SetCookie)
    ensures Parse(Some(cookie), Some(" .example.com ")) == Ok(cookie.(domain := Some(" .example.com ")))
    ensures Parse(Some(cookie), Some(" \t")).Err?
  {
    assert " .example.com "[1] == '.';
  }
}

=== FILE: credentials.dfy ===
/** `InternalCredentialsProvider`: resolves an authentication scope to the
    credentials of the first accepting provider of a request. */
module Credentials {
  import opened Outcomes
  import opened AuthProviders

  datatype AuthScope = AuthScope(scheme: Option<string>, host: Option<string>, port: int, realm: Option<string>)

  datatype Credentials = Credentials(userPrincipal: Option<string>, password: Option<string>)

  /** What the custom providers answer: `acceptRequest`, `getUser` and
      `getPassword` of the implementation with each identity. */
  datatype CustomProviders = CustomProviders(
    accept: (nat, AuthScope) -> bool,
    user: nat -> Option<string>,
    password: nat -> Option<string>)

  /** `acceptRequest` for the scope's scheme, host, port and realm. */
  predicate Accepts(p: Provider, scope: AuthScope, custom: CustomProviders) {
    match p
    case DefaultProvider(d) => AcceptRequest(d, scope.scheme, scope.host, scope.port, scope.realm)
    case CustomProvider(id) => custom.accept(id, scope)
    case NullProvider => false
  }

  /** A provider the scan passes over: present, and refusing the scope. */
  predicate Refuses(p: Provider, scope: AuthScope, custom: CustomProviders) {
    !p.NullProvider? && !Accepts(p, scope, custom)
  }

  /** A provider the scan stops at: an accepting one, or a `null` that the
      call on it dereferences. */
  predicate Stops(p: Provider, scope: AuthScope, custom: CustomProviders) {
    !Refuses(p, scope, custom)
  }

  /** The scan of `getCredentials`: the index of the first accepting
      provider, `None` when every provider refuses, or the
      `NullPointerException` of a `null` met before any accepting one. */
  function FirstAccepting(providers: seq<Provider>, scope: AuthScope, custom: CustomProviders): (r: Result<Option<nat>>)
    ensures r.Ok? && r.value.Some? ==>
      && r.value.value < |providers| && Accepts(providers[r.value.value], scope, custom)
      && forall j :: 0 <= j < r.value.value ==> Refuses(providers[j], scope, custom)
    ensures r.Ok? && r.value.None? <==> forall j :: 0 <= j < |providers| ==> Refuses(providers[j], scope, custom)
    ensures r.Err? ==>
      && r.failure == NullPointer
      && exists i :: 0 <= i < |providers| && providers[i].NullProvider?
                     && forall j :: 0 <= j < i ==> Refuses(providers[j], scope, custom)
  {
    if |providers| == 0 then Ok(None)
    else if providers[0].NullProvider? then Err(NullPointer)
    else if Accepts(providers[0], scope, custom) then Ok(Some(0))
    else
      match FirstAccepting(providers[1..], scope, custom)
      case Err(f) =>
        assert exists i :: 0 <= i < |providers| && providers[i].NullProvider?
                           && forall j :: 0 <= j < i ==> Refuses(providers[j], scope, custom) by {
          var i :| 0 <= i < |providers[1..]| && providers[1..][i].NullProvider?
                   && forall j :: 0 <= j < i ==> Refuses(providers[1..][j], scope, custom);
          assert providers[i + 1].NullProvider?;
        }
        Err(f)
      case Ok(None) => Ok(None)
      case Ok(Some(k)) => Ok(Some(k + 1))
  }

  /** The credentials a provider hands out: its user and password. */
  function CredentialsOf(p: Provider, custom: CustomProviders): Credentials
    requires !p.NullProvider?
  {
    match p
    case DefaultProvider(d) => Credentials(d.user, d.password)
    case CustomProvider(id) => Credentials(custom.user(id), custom.password(id))
  }

  /** `getCredentials`: the user and password of the first accepting
      provider in list order, `null` when every provider refuses, and a
      `NullPointerException` when a `null` element is reached first. */
  function GetCredentials(providers: seq<Provider>, scope: AuthScope, custom: CustomProviders): (c: Result<Option<Credentials>>)
    ensures c == Ok(None) <==> forall j :: 0 <= j < |providers| ==> Refuses(providers[j], scope, custom)
    ensures c.Ok? && c.value.Some? ==>
              exists i ::
                && 0 <= i < |providers| && Accepts(providers[i], scope, custom)
                && (forall j :: 0 <= j < i ==> Refuses(providers[j], scope, custom))
                && c.value.value == CredentialsOf(providers[i], custom)
    ensures c.Err? <==>
              exists i ::
                && 0 <= i < |providers| && providers[i].NullProvider?
                && forall j :: 0 <= j < i ==> Refuses(providers[j], scope, custom)
    ensures c.Err? ==> c.failure == NullPointer
  {
    match FirstAccepting(providers, scope, custom)
    case Err(f) => Err(f)
    case Ok(None) => Ok(None)
    case Ok(Some(i)) =>
      assert forall k :: 0 <= k < |providers| && providers[k].NullProvider? ==> k > i;
      Ok(Some(CredentialsOf(providers[i], custom)))
  }

  /** A list built only from `HttpClientDefaultAuthProvider`s, as
      `addBasicAuth` builds it, never fails. */
  lemma DefaultProvidersNeverFail(providers: seq<Provider>, scope: AuthScope, custom: CustomProviders)
    requires forall j :: 0 <= j < |providers| ==> providers[j].DefaultProvider?
    ensures GetCredentials(providers, scope, custom).Ok?
  {
  }

  /** The scan ends at the first provider that accepts or is `null`:
      appending providers after one never changes the answer. */
  lemma {:induction false} EarlierProviderShadows(providers: seq<Provider>, later: seq<Provider>, scope: AuthScope, custom: CustomProviders)
    requires exists i :: 0 <= i < |providers| && Stops(providers[i], scope, custom)
    ensures GetCredentials(providers + later, scope, custom) == GetCredentials(providers, scope, custom)
  {
    FirstAcceptingPrefix(providers, later, scope, custom);
  }

  lemma {:induction false} FirstAcceptingPrefix(providers: seq<Provider>, later: seq<Provider>, scope: AuthScope, custom: CustomProviders)
    requires exists i :: 0 <= i < |providers| && Stops(providers[i], scope, custom)
    ensures FirstAccepting(providers + later, scope, custom) == FirstAccepting(providers, scope, custom)
    decreases |providers|
  {
    assert (providers + later)[0] == providers[0];
    if Refuses(providers[0], scope, custom) {
      assert (providers + later)[1..] == providers[1..] + later;
      var i :| 0 <= i < |providers| && Stops(providers[i], scope, custom);
      assert Stops(providers[1..][i - 1], scope, custom);
      FirstAcceptingPrefix(providers[1..], later, scope, custom);
    }
  }

  /** Providers that refuse the scope can be put in front without effect. */
  lemma {:induction false} RefusingPrefixIsTransparent(refusing: seq<Provider>, rest: seq<Provider>, scope: AuthScope, custom: CustomProviders)
    requires forall j :: 0 <= j < |refusing| ==> Refuses(refusing[j], scope, custom)
    ensures GetCredentials(refusing + rest, scope, custom) == GetCredentials(rest, scope, custom)
  {
    FirstAcceptingShift(refusing, rest, scope, custom);
  }

  lemma {:induction false} FirstAcceptingShift(refusing: seq<Provider>, rest: seq<Provider>, scope: AuthScope, custom: CustomProviders)
    requires forall j :: 0 <= j < |refusing| ==> Refuses(refusing[j], scope, custom)
    ensures match FirstAccepting(rest, scope, custom)
      case Err(f) => FirstAccepting(refusing + rest, scope, custom) == Err(f)
      case Ok(None) => FirstAccepting(refusing + rest, scope, custom) == Ok(None)
      case Ok(Some(k)) => FirstAccepting(refusing + rest, scope, custom) == Ok(Some(|refusing| + k))
    ensures GetCredentials(refusing + rest, scope, custom) == GetCredentials(rest, scope, custom)
    decreases |refusing|
  {
    if |refusing| == 0 {
      assert refusing + rest == rest;
    } else {
      assert (refusing + rest)[1..] == refusing[1..] + rest;
      assert (refusing + rest)[0] == refusing[0];
      FirstAcceptingShift(refusing[1..], rest, scope, custom);
    }
  }

  /** `setCredentials` always fails. */
  function SetCredentials(scope: AuthScope, credentials: Credentials): (r: Result<()>)
    ensures r.Err? && r.failure.UnsupportedOperation?
  {
    Err(UnsupportedOperation("credentials can not be added to this provider!"))
  }

  /** `clear` always fails. */
  function Clear(): (r: Result<()>)
    ensures r.Err? && r.failure.UnsupportedOperation?
  {
    Err(UnsupportedOperation("credentials can not be removed from this provider!"))
  }
}

=== FILE: internal_response.dfy ===
/** `InternalResponse`: the `HttpClientResponse` view over an Apache
    `HttpResponse`. Header names match ignoring case, as Apache's header
    group does; the status defaults to 0 and "" without a status line; the
    Content-Length header is parsed leniently. */
module InternalResponses {
  import opened Outcomes
  import opened BodySources
  import opened Responses
  import Strings

  datatype ResponseHeader = ResponseHeader(name: string, value: string)

  datatype StatusLine = StatusLine(code: int, reason: string)

  /** The entity: its Content-Type header, the charset that header names,
      and what `getContent()` gives. */
  datatype ApacheEntity = ApacheEntity(contentType: Option<ResponseHeader>, charset: Option<string>, content: Result<Option<Body>>)

  datatype ApacheResponse = ApacheResponse(statusLine: Option<StatusLine>, headers: seq<ResponseHeader>, entity: Option<ApacheEntity>)

  /** The request URI and the Apache response, either of which may be
      `null`. */
  datatype InternalResponse = InternalResponse(uri: Option<string>, response: Option<ApacheResponse>)

  const CONTENT_LENGTH: string := "Content-Length"
  const CONTENT_ENCODING: string := "Content-Encoding"

  /** Header names are compared through their lower-case form. */
  function Key(name: string): string {
    Strings.ToLower(name)
  }

  function Headers(r: InternalResponse): seq<ResponseHeader> {
    if r.response.Some? then r.response.value.headers else []
  }

  function StatusCode(r: InternalResponse): (code: int)
    ensures r.response.None? || r.response.value.statusLine.None? ==> code == 0
    ensures r.response.Some? && r.response.value.statusLine.Some? ==> code == r.response.value.statusLine.value.code
  {
    if r.response.Some? && r.response.value.statusLine.Some? then r.response.value.statusLine.value.code else 0
  }

  function StatusText(r: InternalResponse): (text: string)
    ensures r.response.None? || r.response.value.statusLine.None? ==> text == ""
    ensures r.response.Some? && r.response.value.statusLine.Some? ==> text == r.response.value.statusLine.value.reason
  {
    if r.response.Some? && r.response.value.statusLine.Some? then r.response.value.statusLine.value.reason else ""
  }

  /** `isRedirected`: a 3xx status; a missing status line is 0 and so is
      not a redirect. */
  predicate IsRedirected(r: InternalResponse) {
    IsRedirectStatus(StatusCode(r))
  }

  lemma RedirectedExactly3xx(r: InternalResponse)
    ensures IsRedirected(r) <==> 300 <= StatusCode(r) <= 399
    ensures r.response.None? ==> !IsRedirected(r)
  {
  }

  /** The index of the first header whose name has key `key`, or `|hs|`
      when there is none: Apache's `getFirstHeader`. */
  function FirstIndex(hs: seq<ResponseHeader>, key: string): (i: nat)
    ensures i <= |hs|
    ensures i < |hs| ==> Key(hs[i].name) == key
    ensures forall j :: 0 <= j < i ==> Key(hs[j].name) != key
    decreases |hs|
  {
    if |hs| == 0 then 0
    else if Key(hs[0].name) == key then 0
    else 1 + FirstIndex(hs[1..], key)
  }

  /** The values of the headers whose name has key `key`, in order:
      Apache's `headerIterator(name)`. */
  function ValuesFor(hs: seq<ResponseHeader>, key: string): (vs: seq<string>)
    ensures |vs| <= |hs|
    ensures |vs| > 0 <==> FirstIndex(hs, key) < |hs|
    ensures |vs| > 0 ==> vs[0] == hs[FirstIndex(hs, key)].value
    decreases |hs|
  {
    if |hs| == 0 then []
    else (if Key(hs[0].name) == key then [hs[0].value] else []) + ValuesFor(hs[1..], key)
  }

  /** `getHeaders`: never null; empty when there is no response. */
  function GetHeaders(r: InternalResponse, name: string): (vs: seq<string>)
    ensures r.response.None? ==> vs == []
    ensures |vs| > 0 <==> exists i :: 0 <= i < |Headers(r)| && Key(Headers(r)[i].name) == Key(name)
  {
    var hs := Headers(r);
    var vs := ValuesFor(hs, Key(name));
    assert (exists i :: 0 <= i < |hs| && Key(hs[i].name) == Key(name)) ==> FirstIndex(hs, Key(name)) < |hs|;
    vs
  }

  /** `getHeader`: the value of the first header with that name, ignoring
      case; `null` when there is none or no response. */
  function GetHeader(r: InternalResponse, name: string): (v: Option<string>)
    ensures v.Some? <==> exists i :: 0 <= i < |Headers(r)| && Key(Headers(r)[i].name) == Key(name)
    ensures v.Some? ==> exists i :: && 0 <= i < |Headers(r)| && Key(Headers(r)[i].name) == Key(name)
                                    && v.value == Headers(r)[i].value
                                    && forall j :: 0 <= j < i ==> Key(Headers(r)[j].name) != Key(name)
  {
    var hs := Headers(r);
    var i := FirstIndex(hs, Key(name));
    if i < |hs| then Some(hs[i].value) else None
  }

  /** `getHeader` is the head of `getHeaders`. */
  lemma GetHeaderHeadsGetHeaders(r: InternalResponse, name: string)
    ensures GetHeader(r, name).Some? <==> |GetHeaders(r, name)| > 0
    ensures GetHeader(r, name).Some? ==> GetHeader(r, name).value == GetHeaders(r, name)[0]
  {
  }

  /** `getContentLength`: the trimmed first Content-Length value parsed as
      a `long`; `null` when absent or unparsable. */
  function ContentLength(r: InternalResponse): (n: Option<int>)
    ensures GetHeader(r, CONTENT_LENGTH).None? ==> n.None?
    ensures GetHeader(r, CONTENT_LENGTH).Some? ==> n == Strings.ParseLong(Strings.Trim(GetHeader(r, CONTENT_LENGTH).value))
    ensures n.Some? ==> Strings.LONG_MIN <= n.value <= Strings.LONG_MAX
  {
    match GetHeader(r, CONTENT_LENGTH)
    case None => None
    case Some(v) => Strings.ParseLong(Strings.TrimToEmpty(Some(v)))
  }

  function WithHeaders(hs: seq<ResponseHeader>): InternalResponse {
    InternalResponse(None, Some(ApacheResponse(Some(StatusLine(200, "OK")), hs, None)))
  }

  /** A response with one Content-Length header reads that header's
      value. */
  lemma SingleHeaderLookup(v: string)
    ensures GetHeader(WithHeaders([ResponseHeader(CONTENT_LENGTH, v)]), CONTENT_LENGTH) == Some(v)
  {
  }

  /** A declared "-1" reads as -1. */
  lemma NegativeContentLength()
    ensures ContentLength(WithHeaders([ResponseHeader(CONTENT_LENGTH, "-1")])) == Some(-1)
  {
    SingleHeaderLookup("-1");
    assert Strings.TrimStart("-1") == "-1" && Strings.TrimEnd("-1") == "-1";
    assert "-1"[1..] == "1";
    assert Strings.DigitsValue("1") == 1 by { assert "1"[..0] == []; }
  }

  /** A padded number reads as that number. */
  lemma PaddedContentLength()
    ensures ContentLength(WithHeaders([ResponseHeader(CONTENT_LENGTH, " 7 ")])) == Some(7)
  {
    SingleHeaderLookup(" 7 ");
    PaddedSevenParses();
  }

  lemma PaddedSevenParses()
    ensures Strings.ParseLong(Strings.Trim(" 7 ")) == Some(7)
  {
    var padded := " 7 ";
    assert padded[1..] == "7 " && "7 "[..1] == "7";
    assert Strings.TrimStart("7 ") == "7 ";
    assert Strings.TrimStart(padded) == "7 ";
    assert Strings.TrimEnd("7") == "7";
    assert Strings.TrimEnd("7 ") == "7";
    assert Strings.Trim(padded) == "7";
    assert Strings.DigitsValue("7") == 7 by { assert "7"[..0] == []; }
  }

  /** A value that is not a number, or a missing header, reads as `null`. */
  lemma UnparsableContentLength()
    ensures ContentLength(WithHeaders([ResponseHeader(CONTENT_LENGTH, "7x")])).None?
    ensures ContentLength(WithHeaders([])).None?
    ensures ContentLength(InternalResponse(None, None)).None?
  {
    SingleHeaderLookup("7x");
    assert Strings.TrimStart("7x") == "7x" && Strings.TrimEnd("7x") == "7x";
    assert !Strings.IsDigit("7x"[1]);
  }

  /** `getContentType` and `getCharset`: from the entity, `null` without
      one. */
  function ContentType(r: InternalResponse): (t: Option<string>)
    ensures t.Some? ==> r.response.Some? && r.response.value.entity.Some?
  {
    if r.response.Some? && r.response.value.entity.Some? && r.response.value.entity.value.contentType.Some?
    then Some(r.response.value.entity.value.contentType.value.value)
    else None
  }

  function Charset(r: InternalResponse): (c: Option<string>)
    ensures c.Some? ==> r.response.Some? && r.response.value.entity.Some?
  {
    if r.response.Some? && r.response.value.entity.Some? then r.response.value.entity.value.charset else None
  }

  /** `getResponseBodyAsStream`: the entity's content, or an empty stream
      when there is no response or no entity. */
  function BodyStream(r: InternalResponse): (b: Result<Option<Body>>)
    ensures r.response.None? || r.response.value.entity.None? ==> b == Ok(Some(EMPTY_BODY))
    ensures r.response.Some? && r.response.value.entity.Some? ==> b == r.response.value.entity.value.content
  {
    if r.response.Some? && r.response.value.entity.Some? then r.response.value.entity.value.content
    else Ok(Some(EMPTY_BODY))
  }

  /** The response as handlers see it. */
  function ViewOf(r: InternalResponse): (v: View)
    ensures v.status == StatusCode(r) && v.redirected == IsRedirected(r)
    ensures v.contentLength == ContentLength(r) && v.contentEncoding == GetHeader(r, CONTENT_ENCODING)
    ensures v.body == BodyStream(r)
  {
    View(StatusCode(r), StatusText(r), IsRedirected(r), ContentType(r), ContentLength(r), Charset(r),
         GetHeader(r, CONTENT_ENCODING), BodyStream(r))
  }

  // ---------------------------------------------------------------------
  // getAllHeaders

  datatype HeaderGroup = HeaderGroup(name: string, values: seq<string>)

  /** No two entries share a name up to case. */
  predicate DistinctKeys(gs: seq<HeaderGroup>) {
    forall a, b :: 0 <= a < b < |gs| ==> Key(gs[a].name) != Key(gs[b].name)
  }

  /** Each entry is filed under the spelling of the first header with its
      name. */
  predicate NamedFirst(gs: seq<HeaderGroup>, hs: seq<ResponseHeader>) {
    forall a :: 0 <= a < |gs| ==>
      FirstIndex(hs, Key(gs[a].name)) < |hs| && hs[FirstIndex(hs, Key(gs[a].name))].name == gs[a].name
  }

  /** Each entry holds every value for its name, in order. */
  predicate ValuesComplete(gs: seq<HeaderGroup>, hs: seq<ResponseHeader>) {
    forall a :: 0 <= a < |gs| ==> gs[a].values == ValuesFor(hs, Key(gs[a].name))
  }

  /** Every header has an entry. */
  predicate Covers(gs: seq<HeaderGroup>, hs: seq<ResponseHeader>) {
    forall i :: 0 <= i < |hs| ==> FindGroup(gs, Key(hs[i].name)) < |gs|
  }

  /** What `getAllHeaders` builds: a map keyed case-insensitively, filed
      under the first spelling seen, holding every value in order, and
      covering every header. */
  predicate GroupedBy(gs: seq<HeaderGroup>, hs: seq<ResponseHeader>) {
    DistinctKeys(gs) && NamedFirst(gs, hs) && ValuesComplete(gs, hs) && Covers(gs, hs)
  }

  /** The index of the group for `key`, or `|gs|` when there is none. */
  function FindGroup(gs: seq<HeaderGroup>, key: string): (j: nat)
    ensures j <= |gs|
    ensures j < |gs| ==> Key(gs[j].name) == key
    ensures j == |gs| <==> forall a :: 0 <= a < |gs| ==> Key(gs[a].name) != key
    decreases |gs|
  {
    if |gs| == 0 then 0
    else if Key(gs[0].name) == key then 0
    else 1 + FindGroup(gs[1..], key)
  }

  /** One step of the loop: the header joins the group for its name, or
      opens a new one under its own spelling. */
  function AddHeader(gs: seq<HeaderGroup>, h: ResponseHeader): seq<HeaderGroup> {
    var j := FindGroup(gs, Key(h.name));
    if j < |gs| then gs[j := HeaderGroup(gs[j].name, gs[j].values + [h.value])]
    else gs + [HeaderGroup(h.name, [h.value])]
  }

  lemma {:induction false} ValuesForSnoc(hs: seq<ResponseHeader>, h: ResponseHeader, key: string)
    ensures ValuesFor(hs + [h], key) == ValuesFor(hs, key) + (if Key(h.name) == key then [h.value] else [])
    decreases |hs|
  {
    if |hs| == 0 {
      assert [] + [h] == [h];
      assert [h][1..] == [];
    } else {
      var head := if Key(hs[0].name) == key then [hs[0].value] else [];
      var tail := if Key(h.name) == key then [h.value] else [];
      assert (hs + [h])[0] == hs[0];
      assert (hs + [h])[1..] == hs[1..] + [h];
      ValuesForSnoc(hs[1..], h, key);
      calc {
        ValuesFor(hs + [h], key);
        head + ValuesFor(hs[1..] + [h], key);
        head + (ValuesFor(hs[1..], key) + tail);
        (head + ValuesFor(hs[1..], key)) + tail;
      }
    }
  }

  lemma {:induction false} FirstIndexSnoc(hs: seq<ResponseHeader>, h: ResponseHeader, key: string)
    ensures FirstIndex(hs + [h], key)
         == if FirstIndex(hs, key) < |hs| || Key(h.name) == key then FirstIndex(hs, key) else |hs| + 1
    decreases |hs|
  {
    if |hs| == 0 {
      assert [] + [h] == [h];
      assert [h][1..] == [];
    } else {
      assert (hs + [h])[1..] == hs[1..] + [h];
      FirstIndexSnoc(hs[1..], h, key);
    }
  }

  lemma AddKeepsDistinct(gs: seq<HeaderGroup>, h: ResponseHeader)
    requires DistinctKeys(gs)
    ensures DistinctKeys(AddHeader(gs, h))
  {
    var gs' := AddHeader(gs, h);
    assert forall a :: 0 <= a < |gs| ==> gs'[a].name == gs[a].name;
  }

  lemma AddKeepsCovers(gs: seq<HeaderGroup>, hs: seq<ResponseHeader>, h: ResponseHeader)
    requires Covers(gs, hs)
    ensures Covers(AddHeader(gs, h), hs + [h])
  {
    var hs' := hs + [h];
    var gs' := AddHeader(gs, h);
    var j := FindGroup(gs, Key(h.name));
    forall i | 0 <= i < |hs'|
      ensures FindGroup(gs', Key(hs'[i].name)) < |gs'|
    {
      var a := if i < |hs| then FindGroup(gs, Key(hs[i].name)) else j;
      assert a < |gs'| && gs'[a].name == (if a < |gs| then gs[a].name else h.name);
      assert Key(gs'[a].name) == Key(hs'[i].name);
    }
  }

  /** A name with no entry yet has not been seen. */
  lemma NewKeyUnseen(gs: seq<HeaderGroup>, hs: seq<ResponseHeader>, k: string)
    requires Covers(gs, hs) && FindGroup(gs, k) == |gs|
    ensures FirstIndex(hs, k) == |hs|
  {
  }

  lemma AddKeepsNamedFirst(gs: seq<HeaderGroup>, hs: seq<ResponseHeader>, h: ResponseHeader)
    requires NamedFirst(gs, hs)
    requires FindGroup(gs, Key(h.name)) == |gs| ==> FirstIndex(hs, Key(h.name)) == |hs|
    ensures NamedFirst(AddHeader(gs, h), hs + [h])
  {
    var hs' := hs + [h];
    var gs' := AddHeader(gs, h);
    forall a | 0 <= a < |gs'|
      ensures FirstIndex(hs', Key(gs'[a].name)) < |hs'| && hs'[FirstIndex(hs', Key(gs'[a].name))].name == gs'[a].name
    {
      if a < |gs| {
        assert gs'[a].name == gs[a].name;
        FirstIndexSnoc(hs, h, Key(gs[a].name));
      } else {
        assert gs'[a].name == h.name;
        FirstIndexSnoc(hs, h, Key(h.name));
      }
    }
  }

  lemma AddKeepsValues(gs: seq<HeaderGroup>, hs: seq<ResponseHeader>, h: ResponseHeader)
    requires DistinctKeys(gs) && ValuesComplete(gs, hs)
    requires FindGroup(gs, Key(h.name)) == |gs| ==> FirstIndex(hs, Key(h.name)) == |hs|
    ensures ValuesComplete(AddHeader(gs, h), hs + [h])
  {
    var hs' := hs + [h];
    var gs' := AddHeader(gs, h);
    var j := FindGroup(gs, Key(h.name));
    forall a | 0 <= a < |gs'|
      ensures gs'[a].values == ValuesFor(hs', Key(gs'[a].name))
    {
      if a < |gs| {
        assert gs'[a].name == gs[a].name;
        assert gs'[a].values == gs[a].values + (if a == j then [h.value] else []);
        ValuesForSnoc(hs, h, Key(gs[a].name));
      } else {
        assert gs'[a] == HeaderGroup(h.name, [h.value]);
        ValuesForSnoc(hs, h, Key(h.name));
      }
    }
  }

  /** Adding a header keeps the grouping exact. */
  lemma AddHeaderKeepsGrouping(gs: seq<HeaderGroup>, hs: seq<ResponseHeader>, h: ResponseHeader)
    requires GroupedBy(gs, hs)
    ensures GroupedBy(AddHeader(gs, h), hs + [h])
  {
    if FindGroup(gs, Key(h.name)) == |gs| {
      NewKeyUnseen(gs, hs, Key(h.name));
    }
    AddKeepsDistinct(gs, h);
    AddKeepsCovers(gs, hs, h);
    AddKeepsNamedFirst(gs, hs, h);
    AddKeepsValues(gs, hs, h);
  }

  /** The map `getAllHeaders` fills, header by header. */
  function GroupAll(hs: seq<ResponseHeader>): seq<HeaderGroup>
    decreases |hs|
  {
    if |hs| == 0 then [] else AddHeader(GroupAll(hs[..|hs| - 1]), hs[|hs| - 1])
  }

  lemma {:induction false} GroupAllIsExact(hs: seq<ResponseHeader>)
    ensures GroupedBy(GroupAll(hs), hs)
    decreases |hs|
  {
    if |hs| > 0 {
      var front, last := hs[..|hs| - 1], hs[|hs| - 1];
      assert front + [last] == hs;
      var gs := GroupAll(front);
      assert GroupAll(hs) == AddHeader(gs, last);
      GroupAllIsExact(front);
      AddHeaderKeepsGrouping(gs, front, last);
    }
  }

  /** `getAllHeaders`: fails with a null pointer when there is no
      response. The groups come out in the order their keys first occur;
      the source's `TreeMap(CASE_INSENSITIVE_ORDER)` iterates them sorted
      by key instead, so the model fixes the contents of the map, not the
      order in which a caller iterating it sees the keys. */
  method AllHeaders(r: InternalResponse) returns (res: Result<seq<HeaderGroup>>)
    ensures r.response.None? ==> res == Err(NullPointer)
    ensures r.response.Some? ==> res.Ok? && GroupedBy(res.value, r.response.value.headers)
    ensures r.response.Some? ==> res == Ok(GroupAll(r.response.value.headers))
  {
    if r.response.None? {
      return Err(NullPointer);
    }
    var hs := r.response.value.headers;
    var gs: seq<HeaderGroup> := [];
    var i := 0;
    while i < |hs|
      invariant 0 <= i <= |hs|
      invariant gs == GroupAll(hs[..i])
    {
      assert hs[..i + 1][..i] == hs[..i];
      gs := AddHeader(gs, hs[i]);
      i := i + 1;
    }
    assert hs[..i] == hs;
    GroupAllIsExact(hs);
    return Ok(gs);
  }

  lemma KeyOfLiteral(s: string, lower: string)
    requires |s| == |lower| && forall i :: 0 <= i < |s| ==> Strings.LowerChar(s[i]) == lower[i]
    ensures Key(s) == lower
  {
  }

  /** The class's test: three spellings of one name. */
  const MIXED_CASE: seq<ResponseHeader> :=
    [ResponseHeader("namE1", "val1"), ResponseHeader("Name1", "val2"), ResponseHeader("NAME1", "val3")]

  lemma MixedCaseKeys()
    ensures Key("namE1") == "name1" && Key("Name1") == "name1" && Key("NAME1") == "name1" && Key("naMe1") == "name1"
    ensures Key("name1") == "name1"
    ensures forall i :: 0 <= i < |MIXED_CASE| ==> Key(MIXED_CASE[i].name) == "name1"
  {
    KeyOfLiteral("namE1", "name1");
    KeyOfLiteral("Name1", "name1");
    KeyOfLiteral("NAME1", "name1");
    KeyOfLiteral("naMe1", "name1");
    KeyOfLiteral("name1", "name1");
  }

  /** The test's expectations: looking the name up in any case gives the
      three values in order. */
  lemma MixedCaseLookups()
    ensures GetHeaders(WithHeaders(MIXED_CASE), "name1") == ["val1", "val2", "val3"]
    ensures GetHeaders(WithHeaders(MIXED_CASE), "naMe1") == ["val1", "val2", "val3"]
  {
    MixedCaseKeys();
    var hs := MIXED_CASE;
    assert hs[1..][1..] == [hs[2]] && [hs[2]][1..] == [];
    assert ValuesFor(hs[1..][1..], "name1") == ["val3"];
    assert ValuesFor(hs[1..], "name1") == ["val2", "val3"];
  }

  /** On the class's test headers `getAllHeaders` builds the one entry the
      test expects: the first spelling, holding the three values in
      order. */
  lemma MixedCaseHeadersCollapse()
    ensures GroupAll(MIXED_CASE) == [HeaderGroup("namE1", ["val1", "val2", "val3"])]
  {
    MixedCaseKeys();
    var hs := MIXED_CASE;
    assert hs[..2] == [hs[0], hs[1]] && hs[..3] == hs;
    MixedCaseFirstTwo();
    var g2 := [HeaderGroup("namE1", ["val1", "val2"])];
    assert FindGroup(g2, Key(hs[2].name)) == 0;
    assert g2[0].values + [hs[2].value] == ["val1", "val2", "val3"];
    assert AddHeader(g2, hs[2]) == [HeaderGroup("namE1", ["val1", "val2", "val3"])];
  }

  lemma MixedCaseFirstTwo()
    ensures GroupAll(MIXED_CASE[..2]) == [HeaderGroup("namE1", ["val1", "val2"])]
  {
    MixedCaseKeys();
    var hs := MIXED_CASE;
    assert hs[..2] == [hs[0], hs[1]];
    assert [hs[0], hs[1]][..1] == [hs[0]];
    MixedCaseFirst();
    var g1 := [HeaderGroup("namE1", ["val1"])];
    assert FindGroup(g1, Key(hs[1].name)) == 0;
    assert g1[0].values + [hs[1].value] == ["val1", "val2"];
    assert GroupAll([hs[0], hs[1]]) == AddHeader(GroupAll([hs[0]]), hs[1]);
  }

  lemma MixedCaseFirst()
    ensures GroupAll([MIXED_CASE[0]]) == [HeaderGroup("namE1", ["val1"])]
  {
    assert [MIXED_CASE[0]][..0] == [];
  }
}

=== FILE: observer_chain.dfy ===
/** Observer chains, shared by the Apache factory and the testing factory:
    every observer hook in order, each on what the previous one produced. */
module ObserverChains {
  import opened Outcomes

  /** An observer chain: `onRequestSubmitted` of each request observer,
      or `onResponseReceived` of each response observer, in order. Both
      are declared to throw `IOException`; the first failure ends the
      chain and leaves the call with it. */
  function ApplyObservers<R>(observers: seq<R -> Result<R>>, r: R): (out: Result<R>)
    ensures |observers| == 0 ==> out == Ok(r)
    ensures |observers| == 1 ==> out == observers[0](r)
    ensures |observers| > 0 && observers[0](r).Err? ==> out == observers[0](r)
    decreases |observers|
  {
    if |observers| == 0 then Ok(r)
    else
      match observers[0](r)
      case Err(f) => Err(f)
      case Ok(r') => ApplyObservers(observers[1..], r')
  }

  /** Observer chains compose: running `a + b` is running `a`, then, if
      nothing was thrown, `b` on what `a` produced. */
  lemma {:induction false} ApplyObserversAppend<R>(a: seq<R -> Result<R>>, b: seq<R -> Result<R>>, r: R)
    ensures ApplyObservers(a + b, r) ==
      (match ApplyObservers(a, r)
       case Err(f) => Err(f)
       case Ok(r') => ApplyObservers(b, r'))
    decreases |a|
  {
    if |a| == 0 {
      assert a + b == b;
    } else {
      assert (a + b)[1..] == a[1..] + b;
      assert (a + b)[0] == a[0];
      if a[0](r).Ok? {
        ApplyObserversAppend(a[1..], b, a[0](r).value);
      }
    }
  }

  /** The chain of a sequence of observers that share one hook, such as
      `onRequestSubmitted` called on each observer of a set. */
  function Stages<O, R(!new)>(order: seq<O>, hook: (O, R) -> Result<R>): (s: seq<R -> Result<R>>)
    ensures |s| == |order|
    ensures forall i, x :: 0 <= i < |order| ==> s[i](x) == hook(order[i], x)
  {
    seq(|order|, i requires 0 <= i < |order| => (x: R) => hook(order[i], x))
  }
}

=== FILE: observer_group.dfy ===
/** `HttpClientObserverGroup`: a named tag that clients declare and
    observers bind to. Identity is the name. */
module ObserverGroups {
  import opened Outcomes
  import Strings

  datatype Group = Group(name: string)

  /** A name `of` accepts: non-null and not only whitespace. */
  predicate ValidName(name: string) {
    !Strings.IsBlank(Some(name))
  }

  /** `of`: a blank or null name is an illegal argument. */
  function Of(name: Option<string>): (r: Result<Group>)
    ensures r.Ok? <==> name.Some? && ValidName(name.value)
    ensures r.Ok? ==> r.value.name == name.value
    ensures r.Err? ==> r.failure.IllegalArgument?
  {
    if Strings.IsBlank(name) then Err(IllegalArgument("blank observer group name!"))
    else Ok(Group(name.value))
  }

  /** The one predefined group. */
  const PLATFORM_INTERNAL: Group := Group("PLATFORM_INTERNAL")

  lemma PlatformInternalIsValid()
    ensures Of(Some("PLATFORM_INTERNAL")) == Ok(PLATFORM_INTERNAL)
  {
    assert !Strings.IsJavaWhitespace("PLATFORM_INTERNAL"[0]);
  }

  /** `toString` and `getName`. */
  function Name(g: Group): (s: string)
    ensures Of(Some(s)).Ok? ==> Of(Some(s)).value == g
  {
    g.name
  }

  /** `hashCode`: the name's `String.hashCode`, that is the documented
      polynomial `name[0]*31^(n-1) + ... + name[n-1]` reduced to an `int`. */
  function GroupHash(g: Group): (h: int)
    ensures Strings.IsInt32(h)
    ensures h == Strings.Wrap32(Strings.PolyHash(g.name))
  {
    Strings.HashCodeIsPolynomial(g.name);
    Strings.HashCode(g.name)
  }

  /** `hashCode` is consistent with `equals`. */
  lemma EqualGroupsHashEqually(a: Group, b: Group)
    requires GroupEquals(a, b)
    ensures GroupHash(a) == GroupHash(b)
  {
  }

  /** `equals`: same name. */
  predicate GroupEquals(a: Group, b: Group) {
    a.name == b.name
  }

  /** Groups built from the same name are equal, and equality is value
      equality, so sets of groups de-duplicate by name. */
  lemma OfIsInjective(n1: string, n2: string)
    requires Of(Some(n1)).Ok? && Of(Some(n2)).Ok?
    ensures GroupEquals(Of(Some(n1)).value, Of(Some(n2)).value) <==> n1 == n2
    ensures Of(Some(n1)).value == Of(Some(n2)).value <==> n1 == n2
  {
  }
}

=== FILE: observer_resolution.dfy ===
/** `HttpClientModule`: which observers a Guice-bound client gets. Besides
    the global and the annotation-bound observers, every observer group the
    client declares contributes its own observers and, through the
    inheritance bindings, those of its super-groups, transitively. A shared
    `seen` set makes the depth-first walk stop at cycles. */
module ObserverResolution {
  import opened Outcomes
  import opened ObserverGroups

  datatype Observer = Observer(id: nat)

  /** The two map bindings: observers per group, and per sub-group its
      super-groups in the map's iteration order. */
  datatype Registry = Registry(observers: map<Group, set<Observer>>, inherits: map<Group, seq<Group>>)

  function Supers(reg: Registry, g: Group): seq<Group> {
    if g in reg.inherits then reg.inherits[g] else []
  }

  /** The observers bound to `g` itself (`null` in the map is no observers). */
  function Direct(reg: Registry, g: Group): set<Observer> {
    if g in reg.observers then reg.observers[g] else {}
  }

  /** Every observer bound directly to one of `groups`. */
  function ObserversOf(reg: Registry, groups: set<Group>): (r: set<Observer>)
    ensures forall o :: o in r <==> exists g :: g in groups && o in Direct(reg, g)
  {
    set g, o | g in groups && o in Direct(reg, g) :: o
  }

  /** Every group named as a super-group somewhere. */
  function Targets(reg: Registry): set<Group> {
    set k, g | k in reg.inherits && g in reg.inherits[k] :: g
  }

  lemma SupersInTargets(reg: Registry, g: Group)
    ensures forall i :: 0 <= i < |Supers(reg, g)| ==> Supers(reg, g)[i] in Targets(reg)
  {
    if g in reg.inherits {
      forall i | 0 <= i < |Supers(reg, g)|
        ensures Supers(reg, g)[i] in Targets(reg)
      {
        assert reg.inherits[g][i] in reg.inherits[g];
      }
    }
  }

  lemma ObserversOfUnion(reg: Registry, a: set<Group>, b: set<Group>)
    ensures ObserversOf(reg, a + b) == ObserversOf(reg, a) + ObserversOf(reg, b)
  {
  }

  lemma ObserversOfSingleton(reg: Registry, g: Group)
    ensures ObserversOf(reg, {g}) == Direct(reg, g)
  {
  }

  lemma {:induction false} SubsetCard<T>(a: set<T>, b: set<T>)
    requires a <= b
    ensures |a| <= |b|
    decreases |a|
  {
    if a != {} {
      var x :| x in a;
      SubsetCard(a - {x}, b - {x});
    }
  }

  /** Marking an unseen group leaves fewer unseen groups. */
  lemma VisitShrinks<T>(universe: set<T>, seen: set<T>, g: T)
    requires g in universe && g !in seen
    ensures |universe - (seen + {g})| < |universe - seen|
  {
    assert universe - seen == (universe - (seen + {g})) + {g};
  }

  /** A widened `seen` set never leaves more unseen groups. */
  lemma SeenGrows<T>(universe: set<T>, seen: set<T>, seen': set<T>)
    requires seen <= seen'
    ensures |universe - seen'| <= |universe - seen|
  {
    SubsetCard(universe - seen', universe - seen);
  }

  /** The outcome of a walk: the observers found and the groups now seen. */
  datatype Visit = Visit(found: set<Observer>, seen: set<Group>)

  /** `findObservers(group, seen)`: nothing if the group was already seen;
      otherwise its own observers and those found through its super-groups.
      The result is exactly the observers of the groups this call marked. */
  function Find(reg: Registry, universe: set<Group>, g: Group, seen: set<Group>): (r: Visit)
    requires Targets(reg) <= universe && g in universe
    ensures seen <= r.seen && g in r.seen
    ensures r.found == ObserversOf(reg, r.seen - seen)
    decreases |universe - seen|, 0, 0
  {
    if g in seen then Visit({}, seen)
    else
      SupersInTargets(reg, g);
      VisitShrinks(universe, seen, g);
      var rest := FindAll(reg, universe, Supers(reg, g), seen + {g});
      assert rest.seen - seen == {g} + (rest.seen - (seen + {g}));
      ObserversOfUnion(reg, {g}, rest.seen - (seen + {g}));
      ObserversOfSingleton(reg, g);
      Visit(Direct(reg, g) + rest.found, rest.seen)
  }

  /** The loop over a list of groups, threading `seen` through. */
  function FindAll(reg: Registry, universe: set<Group>, gs: seq<Group>, seen: set<Group>): (r: Visit)
    requires Targets(reg) <= universe
    requires forall i :: 0 <= i < |gs| ==> gs[i] in universe
    ensures seen <= r.seen
    ensures forall i :: 0 <= i < |gs| ==> gs[i] in r.seen
    ensures r.found == ObserversOf(reg, r.seen - seen)
    decreases |universe - seen|, 1, |gs|
  {
    if |gs| == 0 then Visit({}, seen)
    else
      var first := Find(reg, universe, gs[0], seen);
      SeenGrows(universe, seen, first.seen);
      var rest := FindAll(reg, universe, gs[1..], first.seen);
      assert rest.seen - seen == (first.seen - seen) + (rest.seen - first.seen);
      ObserversOfUnion(reg, first.seen - seen, rest.seen - first.seen);
      assert forall i :: 1 <= i < |gs| ==> gs[i] == gs[1..][i - 1];
      Visit(first.found + rest.found, rest.seen)
  }

  /** Every group of `s` outside `open` has all its super-groups in `s`. */
  predicate ClosedExcept(reg: Registry, s: set<Group>, open: set<Group>) {
    forall x :: x in s && x !in open ==> forall i :: 0 <= i < |Supers(reg, x)| ==> Supers(reg, x)[i] in s
  }

  /** Closed under inheritance. */
  predicate Closed(reg: Registry, s: set<Group>) {
    ClosedExcept(reg, s, {})
  }

  /** The walk keeps `seen` closed apart from the groups still on the stack. */
  lemma {:induction false} FindClosed(reg: Registry, universe: set<Group>, g: Group, seen: set<Group>, open: set<Group>)
    requires Targets(reg) <= universe && g in universe
    requires ClosedExcept(reg, seen, open)
    ensures ClosedExcept(reg, Find(reg, universe, g, seen).seen, open)
    decreases |universe - seen|, 0, 0
  {
    if g !in seen {
      SupersInTargets(reg, g);
      VisitShrinks(universe, seen, g);
      FindAllClosed(reg, universe, Supers(reg, g), seen + {g}, open + {g});
    }
  }

  lemma {:induction false} FindAllClosed(reg: Registry, universe: set<Group>, gs: seq<Group>, seen: set<Group>, open: set<Group>)
    requires Targets(reg) <= universe
    requires forall i :: 0 <= i < |gs| ==> gs[i] in universe
    requires ClosedExcept(reg, seen, open)
    ensures ClosedExcept(reg, FindAll(reg, universe, gs, seen).seen, open)
    decreases |universe - seen|, 1, |gs|
  {
    if |gs| > 0 {
      FindClosed(reg, universe, gs[0], seen, open);
      var first := Find(reg, universe, gs[0], seen);
      SeenGrows(universe, seen, first.seen);
      FindAllClosed(reg, universe, gs[1..], first.seen, open);
    }
  }

  /** The walk never leaves a closed set that holds its starting group. */
  lemma {:induction false} FindWithin(reg: Registry, universe: set<Group>, g: Group, seen: set<Group>, c: set<Group>)
    requires Targets(reg) <= universe && g in universe
    requires Closed(reg, c) && g in c
    ensures Find(reg, universe, g, seen).seen - seen <= c
    decreases |universe - seen|, 0, 0
  {
    if g !in seen {
      SupersInTargets(reg, g);
      VisitShrinks(universe, seen, g);
      FindAllWithin(reg, universe, Supers(reg, g), seen + {g}, c);
    }
  }

  lemma {:induction false} FindAllWithin(reg: Registry, universe: set<Group>, gs: seq<Group>, seen: set<Group>, c: set<Group>)
    requires Targets(reg) <= universe
    requires forall i :: 0 <= i < |gs| ==> gs[i] in universe && gs[i] in c
    requires Closed(reg, c)
    ensures FindAll(reg, universe, gs, seen).seen - seen <= c
    decreases |universe - seen|, 1, |gs|
  {
    if |gs| > 0 {
      FindWithin(reg, universe, gs[0], seen, c);
      var first := Find(reg, universe, gs[0], seen);
      SeenGrows(universe, seen, first.seen);
      FindAllWithin(reg, universe, gs[1..], first.seen, c);
    }
  }

  /** `findObserversForGroups`: walks the declared groups from an empty
      `seen` set. */
  function ResolveGroups(reg: Registry, declared: seq<Group>): (r: Visit)
    ensures forall i :: 0 <= i < |declared| ==> declared[i] in r.seen
    ensures r.found == ObserversOf(reg, r.seen)
  {
    FindAll(reg, (set i | 0 <= i < |declared| :: declared[i]) + Targets(reg), declared, {})
  }

  /** The groups visited form the least inheritance-closed set holding the
      declared groups, so the observers found are exactly those bound to a
      declared group or to one of its transitive super-groups. */
  lemma ResolveIsClosed(reg: Registry, declared: seq<Group>)
    ensures Closed(reg, ResolveGroups(reg, declared).seen)
  {
    FindAllClosed(reg, (set i | 0 <= i < |declared| :: declared[i]) + Targets(reg), declared, {}, {});
  }

  lemma ResolveIsLeast(reg: Registry, declared: seq<Group>, c: set<Group>)
    requires Closed(reg, c)
    requires forall i :: 0 <= i < |declared| ==> declared[i] in c
    ensures ResolveGroups(reg, declared).seen <= c
  {
    FindAllWithin(reg, (set i | 0 <= i < |declared| :: declared[i]) + Targets(reg), declared, {}, c);
  }

  /** The declaration order of groups and the iteration order of the
      inheritance bindings do not matter. */
  lemma ResolveOrderIrrelevant(reg: Registry, d1: seq<Group>, d2: seq<Group>)
    requires forall g :: g in d1 <==> g in d2
    ensures ResolveGroups(reg, d1) == ResolveGroups(reg, d2)
  {
    var s1 := ResolveGroups(reg, d1).seen;
    var s2 := ResolveGroups(reg, d2).seen;
    ResolveIsClosed(reg, d1);
    ResolveIsClosed(reg, d2);
    forall i | 0 <= i < |d1|
      ensures d1[i] in s2
    {
      assert d1[i] in d2;
      var j :| 0 <= j < |d2| && d2[j] == d1[i];
    }
    forall i | 0 <= i < |d2|
      ensures d2[i] in s1
    {
      assert d2[i] in d1;
      var j :| 0 <= j < |d1| && d1[j] == d2[i];
    }
    ResolveIsLeast(reg, d1, s2);
    ResolveIsLeast(reg, d2, s1);
  }

  /** A client that declares no group gets no group observers, whatever
      is bound to groups. */
  lemma NoGroupsNoObservers(reg: Registry)
    ensures ResolveGroups(reg, []).found == {}
  {
    ResolveIsLeast(reg, [], {});
  }

  /** The diamond of the inheritance test: test → g1, g1 → g2, g1 → g3,
      g2 → g3, with o1 on g3 and o2 on g1; g3 is reached twice but its
      observer is found once. */
  lemma DiamondExample(test: Group, g1: Group, g2: Group, g3: Group, o1: Observer, o2: Observer)
    requires |{test, g1, g2, g3}| == 4
    ensures var reg := Registry(map[g3 := {o1}, g1 := {o2}], map[test := [g1], g1 := [g2, g3], g2 := [g3]]);
      ResolveGroups(reg, [test]).found == {o1, o2}
  {
    var reg := Registry(map[g3 := {o1}, g1 := {o2}], map[test := [g1], g1 := [g2, g3], g2 := [g3]]);
    var all := {test, g1, g2, g3};
    var seen := ResolveGroups(reg, [test]).seen;
    ResolveIsLeast(reg, [test], all);
    ResolveIsClosed(reg, [test]);
    assert Supers(reg, test)[0] == g1;
    assert Supers(reg, g1)[0] == g2 && Supers(reg, g1)[1] == g3;
    assert seen == all;
    assert ObserversOf(reg, all) == {o1, o2} by {
      assert o1 in Direct(reg, g3) && o2 in Direct(reg, g1);
      assert Direct(reg, test) == {} && Direct(reg, g2) == {};
    }
  }

  /** `HttpClientModule`'s constructor: the client name must be non-null;
      the groups are copied into an immutable set, which rejects null
      elements and drops repeats. */
  datatype ModuleConfig = ModuleConfig(clientName: string, groups: seq<Group>)

  function NewModule(clientName: Option<string>, groups: seq<Option<Group>>): (r: Result<ModuleConfig>)
    ensures clientName.None? ==> r.Err? && r.failure.IllegalArgument?
    ensures clientName.Some? && (exists i :: 0 <= i < |groups| && groups[i].None?) ==> r == Err(NullPointer)
    ensures r.Ok? ==> r.value.clientName == clientName.value
    ensures r.Ok? ==> forall g :: g in r.value.groups <==> Some(g) in groups
    ensures r.Ok? ==> forall i, j :: 0 <= i < j < |r.value.groups| ==> r.value.groups[i] != r.value.groups[j]
  {
    if clientName.None? then Err(IllegalArgument("client name can not be null"))
    else if exists i :: 0 <= i < |groups| && groups[i].None? then Err(NullPointer)
    else Ok(ModuleConfig(clientName.value, Distinct(groups, [])))
  }

  /** The non-null elements of `gs` after `acc`, each kept at its first
      occurrence. */
  function Distinct(gs: seq<Option<Group>>, acc: seq<Group>): (r: seq<Group>)
    requires forall i, j :: 0 <= i < j < |acc| ==> acc[i] != acc[j]
    ensures forall g :: g in r <==> g in acc || Some(g) in gs
    ensures forall i, j :: 0 <= i < j < |r| ==> r[i] != r[j]
    ensures |acc| <= |r| && r[..|acc|] == acc
    decreases |gs|
  {
    if |gs| == 0 then acc
    else match gs[0]
      case None => Distinct(gs[1..], acc)
      case Some(g) =>
        if g in acc then Distinct(gs[1..], acc) else Distinct(gs[1..], acc + [g])
  }

  /** `get()`: the factory's observers are the global ones, those bound with
      the client's annotation, and those of its groups; a missing binding
      contributes nothing. */
  function FactoryObservers(global: Option<set<Observer>>, annotated: Option<set<Observer>>,
                            reg: Registry, config: ModuleConfig): (r: set<Observer>)
    ensures global.Some? ==> global.value <= r
    ensures annotated.Some? ==> annotated.value <= r
    ensures forall o :: o in r <==>
      || (global.Some? && o in global.value)
      || (annotated.Some? && o in annotated.value)
      || o in ResolveGroups(reg, config.groups).found
  {
    global.GetOr({}) + annotated.GetOr({}) + ResolveGroups(reg, config.groups).found
  }
}

=== FILE: outcomes.dfy ===
/** Option/Result wrappers and the Java exception taxonomy the client surfaces.
    A Java `null` is `None`; a thrown exception is `Err(f)`. */
module Outcomes {

  datatype Option<+T> = None | Some(value: T) {
    function GetOr(default: T): T {
      match this
      case Some(v) => v
      case None => default
    }
  }

  /** The I/O-class (checked `IOException`) failures; these are the ones a
      content converter's `handleError` hook may intercept. */
  datatype IoFailure =
    | SizeExceeded
    | HttpResponse(status: int)
    | Redirected(status: int)
    | JsonParse(message: string)
    | UnsupportedEncoding(charset: string)
    | IoError(message: string)

  /** Every exception kind the modelled code throws. */
  datatype Failure =
    | IllegalArgument(message: string)
    | IllegalState(message: string)
    | NullPointer
    | UnsupportedOperation(message: string)
    | MalformedCookie(message: string)
    | Certificate(message: string)
    | Unchecked(message: string)
    /** A `RuntimeException` whose cause is the I/O failure `cause`. */
    | UncheckedIo(cause: IoFailure)
    | Io(io: IoFailure)
  {
    predicate IsIo() { Io? }
  }

  datatype Result<+T> = Ok(value: T) | Err(failure: Failure) {
    predicate IsFailure() { Err? }

    function PropagateFailure<U>(): Result<U>
      requires Err?
    {
      Err(failure)
    }

    function Extract(): T
      requires Ok?
    {
      value
    }
  }
}

=== FILE: request.dfy ===
/** `HttpClientRequest` and its `Builder`. The builder is a mutable object
    whose setters return `this`; here each setter maps a builder to an
    `Edit`: the builder after the call, and the exception the call threw,
    if any. A throwing setter leaves in `after` whatever it had already
    changed. */
module Requests {
  import opened Outcomes
  import opened BodySources
  import opened AuthProviders
  import Sequences
  import Strings

  datatype Method = GET | POST | PUT | DELETE | HEAD | OPTIONS

  /** A `java.net.URI`; `path` is `getPath()`, null for opaque URIs. */
  datatype Uri = Uri(text: string, path: Option<string>)

  datatype Header = Header(name: string, value: string)

  /** A servlet cookie as the caller hands it in; its name is never null
      and `maxAge` is seconds, -1 meaning a session cookie. */
  datatype Cookie = Cookie(name: string, value: Option<string>, maxAge: Strings.Int32,
                           path: Option<string>, domain: Option<string>, secure: bool)

  /** Opaque identities of the response handler and the factory. */
  datatype Handler = Handler(id: nat)
  datatype FactoryRef = FactoryRef(id: nat)

  datatype Builder = Builder(
    factory: FactoryRef,
    verb: Method,
    url: Option<Uri>,
    handler: Option<Handler>,
    headers: seq<Header>,
    cookies: seq<Cookie>,
    parameters: map<string, Option<string>>,
    virtualHost: Option<string>,
    virtualPort: int,
    content: Option<Content>,
    contentType: Option<string>,
    contentEncoding: Option<string>,
    authProviders: seq<Provider>)

  datatype Request = Request(
    factory: FactoryRef,
    verb: Method,
    url: Option<Uri>,
    handler: Option<Handler>,
    headers: seq<Header>,
    cookies: seq<Cookie>,
    parameters: map<string, Option<string>>,
    virtualHost: Option<string>,
    virtualPort: int,
    bodySource: Option<BodySource>,
    content: Option<Content>,
    contentType: Option<string>,
    contentEncoding: Option<string>,
    authProviders: seq<Provider>)

  /** The builder after a setter, and what the setter threw. */
  datatype Edit = Edit(after: Builder, thrown: Option<Failure>)
  {
    predicate Ok() { thrown.None? }
  }

  /** A builder fresh from the client: empty collections, every optional
      field null and the virtual port 0 (an uninitialised `int` field). */
  function NewBuilder(factory: FactoryRef, verb: Method, url: Option<Uri>, handler: Option<Handler>): (b: Builder)
    ensures b.factory == factory && b.verb == verb && b.url == url && b.handler == handler
    ensures b.headers == [] && b.cookies == [] && b.parameters == map[] && b.authProviders == []
    ensures b.virtualHost.None? && b.virtualPort == 0
    ensures b.content.None? && b.contentType.None? && b.contentEncoding.None?
  {
    Builder(factory, verb, url, handler, [], [], map[], None, 0, None, None, None, [])
  }

  function Fail(b: Builder, f: Failure): Edit { Edit(b, Some(f)) }

  function Done(b: Builder): Edit { Edit(b, None) }

  function SetUrl(b: Builder, url: Option<Uri>): (e: Edit)
    ensures e.Ok() <==> url.Some?
    ensures !e.Ok() ==> e.thrown.value.IllegalArgument? && e.after == b
    ensures e.Ok() ==> e.after == b.(url := url)
  {
    if url.None? then Fail(b, IllegalArgument("URI must not be null!")) else Done(b.(url := url))
  }

  /** `addHeader`: both name and value must be non-null; the header goes last. */
  function AddHeader(b: Builder, name: Option<string>, value: Option<string>): (e: Edit)
    ensures e.Ok() <==> name.Some? && value.Some?
    ensures !e.Ok() ==> e.thrown.value.IllegalArgument? && e.after == b
    ensures e.Ok() ==> e.after == b.(headers := b.headers + [Header(name.value, value.value)])
  {
    if name.None? then Fail(b, IllegalArgument("Header name must not be null!"))
    else if value.None? then Fail(b, IllegalArgument("Header value must not be null!"))
    else Done(b.(headers := b.headers + [Header(name.value, value.value)]))
  }

  /** The headers `replaceHeader` keeps: those whose name differs from
      `name` (a null `name` equals no header name). */
  function OtherHeader(name: Option<string>): Header -> bool {
    (h: Header) => Some(h.name) != name
  }

  /** `replaceHeader`: removes every header with that exact name, THEN adds
      the new one, so a null value throws after the removal happened. */
  function ReplaceHeader(b: Builder, name: Option<string>, value: Option<string>): (e: Edit)
    ensures e.Ok() <==> name.Some? && value.Some?
    ensures !e.Ok() ==> e.thrown.value.IllegalArgument?
    ensures var kept := Sequences.Filter(b.headers, OtherHeader(name));
      && e.after == b.(headers := e.after.headers)
      && |kept| <= |e.after.headers| && e.after.headers[..|kept|] == kept
      && (e.Ok() ==> e.after.headers == kept + [Header(name.value, value.value)])
      && (!e.Ok() ==> e.after.headers == kept)
  {
    AddHeader(b.(headers := Sequences.Filter(b.headers, OtherHeader(name))), name, value)
  }

  function AddCookie(b: Builder, cookie: Option<Cookie>): (e: Edit)
    ensures e.Ok() <==> cookie.Some?
    ensures !e.Ok() ==> e.thrown.value.IllegalArgument? && e.after == b
    ensures e.Ok() ==> e.after == b.(cookies := b.cookies + [cookie.value])
  {
    if cookie.None? then Fail(b, IllegalArgument("Cookie must not be null!"))
    else Done(b.(cookies := b.cookies + [cookie.value]))
  }

  function OtherCookie(name: string): Cookie -> bool {
    (c: Cookie) => c.name != name
  }

  /** `replaceCookie`: a null cookie dereferences in the removal loop
      (null pointer) unless there are no cookies yet, in which case
      `addCookie` rejects it (illegal argument). */
  function ReplaceCookie(b: Builder, cookie: Option<Cookie>): (e: Edit)
    ensures cookie.None? && |b.cookies| > 0 ==> e == Edit(b, Some(NullPointer))
    ensures cookie.None? && |b.cookies| == 0 ==> e.after == b && e.thrown.Some? && e.thrown.value.IllegalArgument?
    ensures cookie.Some? ==>
      && e.Ok()
      && e.after == b.(cookies := Sequences.Filter(b.cookies, OtherCookie(cookie.value.name)) + [cookie.value])
  {
    match cookie
    case None => if |b.cookies| > 0 then Fail(b, NullPointer) else AddCookie(b, None)
    case Some(c) => AddCookie(b.(cookies := Sequences.Filter(b.cookies, OtherCookie(c.name))), cookie)
  }

  function SetParameter(b: Builder, key: Option<string>, value: Option<string>): (e: Edit)
    ensures e.Ok() <==> key.Some?
    ensures !e.Ok() ==> e.thrown.value.IllegalArgument? && e.after == b
    ensures e.Ok() ==>
      && e.after == b.(parameters := e.after.parameters)
      && e.after.parameters.Keys == b.parameters.Keys + {key.value}
      && e.after.parameters[key.value] == value
      && forall k :: k in b.parameters && k != key.value ==> e.after.parameters[k] == b.parameters[k]
  {
    if key.None? then Fail(b, IllegalArgument("key must not be null!"))
    else Done(b.(parameters := b.parameters[key.value := value]))
  }

  /** `setVirtualHost` accepts anything, null host included. */
  function SetVirtualHost(b: Builder, host: Option<string>, port: int): (r: Builder)
    ensures r.virtualHost == host && r.virtualPort == port
    ensures r.(virtualHost := b.virtualHost, virtualPort := b.virtualPort) == b
  {
    b.(virtualHost := host, virtualPort := port)
  }

  function SetContentType(b: Builder, contentType: Option<string>): (e: Edit)
    ensures e.Ok() <==> contentType.Some?
    ensures !e.Ok() ==> e.thrown.value.IllegalArgument? && e.after == b
    ensures e.Ok() ==> e.after == b.(contentType := contentType)
  {
    if contentType.None? then Fail(b, IllegalArgument("Content type can not be null!"))
    else Done(b.(contentType := contentType))
  }

  function SetContentEncoding(b: Builder, encoding: Option<string>): (e: Edit)
    ensures e.Ok() <==> encoding.Some?
    ensures !e.Ok() ==> e.thrown.value.IllegalArgument? && e.after == b
    ensures e.Ok() ==> e.after == b.(contentEncoding := encoding)
  {
    if encoding.None? then Fail(b, IllegalArgument("Content encoding can not be null!"))
    else Done(b.(contentEncoding := encoding))
  }

  /** The `String`, `byte[]` and `InputStream` overloads of `setContent`;
      null clears the content. */
  function SetContent(b: Builder, content: Option<Content>): (r: Builder)
    requires content.Some? ==> content.value.IsBuilderContent()
    ensures r.content == content
    ensures r.(content := b.content) == b
  {
    b.(content := content)
  }

  /** One entry of the form multimap, in its iteration order. */
  datatype FormPair = FormPair(key: Option<string>, value: Option<string>)

  predicate HasNull(pairs: seq<FormPair>) {
    exists i :: 0 <= i < |pairs| && (pairs[i].key.None? || pairs[i].value.None?)
  }

  /** `key=value` with both halves URL-encoded by `encode(charset, _)`. */
  function EncodePair(p: FormPair, charset: string, encode: (string, string) -> string): string
    requires p.key.Some? && p.value.Some?
  {
    encode(charset, p.key.value) + "=" + encode(charset, p.value.value)
  }

  function EncodedPairs(pairs: seq<FormPair>, charset: string, encode: (string, string) -> string): (parts: seq<string>)
    requires !HasNull(pairs)
    ensures |parts| == |pairs|
    ensures forall i :: 0 <= i < |pairs| ==> parts[i] == EncodePair(pairs[i], charset, encode)
  {
    seq(|pairs|, i requires 0 <= i < |pairs| && !HasNull(pairs) => EncodePair(pairs[i], charset, encode))
  }

  /** `setContent(Multimap, encoding)`: a form body `k1=v1&k2=v2...`.
      `URLEncoder.encode` throws a null pointer for a null charset, key or
      value and an unsupported-encoding exception for an unknown charset;
      with no pairs it is never called, and `setContentEncoding` rejects a
      null charset instead. The builder changes only on success. */
  function SetFormContent(b: Builder, pairs: seq<FormPair>, encoding: Option<string>,
                          supported: string -> bool, encode: (string, string) -> string): (e: Edit)
    ensures e.Ok() <==> encoding.Some? && (|pairs| > 0 ==> supported(encoding.value) && !HasNull(pairs))
    ensures !e.Ok() ==> e.after == b
    ensures |pairs| > 0 && encoding.None? ==> e.thrown == Some(NullPointer)
    ensures |pairs| > 0 && encoding.Some? && !supported(encoding.value) ==>
      e.thrown == Some(Io(UnsupportedEncoding(encoding.value)))
    ensures |pairs| > 0 && encoding.Some? && supported(encoding.value) && HasNull(pairs) ==>
      e.thrown == Some(NullPointer)
    ensures |pairs| == 0 && encoding.None? ==> e.thrown.value.IllegalArgument?
    ensures e.Ok() ==>
      && e.after == b.(contentEncoding := encoding, content := e.after.content)
      && e.after.content.Some? && e.after.content.value.Text?
  {
    if |pairs| > 0 && encoding.None? then Fail(b, NullPointer)
    else if |pairs| > 0 && !supported(encoding.value) then Fail(b, Io(UnsupportedEncoding(encoding.value)))
    else if HasNull(pairs) then Fail(b, NullPointer)
    else
      match SetContentEncoding(b, encoding)
      case Edit(b', Some(f)) => Edit(b', Some(f))
      case Edit(b', None) =>
        Done(SetContent(b', Some(Text(Sequences.Join(EncodedPairs(pairs, encoding.value, encode), '&')))))
  }

  /** With an encoder that never emits `&` or `=`, the form body splits back
      into the encoded keys and values, pair by pair. */
  lemma FormContentRoundTrip(b: Builder, pairs: seq<FormPair>, charset: string,
                             supported: string -> bool, encode: (string, string) -> string)
    requires |pairs| > 0 && supported(charset) && !HasNull(pairs)
    requires forall s :: '&' !in encode(charset, s) && '=' !in encode(charset, s)
    ensures var e := SetFormContent(b, pairs, Some(charset), supported, encode);
      && e.Ok()
      && var parts := Sequences.Split(e.after.content.value.text, '&');
      && |parts| == |pairs|
      && forall i :: 0 <= i < |pairs| ==>
           Sequences.Split(parts[i], '=') == [encode(charset, pairs[i].key.value), encode(charset, pairs[i].value.value)]
  {
    var parts := EncodedPairs(pairs, charset, encode);
    forall i | 0 <= i < |parts|
      ensures '&' !in parts[i]
    {
      assert parts[i] == encode(charset, pairs[i].key.value) + "=" + encode(charset, pairs[i].value.value);
    }
    Sequences.SplitJoin(parts, '&');
    forall i | 0 <= i < |pairs|
      ensures Sequences.Split(parts[i], '=') == [encode(charset, pairs[i].key.value), encode(charset, pairs[i].value.value)]
    {
      var kv := [encode(charset, pairs[i].key.value), encode(charset, pairs[i].value.value)];
      assert Sequences.Join(kv, '=') == parts[i];
      Sequences.SplitJoin(kv, '=');
    }
  }

  /** `addAuth` appends a provider, whatever its implementation and
      `null` included; `addBasicAuth` appends `forUser`. */
  function AddAuth(b: Builder, provider: Provider): (r: Builder)
    ensures r.authProviders == b.authProviders + [provider]
    ensures r.(authProviders := b.authProviders) == b
  {
    b.(authProviders := b.authProviders + [provider])
  }

  function AddBasicAuth(b: Builder, user: Option<string>, password: Option<string>): (r: Builder)
    ensures |r.authProviders| == |b.authProviders| + 1
    ensures r.authProviders[|b.authProviders|].DefaultProvider?
    ensures var p := r.authProviders[|b.authProviders|].p;
      p.user == user && p.password == password && forall s, h, port, realm :: AcceptRequest(p, s, h, port, realm)
  {
    AddAuth(b, DefaultProvider(ForUser(user, password)))
  }

  /** The body source a request gets: none without content; otherwise what
      the factory returns, with the content type and encoding applied when
      they are non-null. */
  function BodySourceOf(content: Option<Content>, contentType: Option<string>, contentEncoding: Option<string>,
                        sourceFor: Content -> Result<Option<BodySource>>): (r: Result<Option<BodySource>>)
    ensures content.None? ==> r == Ok(None)
    ensures content.Some? && sourceFor(content.value).Err? ==> r == Err(sourceFor(content.value).failure)
    ensures content.Some? && sourceFor(content.value) == Ok(None) ==> r == Ok(None)
    ensures content.Some? && sourceFor(content.value).Ok? && sourceFor(content.value).value.Some? ==>
      var src := sourceFor(content.value).value.value;
      && r.Ok? && r.value.Some?
      && (contentType.Some? && src.Internal? ==> r.value.value.Internal? && r.value.value.contentType == contentType)
      && (contentEncoding.Some? && src.Internal? ==> r.value.value.Internal? && r.value.value.contentEncoding == contentEncoding)
      && (contentType.None? && contentEncoding.None? ==> r.value.value == src)
  {
    match content
    case None => Ok(None)
    case Some(c) =>
      match sourceFor(c)
      case Err(f) => Err(f)
      case Ok(None) => Ok(None)
      case Ok(Some(src)) =>
        var typed := if contentType.Some? then BodySources.SetContentType(src, contentType) else src;
        var encoded := if contentEncoding.Some? then BodySources.SetContentEncoding(typed, contentEncoding) else typed;
        Ok(Some(encoded))
  }

  /** `request()`: copies the builder into a new request and asks the
      factory for a body source. */
  function BuildRequest(b: Builder, sourceFor: Content -> Result<Option<BodySource>>): (r: Result<Request>)
    ensures r.Err? <==> BodySourceOf(b.content, b.contentType, b.contentEncoding, sourceFor).Err?
    ensures r.Ok? ==>
      && r.value.factory == b.factory && r.value.verb == b.verb && r.value.url == b.url
      && r.value.handler == b.handler && r.value.headers == b.headers && r.value.cookies == b.cookies
      && r.value.parameters == b.parameters && r.value.virtualHost == b.virtualHost
      && r.value.virtualPort == b.virtualPort && r.value.content == b.content
      && r.value.contentType == b.contentType && r.value.contentEncoding == b.contentEncoding
      && r.value.authProviders == b.authProviders
      && r.value.bodySource == BodySourceOf(b.content, b.contentType, b.contentEncoding, sourceFor).value
  {
    match BodySourceOf(b.content, b.contentType, b.contentEncoding, sourceFor)
    case Err(f) => Err(f)
    case Ok(src) =>
      Ok(Request(b.factory, b.verb, b.url, b.handler, b.headers, b.cookies, b.parameters,
                 b.virtualHost, b.virtualPort, src, b.content, b.contentType, b.contentEncoding,
                 b.authProviders))
  }

  /** `Builder.fromRequest`: everything but the body source is copied back. */
  function FromRequest(r: Request): (b: Builder)
    ensures b.factory == r.factory && b.verb == r.verb && b.url == r.url && b.handler == r.handler
    ensures b.headers == r.headers && b.cookies == r.cookies && b.parameters == r.parameters
    ensures b.virtualHost == r.virtualHost && b.virtualPort == r.virtualPort
    ensures b.content == r.content && b.contentType == r.contentType && b.contentEncoding == r.contentEncoding
    ensures b.authProviders == r.authProviders
  {
    Builder(r.factory, r.verb, r.url, r.handler, r.headers, r.cookies, r.parameters,
            r.virtualHost, r.virtualPort, r.content, r.contentType, r.contentEncoding, r.authProviders)
  }

  /** A request remembers its builder exactly. */
  lemma FromRequestInvertsBuild(b: Builder, sourceFor: Content -> Result<Option<BodySource>>)
    requires BuildRequest(b, sourceFor).Ok?
    ensures FromRequest(BuildRequest(b, sourceFor).value) == b
  {
  }

  /** Rebuilding a built request with the same factory reproduces it. */
  lemma RebuildIsIdentity(b: Builder, sourceFor: Content -> Result<Option<BodySource>>)
    requires BuildRequest(b, sourceFor).Ok?
    ensures BuildRequest(FromRequest(BuildRequest(b, sourceFor).value), sourceFor) == BuildRequest(b, sourceFor)
  {
    FromRequestInvertsBuild(b, sourceFor);
  }

  /** After a successful `replaceHeader` exactly one header has that name,
      and it is the last one. */
  lemma ReplaceHeaderLeavesOne(b: Builder, name: string, value: string)
    ensures var hs := ReplaceHeader(b, Some(name), Some(value)).after.headers;
      && |hs| > 0 && hs[|hs| - 1] == Header(name, value)
      && forall i :: 0 <= i < |hs| - 1 ==> hs[i].name != name
  {
    var kept := Sequences.Filter(b.headers, OtherHeader(Some(name)));
    var hs := ReplaceHeader(b, Some(name), Some(value)).after.headers;
    assert hs == kept + [Header(name, value)];
    forall i | 0 <= i < |hs| - 1
      ensures hs[i].name != name
    {
      assert hs[i] == kept[i];
      assert OtherHeader(Some(name))(kept[i]);
    }
  }

  /** Replacing twice is replacing once with the second value. */
  lemma {:induction false} ReplaceHeaderTwice(b: Builder, name: string, v1: string, v2: string)
    ensures ReplaceHeader(ReplaceHeader(b, Some(name), Some(v1)).after, Some(name), Some(v2))
         == ReplaceHeader(b, Some(name), Some(v2))
  {
    var keep := OtherHeader(Some(name));
    var kept := Sequences.Filter(b.headers, keep);
    Sequences.FilterAppend(kept, [Header(name, v1)], keep);
    Sequences.FilterIdempotent(b.headers, keep);
    assert Sequences.Filter([Header(name, v1)], keep) == [];
  }

  /** With no header of that name, `replaceHeader` is `addHeader`. */
  lemma ReplaceAbsentHeaderIsAdd(b: Builder, name: Option<string>, value: Option<string>)
    requires forall i :: 0 <= i < |b.headers| ==> Some(b.headers[i].name) != name
    ensures ReplaceHeader(b, name, value) == AddHeader(b, name, value)
  {
    Sequences.FilterAll(b.headers, OtherHeader(name));
    assert b.(headers := Sequences.Filter(b.headers, OtherHeader(name))) == b;
  }

  /** A null value still removes the old headers before it is rejected. */
  lemma ReplaceHeaderNullValueRemoves(b: Builder, name: string)
    requires exists i :: 0 <= i < |b.headers| && b.headers[i].name == name
    ensures var e := ReplaceHeader(b, Some(name), None);
      && !e.Ok() && e.thrown.value.IllegalArgument?
      && |e.after.headers| < |b.headers|
      && forall i :: 0 <= i < |e.after.headers| ==> e.after.headers[i].name != name
  {
    var i :| 0 <= i < |b.headers| && b.headers[i].name == name;
    FilterDropsOne(b.headers, OtherHeader(Some(name)), i);
  }

  lemma {:induction false} FilterDropsOne<T>(s: seq<T>, keep: T -> bool, i: nat)
    requires i < |s| && !keep(s[i])
    ensures |Sequences.Filter(s, keep)| < |s|
    decreases |s|
  {
    if i > 0 {
      FilterDropsOne(s[1..], keep, i - 1);
    }
  }

  /** The last `setParameter` for a key wins; other keys keep their values. */
  lemma SetParameterLastWins(b: Builder, key: string, v1: Option<string>, v2: Option<string>)
    ensures SetParameter(SetParameter(b, Some(key), v1).after, Some(key), v2) == SetParameter(b, Some(key), v2)
  {
  }
}

=== FILE: response.dfy ===
/** `HttpClientResponse` as the response handlers and converters see it:
    a snapshot of what its getters return. Every implementation (the
    Apache-backed `InternalResponse`, the testing generators) is mapped to
    one of these. */
module Responses {
  import opened Outcomes
  import opened BodySources

  /** A response body stream: the bytes it will yield and the number it
      reports `available()` up front. */
  datatype Body = Body(data: seq<byte>, available: nat)

  const EMPTY_BODY: Body := Body([], 0)

  datatype View = View(
    status: int,
    statusText: string,
    redirected: bool,
    contentType: Option<string>,
    contentLength: Option<int>,
    charset: Option<string>,
    /** `getHeader("Content-Encoding")` */
    contentEncoding: Option<string>,
    /** `getResponseBodyAsStream()`: a stream, `null`, or an exception. */
    body: Result<Option<Body>>)

  /** Redirection per section 6.4 of RFC 7231: a 3xx status. */
  predicate IsRedirectStatus(status: int) {
    300 <= status <= 399
  }
}

=== FILE: sequences.dfy ===
/** Order-preserving filtering, and joining/splitting strings on a separator. */
module Sequences {

  /** The elements of `s` that satisfy `keep`, in their original order. */
  function Filter<T>(s: seq<T>, keep: T -> bool): (r: seq<T>)
    ensures |r| <= |s|
    ensures forall i :: 0 <= i < |r| ==> keep(r[i]) && r[i] in s
    ensures forall x :: x in s && keep(x) ==> x in r
    ensures (forall i :: 0 <= i < |s| ==> keep(s[i])) ==> r == s
  {
    if |s| == 0 then []
    else if keep(s[0]) then [s[0]] + Filter(s[1..], keep)
    else Filter(s[1..], keep)
  }

  /** Filtering distributes over concatenation, so it keeps relative order. */
  lemma {:induction false} FilterAppend<T>(a: seq<T>, b: seq<T>, keep: T -> bool)
    ensures Filter(a + b, keep) == Filter(a, keep) + Filter(b, keep)
    decreases |a|
  {
    if |a| == 0 {
      assert a + b == b;
    } else {
      assert (a + b)[1..] == a[1..] + b;
      assert (a + b)[0] == a[0];
      FilterAppend(a[1..], b, keep);
    }
  }

  lemma {:induction false} FilterAll<T>(s: seq<T>, keep: T -> bool)
    requires forall i :: 0 <= i < |s| ==> keep(s[i])
    ensures Filter(s, keep) == s
    decreases |s|
  {
    if |s| > 0 {
      FilterAll(s[1..], keep);
    }
  }

  lemma {:induction false} FilterNone<T>(s: seq<T>, keep: T -> bool)
    requires forall i :: 0 <= i < |s| ==> !keep(s[i])
    ensures Filter(s, keep) == []
    decreases |s|
  {
    if |s| > 0 {
      FilterNone(s[1..], keep);
    }
  }

  /** Filtering twice with the same predicate changes nothing more. */
  lemma FilterIdempotent<T>(s: seq<T>, keep: T -> bool)
    ensures Filter(Filter(s, keep), keep) == Filter(s, keep)
  {
    FilterAll(Filter(s, keep), keep);
  }

  /** Parts joined by `sep`, with no leading or trailing separator. */
  function Join(parts: seq<string>, sep: char): (s: string)
    ensures |parts| == 0 ==> s == []
    ensures |parts| == 1 ==> s == parts[0]
  {
    if |parts| == 0 then []
    else if |parts| == 1 then parts[0]
    else parts[0] + [sep] + Join(parts[1..], sep)
  }

  /** Index of the first `c` in `s`. */
  function IndexOf(s: string, c: char): (i: nat)
    requires c in s
    ensures i < |s| && s[i] == c && c !in s[..i]
  {
    if s[0] == c then 0 else 1 + IndexOf(s[1..], c)
  }

  /** `s` cut at every `sep`; the inverse of `Join` on separator-free parts. */
  function Split(s: string, sep: char): (parts: seq<string>)
    ensures |parts| >= 1
    decreases |s|
  {
    if sep in s then
      var i := IndexOf(s, sep);
      [s[..i]] + Split(s[i + 1..], sep)
    else [s]
  }

  lemma IndexOfAfterFreePrefix(p: string, sep: char, rest: string)
    requires sep !in p
    ensures sep in p + [sep] + rest && IndexOf(p + [sep] + rest, sep) == |p|
  {
    var s := p + [sep] + rest;
    assert s[|p|] == sep;
    assert s[..|p|] == p;
  }

  lemma {:induction false} SplitJoin(parts: seq<string>, sep: char)
    requires |parts| >= 1
    requires forall i :: 0 <= i < |parts| ==> sep !in parts[i]
    ensures Split(Join(parts, sep), sep) == parts
    decreases |parts|
  {
    if |parts| > 1 {
      var rest := Join(parts[1..], sep);
      var s := parts[0] + [sep] + rest;
      IndexOfAfterFreePrefix(parts[0], sep, rest);
      assert s[..|parts[0]|] == parts[0];
      assert s[|parts[0]| + 1..] == rest;
      SplitJoin(parts[1..], sep);
    }
  }
}

=== FILE: size_limiting.dfy ===
/** `SizeLimitingInputStream`: a filter over a response body that counts
    the bytes passing through it and throws once the count exceeds the
    limit. The wrapped stream is a byte sequence with a read position and
    a mark, as a buffered stream has.

    Each operation exists twice. The `...AsWritten` members follow the
    class line by line, including its 32-bit `int` counter; the plain
    members count what the class evidently means to count (bytes, in an
    unbounded counter) and are the ones the rest of the model relies on.
    The lemmas at the end exhibit where the two differ. */
module SizeLimiting {
  import opened Outcomes
  import opened BodySources
  import Strings

  /** The wrapped stream: `markPos` is where `reset` returns to. */
  datatype Source = Source(data: seq<byte>, pos: nat, markPos: Option<nat>)
  {
    predicate Valid() { pos <= |data| && (markPos.Some? ==> markPos.value <= |data|) }
  }

  datatype Limiter = Limiter(src: Source, maxSize: int, count: int, mark: int)

  predicate Valid(l: Limiter) {
    l.src.Valid() && Strings.IsInt32(l.maxSize)
  }

  /** A limiter after one call, what the call returned, and what it threw. */
  datatype Step = Step(after: Limiter, value: int, thrown: Option<Failure>)

  const RESET_FAILED: string := "Resetting to invalid mark"

  /** The constructor fails fast when the wrapped stream reports more
      bytes `available()` than the limit; what the stream reports may be
      less than what it holds. */
  function Open(data: seq<byte>, available: nat, limit: Strings.Int32): (r: Result<Limiter>)
    ensures r.Ok? <==> available <= limit
    ensures r.Err? ==> r.failure == Io(SizeExceeded)
    ensures r.Ok? ==> && Valid(r.value) && r.value.count == 0 && r.value.mark == -1
                      && r.value.src == Source(data, 0, None) && r.value.maxSize == limit as int
  {
    if available > limit as int then Err(Io(SizeExceeded))
    else Ok(Limiter(Source(data, 0, None), limit as int, 0, -1))
  }

  /** `ensureLimit`: throws once the count is above the limit. */
  function EnsureLimit(l: Limiter, value: int): (s: Step)
    ensures s.after == l && s.value == value
    ensures s.thrown.Some? <==> l.count > l.maxSize
    ensures s.thrown.Some? ==> s.thrown.value == Io(SizeExceeded)
  {
    if l.count > l.maxSize then Step(l, value, Some(Io(SizeExceeded))) else Step(l, value, None)
  }

  /** `in.read()`: the next byte as 0..255, or -1 at the end. */
  function SourceRead(s: Source): (r: (Source, int))
    requires s.Valid()
    ensures r.0.Valid() && r.0.data == s.data && r.0.markPos == s.markPos
    ensures s.pos == |s.data| ==> r == (s, -1)
    ensures s.pos < |s.data| ==> r.0.pos == s.pos + 1 && r.1 == s.data[s.pos] as int
  {
    if s.pos == |s.data| then (s, -1) else (s.(pos := s.pos + 1), s.data[s.pos] as int)
  }

  /** `in.read(b, off, len)`: 0 for `len` 0, -1 at the end, otherwise
      `len` bytes or all that remain. A wrapped stream that answers with
      fewer bytes is the same call with a smaller `len`; `Reads` below
      says how many each read of a drain gets. */
  function SourceReadChunk(s: Source, len: nat): (r: (Source, int))
    requires s.Valid()
    ensures r.0.Valid() && r.0.data == s.data && r.0.markPos == s.markPos
    ensures r.1 == -1 <==> len > 0 && s.pos == |s.data|
    ensures r.1 >= 0 ==> r.0.pos == s.pos + r.1 && r.1 <= len
    ensures r.1 == -1 ==> r.0 == s
    ensures len > 0 && s.pos < |s.data| ==> r.1 > 0
  {
    if len == 0 then (s, 0)
    else if s.pos == |s.data| then (s, -1)
    else
      var n := if len < |s.data| - s.pos then len else |s.data| - s.pos;
      (s.(pos := s.pos + n), n)
  }

  /** `in.skip(n)`: nothing for non-positive `n`, else up to `n` bytes. */
  function SourceSkip(s: Source, n: int): (r: (Source, int))
    requires s.Valid()
    ensures r.0.Valid() && r.0.data == s.data && r.0.markPos == s.markPos
    ensures 0 <= r.1 && r.0.pos == s.pos + r.1
    ensures n <= 0 ==> r.1 == 0
    ensures r.1 <= n || n <= 0
  {
    if n <= 0 then (s, 0)
    else
      var k := if n < |s.data| - s.pos then n else |s.data| - s.pos;
      (s.(pos := s.pos + k), k)
  }

  /** `in.reset()`: back to the mark; without one, an I/O exception. */
  function SourceReset(s: Source): (r: Result<Source>)
    requires s.Valid()
    ensures r.Ok? <==> s.markPos.Some?
    ensures r.Ok? ==> r.value == s.(pos := s.markPos.value) && r.value.Valid()
    ensures r.Err? ==> r.failure.Io?
  {
    match s.markPos
    case None => Err(Io(IoError(RESET_FAILED)))
    case Some(m) => Ok(s.(pos := m))
  }

  // ---------------------------------------------------------------------
  // The class as written.

  /** `read()`: adds the VALUE of the byte read to the count. */
  function ReadByteAsWritten(l: Limiter): (s: Step)
    requires Valid(l)
    ensures Valid(s.after) && s.after.src.data == l.src.data && s.after.src.markPos == l.src.markPos
    ensures s.after.mark == l.mark && s.after.maxSize == l.maxSize
    ensures s.value == -1 <==> l.src.pos == |l.src.data|
    ensures s.value >= 0 ==> s.value == l.src.data[l.src.pos] as int && s.after.src.pos == l.src.pos + 1
    ensures s.value > 0 ==> s.after.count == Strings.Wrap32(l.count + s.value)
    ensures s.value <= 0 ==> s.after.count == l.count
    ensures s.thrown.Some? <==> s.after.count > l.maxSize
    ensures s.thrown.Some? ==> s.thrown.value == Io(SizeExceeded)
  {
    var (src', r) := SourceRead(l.src);
    var count := if r > 0 then Strings.Wrap32(l.count + r) else l.count;
    EnsureLimit(l.(src := src', count := count), r)
  }

  /** `read(b, off, len)`: adds the number of bytes read, in `int`
      arithmetic. */
  function ReadChunkAsWritten(l: Limiter, len: Strings.Int32): (s: Step)
    requires Valid(l) && len >= 0
    ensures Valid(s.after)
    ensures s.value > 0 ==> s.after.count == Strings.Wrap32(l.count + s.value)
    ensures s.thrown.Some? <==> s.after.count > l.maxSize
    ensures s.thrown.Some? ==> s.thrown.value == Io(SizeExceeded)
  {
    var (src', r) := SourceReadChunk(l.src, len as nat);
    var count := if r > 0 then Strings.Wrap32(l.count + r) else l.count;
    EnsureLimit(l.(src := src', count := count), r)
  }

  /** `skip(n)`: adds `(int)` of the `long` skipped, keeping only its low
      32 bits. */
  function SkipAsWritten(l: Limiter, n: int): (s: Step)
    requires Valid(l)
    ensures Valid(s.after)
    ensures s.value > 0 ==> s.after.count == Strings.Wrap32(l.count + Strings.Wrap32(s.value))
    ensures s.thrown.Some? <==> s.after.count > l.maxSize
    ensures s.thrown.Some? ==> s.thrown.value == Io(SizeExceeded)
  {
    var (src', r) := SourceSkip(l.src, n);
    var count := if r > 0 then Strings.Wrap32(l.count + Strings.Wrap32(r)) else l.count;
    EnsureLimit(l.(src := src', count := count), r)
  }

  /** `mark`: remembers the count and marks the wrapped stream. */
  function Mark(l: Limiter): (r: Limiter)
    requires Valid(l)
    ensures Valid(r) && r.mark == l.count && r.src.markPos == Some(l.src.pos)
    ensures r.count == l.count && r.src.pos == l.src.pos && r.src.data == l.src.data
  {
    l.(mark := l.count, src := l.src.(markPos := Some(l.src.pos)))
  }

  /** `reset`: restores the count only for a mark above 0, forgets the
      mark, then resets the wrapped stream. */
  function ResetAsWritten(l: Limiter): (s: Step)
    requires Valid(l)
    ensures Valid(s.after) && s.after.mark == -1
    ensures s.after.count == (if l.mark > 0 then l.mark else l.count)
    ensures s.thrown.None? <==> l.src.markPos.Some?
    ensures s.thrown.None? ==> s.after.src.pos == l.src.markPos.value
  {
    var l' := l.(count := if l.mark > 0 then l.mark else l.count, mark := -1);
    match SourceReset(l.src)
    case Err(f) => Step(l', 0, Some(f))
    case Ok(src') => Step(l'.(src := src'), 0, None)
  }

  // ---------------------------------------------------------------------
  // The class as evidently intended: every byte counts once, `reset` to a
  // mark taken at count 0 restores the count, and the counter does not
  // wrap.

  /** `read()` counting one per byte. */
  function ReadByte(l: Limiter): (s: Step)
    requires Valid(l)
    ensures Valid(s.after) && s.after.src.data == l.src.data && s.after.src.markPos == l.src.markPos
    ensures s.after.mark == l.mark && s.after.maxSize == l.maxSize
    ensures s.value == -1 <==> l.src.pos == |l.src.data|
    ensures s.value >= 0 ==> s.value == l.src.data[l.src.pos] as int
    ensures s.after.count - s.after.src.pos == l.count - l.src.pos
    ensures s.thrown.Some? <==> s.after.count > l.maxSize
    ensures s.thrown.Some? ==> s.thrown.value == Io(SizeExceeded)
  {
    var (src', r) := SourceRead(l.src);
    var count := if r >= 0 then l.count + 1 else l.count;
    EnsureLimit(l.(src := src', count := count), r)
  }

  /** `read(b, off, len)` with an unbounded counter. */
  function ReadChunk(l: Limiter, len: nat): (s: Step)
    requires Valid(l)
    ensures Valid(s.after) && s.after.src.data == l.src.data && s.after.src.markPos == l.src.markPos
    ensures s.after.mark == l.mark && s.after.maxSize == l.maxSize
    ensures s.after.count - s.after.src.pos == l.count - l.src.pos
    ensures s.thrown.Some? <==> s.after.count > l.maxSize
    ensures s.thrown.Some? ==> s.thrown.value == Io(SizeExceeded)
    ensures s.value == -1 <==> len > 0 && l.src.pos == |l.src.data|
    ensures s.value >= 0 ==> s.value <= len && s.after.src.pos == l.src.pos + s.value
    ensures len > 0 && l.src.pos < |l.src.data| ==> s.value > 0
    ensures 0 <= s.value < len ==> s.after.src.pos == |l.src.data|
  {
    var (src', r) := SourceReadChunk(l.src, len);
    var count := if r > 0 then l.count + r else l.count;
    EnsureLimit(l.(src := src', count := count), r)
  }

  /** `skip(n)` counting every skipped byte. */
  function Skip(l: Limiter, n: int): (s: Step)
    requires Valid(l)
    ensures Valid(s.after) && s.after.src.data == l.src.data && s.after.src.markPos == l.src.markPos
    ensures s.after.mark == l.mark && s.after.maxSize == l.maxSize
    ensures s.after.count - s.after.src.pos == l.count - l.src.pos
    ensures s.thrown.Some? <==> s.after.count > l.maxSize
  {
    var (src', r) := SourceSkip(l.src, n);
    EnsureLimit(l.(src := src', count := l.count + r), r)
  }

  /** `reset` that restores the count for any mark that was taken. */
  function Reset(l: Limiter): (s: Step)
    requires Valid(l)
    ensures Valid(s.after) && s.after.mark == -1 && s.after.maxSize == l.maxSize
    ensures s.after.src.data == l.src.data && s.after.src.markPos == l.src.markPos
    ensures s.after.count == (if l.mark >= 0 then l.mark else l.count)
    ensures s.thrown.None? <==> l.src.markPos.Some?
    ensures s.thrown.None? ==> s.after.src.pos == l.src.markPos.value
    ensures s.thrown.Some? ==> s.after.src == l.src
  {
    var l' := l.(count := if l.mark >= 0 then l.mark else l.count, mark := -1);
    match SourceReset(l.src)
    case Err(f) => Step(l', 0, Some(f))
    case Ok(src') => Step(l'.(src := src'), 0, None)
  }

  /** The counting invariant: the count is never below the stream
      position, nor below the wrapped stream's mark, and a remembered
      mark lies between the wrapped stream's mark and the count. */
  predicate Counted(l: Limiter) {
    && Valid(l)
    && l.count >= l.src.pos
    && (l.src.markPos.Some? ==> l.count >= l.src.markPos.value)
    && (l.mark >= 0 ==> l.src.markPos.Some? && l.src.markPos.value <= l.mark <= l.count)
  }

  datatype Op = ReadOne | ReadMany(len: nat) | SkipBytes(n: int) | MarkStream | ResetStream

  function Exec(l: Limiter, op: Op): (s: Step)
    requires Valid(l)
    ensures Valid(s.after) && s.after.maxSize == l.maxSize
  {
    match op
    case ReadOne => ReadByte(l)
    case ReadMany(len) => ReadChunk(l, len)
    case SkipBytes(n) => Skip(l, n)
    case MarkStream => Step(Mark(l), 0, None)
    case ResetStream => Reset(l)
  }

  lemma ExecKeepsCounted(l: Limiter, op: Op)
    requires Counted(l)
    ensures Counted(Exec(l, op).after)
  {
  }

  /** Runs operations until one throws. */
  function RunOps(l: Limiter, ops: seq<Op>): (s: Step)
    requires Valid(l)
    ensures Valid(s.after) && s.after.maxSize == l.maxSize
    decreases |ops|
  {
    if |ops| == 0 then Step(l, 0, None)
    else
      var s := Exec(l, ops[0]);
      if s.thrown.Some? then s else RunOps(s.after, ops[1..])
  }

  /** The limit holds: whatever a caller does, as long as nothing was thrown
      the wrapped stream has not advanced past `maxSize` bytes. */
  lemma {:induction false} LimitNeverBypassed(l: Limiter, ops: seq<Op>)
    requires Counted(l) && l.count <= l.maxSize
    ensures Counted(RunOps(l, ops).after)
    ensures RunOps(l, ops).thrown.None? ==> RunOps(l, ops).after.src.pos <= l.maxSize
    decreases |ops|
  {
    if |ops| > 0 {
      ExecKeepsCounted(l, ops[0]);
      var s := Exec(l, ops[0]);
      if s.thrown.None? {
        assert s.after.count <= s.after.maxSize by {
          if ops[0].MarkStream? {
            assert s.after.count == l.count;
          } else if ops[0].ResetStream? {
            assert s.after.count <= l.count by {
              if l.mark >= 0 {
                assert l.mark <= l.count;
              }
            }
          }
        }
        LimitNeverBypassed(s.after, ops[1..]);
      }
    }
  }

  /** How many more bytes the limit lets through. */
  function Budget(l: Limiter): nat {
    if l.count <= l.maxSize then l.maxSize - l.count else 0
  }

  /** Reading to the end one byte at a time, as a consumer draining the
      stream does: it stops with `SizeExceeded` exactly when the bytes
      still to come would take the count past the limit, and by then it
      has delivered precisely the bytes the limit allowed. */
  function ReadToEnd(l: Limiter): (r: Drained)
    requires Valid(l)
    ensures r.failure.None? <==> l.count + (|l.src.data| - l.src.pos) <= l.maxSize
    ensures r.failure.None? ==> r.bytes == l.src.data[l.src.pos..]
    ensures r.failure.Some? ==> && r.failure == Some(SizeExceeded)
                                && l.src.pos + Budget(l) <= |l.src.data|
                                && r.bytes == l.src.data[l.src.pos..l.src.pos + Budget(l)]
    decreases |l.src.data| - l.src.pos
  {
    var s := ReadByte(l);
    if s.thrown.Some? then Drained([], Some(SizeExceeded))
    else if s.value == -1 then Drained([], None)
    else
      var rest := ReadToEnd(s.after);
      Drained([s.value as byte] + rest.bytes, rest.failure)
  }

  /** A read size a consumer asks for: `InputStreamReader`, Jackson and the
      inflaters read through `read(b, off, len)` with a buffer of their
      own, never of length 0. */
  type BlockSize = n: nat | n > 0 witness 1

  /** How many bytes each `read(b, off, len)` of a draining consumer gets,
      keyed by the stream position the read starts at: the consumer's
      buffer size, or fewer when the wrapped stream answers with a short
      read, as a socket does with what has arrived so far. The limiter
      sees only what the wrapped stream returned, so a read that returns
      `k` bytes counts exactly as `ReadChunk(l, k)`. */
  type Reads = nat -> BlockSize

  /** A consumer whose every read of `block` bytes the wrapped stream
      fills while bytes remain. */
  function FullReads(block: BlockSize): (f: Reads)
    ensures forall p: nat :: f(p) == block
  {
    _ => block
  }

  /** Reading to the end read after read, as a converter does. A read that
      takes the count past the limit throws after the wrapped stream has
      already handed its bytes over, so they are never delivered: on
      failure the consumer has received a prefix within the budget, and
      the read that would have followed it crosses the limit, however
      close the limit is to the end of the body. */
  function ReadToEndInBlocks(l: Limiter, served: Reads): (r: Drained)
    requires Valid(l)
    ensures r.failure.None? <==> l.count + (|l.src.data| - l.src.pos) <= l.maxSize
    ensures r.failure.None? ==> r.bytes == l.src.data[l.src.pos..]
    ensures r.failure.Some? ==> && r.failure == Some(SizeExceeded)
                                && |r.bytes| <= Budget(l)
                                && Budget(l) < |r.bytes| + served(l.src.pos + |r.bytes|)
                                && l.src.pos + |r.bytes| <= |l.src.data|
                                && r.bytes == l.src.data[l.src.pos..l.src.pos + |r.bytes|]
    decreases |l.src.data| - l.src.pos
  {
    var s := ReadChunk(l, served(l.src.pos));
    FirstBlockEnds(l, served);
    if s.thrown.Some? then Drained([], Some(SizeExceeded))
    else if s.value == -1 then Drained([], None)
    else
      var rest := ReadToEndInBlocks(s.after, served);
      assert DrainedInBlocks(s.after, served, rest);
      BlockThenRest(l, served, rest);
      Drained(l.src.data[l.src.pos..s.after.src.pos] + rest.bytes, rest.failure)
  }

  /** The postcondition of `ReadToEndInBlocks`, as one predicate, so that
      one step of the drain can be stated on its own. */
  predicate DrainedInBlocks(l: Limiter, served: Reads, r: Drained)
    requires Valid(l)
  {
    && (r.failure.None? <==> l.count + (|l.src.data| - l.src.pos) <= l.maxSize)
    && (r.failure.None? ==> r.bytes == l.src.data[l.src.pos..])
    && (r.failure.Some? ==> && r.failure == Some(SizeExceeded)
                            && |r.bytes| <= Budget(l)
                            && Budget(l) < |r.bytes| + served(l.src.pos + |r.bytes|)
                            && l.src.pos + |r.bytes| <= |l.src.data|
                            && r.bytes == l.src.data[l.src.pos..l.src.pos + |r.bytes|])
  }

  /** A first read that throws leaves the consumer with nothing, and one
      that finds the end within the limit finishes the drain. */
  lemma FirstBlockEnds(l: Limiter, served: Reads)
    requires Valid(l)
    ensures var s := ReadChunk(l, served(l.src.pos));
      && (s.thrown.Some? ==> DrainedInBlocks(l, served, Drained([], Some(SizeExceeded))))
      && (s.thrown.None? && s.value == -1 ==> DrainedInBlocks(l, served, Drained([], None)))
  {
    var s := ReadChunk(l, served(l.src.pos));
    if s.thrown.None? && s.value == -1 {
      assert l.src.data[l.src.pos..] == [];
    }
  }

  /** A read within the limit, followed by a drain of what is left, is a
      drain of the whole. */
  lemma BlockThenRest(l: Limiter, served: Reads, rest: Drained)
    requires Valid(l)
    requires ReadChunk(l, served(l.src.pos)).thrown.None? && ReadChunk(l, served(l.src.pos)).value != -1
    requires DrainedInBlocks(ReadChunk(l, served(l.src.pos)).after, served, rest)
    ensures var s := ReadChunk(l, served(l.src.pos));
      DrainedInBlocks(l, served, Drained(l.src.data[l.src.pos..s.after.src.pos] + rest.bytes, rest.failure))
  {
    var s := ReadChunk(l, served(l.src.pos));
    var got := l.src.data[l.src.pos..s.after.src.pos];
    assert |got| == s.value && s.after.count == l.count + s.value;
    if rest.failure.Some? {
      assert Budget(s.after) + s.value == Budget(l);
      assert s.after.src.pos + |rest.bytes| == l.src.pos + |got| + |rest.bytes|;
      assert got + rest.bytes == l.src.data[l.src.pos..l.src.pos + |got| + |rest.bytes|];
    } else {
      assert got + rest.bytes == l.src.data[l.src.pos..];
    }
  }

  /** `n` is a whole number of blocks. */
  predicate WholeBlocks(n: nat, block: BlockSize)
    decreases n
  {
    n == 0 || (n >= block && WholeBlocks(n - block, block))
  }

  /** When the wrapped stream fills every read, a drain stopped by the
      limit has delivered a whole number of blocks, fewer than one block
      short of the budget: every read before the crossing one was full,
      since a short one would have met the end of the body. */
  lemma {:induction false} FullReadsDeliverWholeBlocks(l: Limiter, block: BlockSize)
    requires Valid(l)
    ensures var r := ReadToEndInBlocks(l, FullReads(block));
      r.failure.Some? ==> WholeBlocks(|r.bytes|, block) && Budget(l) < |r.bytes| + block
    decreases |l.src.data| - l.src.pos
  {
    var s := ReadChunk(l, block);
    FullReadStep(l, block);
    if s.thrown.None? && s.value != -1 {
      FullReadsDeliverWholeBlocks(s.after, block);
    }
  }

  /** One full read of the drain, then the rest of it: the read that
      leaves something to cross the limit later took a whole block. */
  lemma FullReadStep(l: Limiter, block: BlockSize)
    requires Valid(l)
    ensures var s := ReadChunk(l, block);
      var r := ReadToEndInBlocks(l, FullReads(block));
      && (s.thrown.Some? || s.value == -1 ==> r.bytes == [])
      && (s.thrown.None? && s.value != -1 ==>
            var rest := ReadToEndInBlocks(s.after, FullReads(block));
            && r.failure == rest.failure
            && (rest.failure.Some? ==>
                  s.value == block && |r.bytes| == block + |rest.bytes| && Budget(l) == Budget(s.after) + block))
  {
    var served := FullReads(block);
    assert served(l.src.pos) == block;
  }

  /** Under the limit's 32-bit budget the class's `read(b, off, len)` and
      the unbounded counting agree: for any read that cannot take the
      count past `Integer.MAX_VALUE` the two are the same step. */
  lemma ReadChunkAgreesWithAsWritten(l: Limiter, len: Strings.Int32)
    requires Valid(l) && len >= 0 && Strings.IsInt32(l.count) && l.count + len <= Strings.INT_MAX
    ensures ReadChunk(l, len) == ReadChunkAsWritten(l, len)
  {
  }

  /** The same drain as a loop over a freshly opened limiter: every byte is
      returned, and nothing is thrown, exactly when the stream reports no
      more than the limit available and holds no more than the limit. */
  method ReadAll(data: seq<byte>, available: nat, limit: Strings.Int32) returns (r: Result<seq<byte>>)
    ensures r.Ok? <==> available <= limit && |data| <= limit
    ensures r.Ok? ==> r.value == data
    ensures r.Err? ==> r.failure == Io(SizeExceeded)
  {
    var start := Open(data, available, limit);
    if start.Err? {
      return Err(start.failure);
    }
    var l := start.value;
    var got: seq<byte> := [];
    while true
      invariant Valid(l) && l.src.data == data && l.maxSize == limit as int
      invariant l.count == l.src.pos && got == data[..l.src.pos]
      invariant l.count <= l.maxSize
      decreases |data| - l.src.pos
    {
      var s := ReadByte(l);
      if s.thrown.Some? {
        return Err(s.thrown.value);
      }
      if s.value == -1 {
        assert got == data;
        return Ok(got);
      }
      got := got + [s.value as byte];
      l := s.after;
    }
  }

  // ---------------------------------------------------------------------
  // Where the class as written departs from the intended counting.

  /** Zero bytes add nothing to the count, so a stream of zeros passes a
      limit it exceeds: three zero bytes read one at a time under a limit
      of one byte raise nothing. */
  lemma ZeroBytesPassTheLimit()
    ensures var l0 := Open([0, 0, 0], 3, 3).value.(maxSize := 1);
      var s1 := ReadByteAsWritten(l0);
      var s2 := ReadByteAsWritten(s1.after);
      var s3 := ReadByteAsWritten(s2.after);
      && s1.thrown.None? && s2.thrown.None? && s3.thrown.None?
      && s3.after.src.pos == 3 && s3.after.maxSize == 1
  {
  }

  /** The same three bytes under the intended counting throw on the second
      read. */
  lemma ZeroBytesCountedWhenIntended()
    ensures var l0 := Open([0, 0, 0], 3, 3).value.(maxSize := 1);
      var s1 := ReadByte(l0);
      s1.thrown.None? && ReadByte(s1.after).thrown == Some(Io(SizeExceeded))
  {
  }

  /** One byte of value 65 under a limit of ten throws at once. */
  lemma OneByteOverCounted()
    ensures ReadByteAsWritten(Open([65], 1, 10).value).thrown == Some(Io(SizeExceeded))
    ensures ReadByte(Open([65], 1, 10).value).thrown.None?
  {
  }

  /** `GZIPInputStream` reads the two magic bytes of its header, 0x1f
      0x8b, one at a time through `read()`. As written they count
      31 + 139 = 170, so a limit of 100 throws on the second byte of any
      gzip body; counted as intended the header's first three bytes pass. */
  lemma GzipMagicOverCounted()
    ensures var l0 := Open([0x1f, 0x8b, 8], 3, 100).value;
      var s1 := ReadByteAsWritten(l0);
      var s2 := ReadByteAsWritten(s1.after);
      && s1.thrown.None? && s2.after.count == 170 && s2.thrown == Some(Io(SizeExceeded))
    ensures var l0 := Open([0x1f, 0x8b, 8], 3, 100).value;
      var s1 := ReadByte(l0);
      var s2 := ReadByte(s1.after);
      var s3 := ReadByte(s2.after);
      && s1.thrown.None? && s2.thrown.None? && s3.thrown.None? && s3.after.count == 3
  {
  }

  /** A mark taken at count 0 is ignored by `reset`: after marking a fresh
      stream of five bytes, reading them, resetting and reading them
      again, the count is ten and a limit of eight throws, though the
      stream holds five bytes. */
  lemma ResetToStartIgnored()
    ensures var l0 := Mark(Open([1, 2, 3, 4, 5], 5, 8).value);
      var s1 := ReadChunkAsWritten(l0, 5);
      var s2 := ResetAsWritten(s1.after);
      var s3 := ReadChunkAsWritten(s2.after, 5);
      && s1.thrown.None? && s2.thrown.None? && s2.after.count == 5 && s2.after.src.pos == 0
      && s3.thrown == Some(Io(SizeExceeded))
  {
  }

  /** With the intended `reset` the same sequence stays within the limit. */
  lemma ResetToStartRestored()
    ensures var l0 := Mark(Open([1, 2, 3, 4, 5], 5, 8).value);
      var s1 := ReadChunk(l0, 5);
      var s2 := Reset(s1.after);
      var s3 := ReadChunk(s2.after, 5);
      && s1.thrown.None? && s2.thrown.None? && s2.after.count == 0
      && s3.thrown.None? && s3.after.count == 5
  {
  }

  /** Skipping 2^32 bytes adds `(int) 4294967296`, which is 0: under a
      limit of 0 the skip raises nothing. The intended counting throws. */
  lemma SkipTruncationBypassesLimit()
    ensures var data := seq(0x1_0000_0000, _ => 0 as byte);
      var l0 := Limiter(Source(data, 0, None), 0, 0, -1);
      && SkipAsWritten(l0, 0x1_0000_0000).thrown.None?
      && SkipAsWritten(l0, 0x1_0000_0000).after.src.pos == 0x1_0000_0000
      && Skip(l0, 0x1_0000_0000).thrown == Some(Io(SizeExceeded))
  {
  }
}

=== FILE: streamed_json.dfy ===
/** `StreamedJsonContentConverter`: streams the elements of the envelope
    `{"results": [ ... ], "success": true}` to a callback one at a time.
    The JSON parser is abstracted to the tokens it yields; the mapping
    iterator reads each array element as one value. */
module StreamedJson {
  import opened Outcomes

  /** An array element or scalar value. `JObject` stands for a whole
      object read as one element. */
  datatype JsonValue = JTrue | JFalse | JNull | JNumber(n: int) | JText(s: string) | JObject(id: nat)

  /** What the parser yields. `Broken(f)` is the point where the parser,
      or the stream below it, raises `f`. */
  datatype Token =
    | StartObject
    | EndObject
    | StartArray
    | EndArray
    | Field(name: string)
    | Value(v: JsonValue)
    | Broken(f: Failure)

  /** Jackson's `JsonToken` names; `null` at the end of input. */
  function TokenName(t: Option<Token>): (n: string)
    ensures t.None? ==> n == "null"
  {
    match t
    case None => "null"
    case Some(StartObject) => "START_OBJECT"
    case Some(EndObject) => "END_OBJECT"
    case Some(StartArray) => "START_ARRAY"
    case Some(EndArray) => "END_ARRAY"
    case Some(Field(_)) => "FIELD_NAME"
    case Some(Value(JTrue)) => "VALUE_TRUE"
    case Some(Value(JFalse)) => "VALUE_FALSE"
    case Some(Value(JNull)) => "VALUE_NULL"
    case Some(Value(JNumber(_))) => "VALUE_NUMBER_INT"
    case Some(Value(JText(_))) => "VALUE_STRING"
    case Some(Value(JObject(_))) => "START_OBJECT"
    case Some(Broken(_)) => "NOT_AVAILABLE"
  }

  /** The token at `i`, or `null` past the end. */
  function At(ts: seq<Token>, i: nat): (t: Option<Token>)
    ensures t.Some? <==> i < |ts|
    ensures t.Some? ==> t.value == ts[i]
  {
    if i < |ts| then Some(ts[i]) else None
  }

  /** What a callback invocation does. */
  datatype CallbackOutcome =
    | Accepted
    | Refused
    | Interrupted
    | ThrewIo(io: IoFailure)
    | ThrewRuntime(message: string)
    | ThrewChecked(message: string)

  /** A callback answers an element given the elements it has accepted so
      far, which lets a stateful callback be expressed. */
  type Callback = (seq<JsonValue>, JsonValue) -> CallbackOutcome

  /** The elements the callback accepted, how `convert` ended, and whether
      it re-set the thread's interrupt flag. */
  datatype Outcome = Outcome(accepted: seq<JsonValue>, result: Result<()>, interrupted: bool)

  const INTERRUPTED: string := "Callback interrupted"
  const CALLBACK_FAILURE: string := "Callback failure"
  const NOT_TERMINATED: string := "Streamed receive did not terminate normally; inspect server logs for cause."
  const NO_RESULTS_FIELD: string := "expecting results field"

  /** `expect`: the token must have the expected name. */
  function Expect(t: Option<Token>, expected: string): (r: Result<()>)
    ensures t.Some? && t.value.Broken? ==> r == Err(t.value.f)
    ensures !(t.Some? && t.value.Broken?) ==> (r.Ok? <==> TokenName(t) == expected)
    ensures !(t.Some? && t.value.Broken?) && r.Err? ==>
      r.failure == Io(JsonParse("Expected " + expected + ", found " + TokenName(t)))
  {
    if t.Some? && t.value.Broken? then Err(t.value.f)
    else if TokenName(t) == expected then Ok(())
    else Err(Io(JsonParse("Expected " + expected + ", found " + TokenName(t))))
  }

  function Fail(accepted: seq<JsonValue>, f: Failure): Outcome {
    Outcome(accepted, Err(f), false)
  }

  /** After the array: `nextValue` must be `true` under the field
      "success". */
  function Trailer(ts: seq<Token>, j: nat, accepted: seq<JsonValue>): (o: Outcome)
    ensures o.accepted == accepted && !o.interrupted
    ensures o.result.Ok? <==> At(ts, j) == Some(Field("success")) && At(ts, j + 1) == Some(Value(JTrue))
  {
    match At(ts, j)
    case Some(Broken(f)) => Fail(accepted, f)
    case Some(Field(name)) =>
      (match At(ts, j + 1)
       case Some(Broken(f)) => Fail(accepted, f)
       case Some(Value(JTrue)) =>
         if name == "success" then Outcome(accepted, Ok(()), false)
         else Fail(accepted, Io(IoError(NOT_TERMINATED)))
       case _ => Fail(accepted, Io(IoError(NOT_TERMINATED))))
    case _ => Fail(accepted, Io(IoError(NOT_TERMINATED)))
  }

  /** The run of values starting at token `i`: the array's elements as
      far as they go. */
  function LeadingValues(ts: seq<Token>, i: nat): (vs: seq<JsonValue>)
    decreases |ts| - i
  {
    if i < |ts| && ts[i].Value? then [ts[i].v] + LeadingValues(ts, i + 1) else []
  }

  /** What escapes the mapping iterator's `hasNext` and `next`: they
      rethrow an I/O failure as an unchecked exception that has it as its
      cause, and an unchecked one as it is. */
  function Unwrapped(f: Failure): (g: Failure)
    ensures !g.Io?
    ensures f.Io? ==> g.UncheckedIo? && g.cause == f.io
    ensures !f.Io? ==> g == f
  {
    if f.Io? then UncheckedIo(f.io) else f
  }

  /** The element loop from token `i`: each value goes to the callback in
      turn; the end of the array hands over to `Trailer`. A failure while
      the iterator reads an element is unchecked, so it escapes a handler
      that intercepts only I/O failures. */
  function Elements(ts: seq<Token>, i: nat, accepted: seq<JsonValue>, cb: Callback): (o: Outcome)
    ensures accepted <= o.accepted
    ensures o.interrupted ==> o.result == Err(Io(IoError(INTERRUPTED)))
    ensures var stop := i + |o.accepted| - |accepted|;
      o.interrupted <==> stop < |ts| && ts[stop].Value? && cb(o.accepted, ts[stop].v).Interrupted?
    ensures var stop := i + |o.accepted| - |accepted|;
      stop < |ts| && ts[stop].Broken? ==> o.result == Err(Unwrapped(ts[stop].f))
    ensures var stop := i + |o.accepted| - |accepted|;
      stop < |ts| && !ts[stop].Value? && !ts[stop].EndArray? ==> o.result.Err? && !o.result.failure.Io?
    decreases |ts| - i
  {
    if i >= |ts| then Trailer(ts, i, accepted)
    else
      match ts[i]
      case EndArray => Trailer(ts, i + 1, accepted)
      case Broken(f) => Fail(accepted, Unwrapped(f))
      case Value(v) =>
        (match cb(accepted, v)
         case Accepted => Elements(ts, i + 1, accepted + [v], cb)
         case Refused => Outcome(accepted, Ok(()), false)
         case Interrupted => Outcome(accepted, Err(Io(IoError(INTERRUPTED))), true)
         case ThrewIo(io) => Fail(accepted, Io(io))
         case ThrewRuntime(m) => Fail(accepted, Unchecked(m))
         case ThrewChecked(_) => Fail(accepted, Io(IoError(CALLBACK_FAILURE))))
      case _ => Fail(accepted, UncheckedIo(JsonParse("Unexpected " + TokenName(Some(ts[i])))))
  }

  /** The callback is offered the array's values in order: what it
      accepted is a prefix of them. */
  lemma {:induction false} ElementsFollowTheArray(ts: seq<Token>, i: nat, accepted: seq<JsonValue>, cb: Callback)
    ensures var o := Elements(ts, i, accepted, cb);
      accepted <= o.accepted && o.accepted[|accepted|..] <= LeadingValues(ts, i)
    decreases |ts| - i
  {
    if i < |ts| && ts[i].Value? && cb(accepted, ts[i].v).Accepted? {
      var v := ts[i].v;
      var o := Elements(ts, i + 1, accepted + [v], cb);
      assert Elements(ts, i, accepted, cb) == o;
      assert LeadingValues(ts, i) == [v] + LeadingValues(ts, i + 1);
      ElementsFollowTheArray(ts, i + 1, accepted + [v], cb);
      assert o.accepted[|accepted|..] == [v] + o.accepted[|accepted| + 1..];
    }
  }

  /** `convert` on status 200: the envelope, then the elements. */
  function Envelope(ts: seq<Token>, cb: Callback): (o: Outcome)
    ensures o.result.Ok? ==> && TokenName(At(ts, 0)) == "START_OBJECT" && At(ts, 1) == Some(Field("results"))
                             && At(ts, 2) == Some(StartArray)
    ensures o.accepted <= LeadingValues(ts, 3)
  {
    if Expect(At(ts, 0), "START_OBJECT").Err? then Fail([], Expect(At(ts, 0), "START_OBJECT").failure)
    else if Expect(At(ts, 1), "FIELD_NAME").Err? then Fail([], Expect(At(ts, 1), "FIELD_NAME").failure)
    else if ts[1].name != "results" then Fail([], Io(JsonParse(NO_RESULTS_FIELD)))
    else if Expect(At(ts, 2), "START_ARRAY").Err? then Fail([], Expect(At(ts, 2), "START_ARRAY").failure)
    else
      ElementsFollowTheArray(ts, 3, [], cb);
      var o := Elements(ts, 3, [], cb);
      assert o.accepted[0..] == o.accepted;
      o
  }

  /** `convert`. */
  function Convert(status: int, ts: seq<Token>, cb: Callback): (o: Outcome)
    ensures status == 201 || status == 204 ==> o == Outcome([], Ok(()), false)
    ensures status != 200 && status != 201 && status != 204 ==> o == Fail([], Io(HttpResponse(status)))
    ensures status == 200 ==> o == Envelope(ts, cb)
  {
    match status
    case 201 => Outcome([], Ok(()), false)
    case 204 => Outcome([], Ok(()), false)
    case 200 => Envelope(ts, cb)
    case _ => Fail([], Io(HttpResponse(status)))
  }

  // ---------------------------------------------------------------------
  // Properties

  /** The tokens of a well-formed envelope around `vs`. */
  function EnvelopeTokens(vs: seq<JsonValue>): (ts: seq<Token>)
    ensures |ts| == |vs| + 7
  {
    [StartObject, Field("results"), StartArray]
      + seq(|vs|, k requires 0 <= k < |vs| => Value(vs[k]))
      + [EndArray, Field("success"), Value(JTrue), EndObject]
  }

  /** Where each token of the envelope sits. */
  lemma EnvelopeTokensShape(vs: seq<JsonValue>)
    ensures var ts := EnvelopeTokens(vs);
      && ts[0] == StartObject && ts[1] == Field("results") && ts[2] == StartArray
      && (forall k :: 0 <= k < |vs| ==> ts[3 + k] == Value(vs[k]))
      && ts[3 + |vs|] == EndArray && ts[4 + |vs|] == Field("success") && ts[5 + |vs|] == Value(JTrue)
  {
  }

  /** A callback that accepts everything. */
  function AcceptAll(seen: seq<JsonValue>, v: JsonValue): CallbackOutcome {
    Accepted
  }

  lemma {:induction false} ElementsDeliverRest(vs: seq<JsonValue>, k: nat, cb: Callback)
    requires k <= |vs|
    requires forall j :: k <= j < |vs| ==> cb(vs[..j], vs[j]) == Accepted
    ensures Elements(EnvelopeTokens(vs), 3 + k, vs[..k], cb) == Outcome(vs, Ok(()), false)
    decreases |vs| - k
  {
    var ts := EnvelopeTokens(vs);
    EnvelopeTokensShape(vs);
    if k == |vs| {
      assert At(ts, 4 + k) == Some(Field("success"));
      assert At(ts, 5 + k) == Some(Value(JTrue));
      assert vs[..k] == vs;
      assert Elements(ts, 3 + k, vs, cb) == Trailer(ts, 4 + k, vs);
    } else {
      assert ts[3 + k] == Value(vs[k]);
      assert vs[..k] + [vs[k]] == vs[..k + 1];
      AcceptedStep(ts, 3 + k, vs[..k], cb);
      ElementsDeliverRest(vs, k + 1, cb);
    }
  }

  /** A well-formed envelope delivers every element, in order, to a
      callback that accepts them, and completes normally. */
  lemma EveryElementDelivered(vs: seq<JsonValue>, cb: Callback)
    requires forall j :: 0 <= j < |vs| ==> cb(vs[..j], vs[j]) == Accepted
    ensures Convert(200, EnvelopeTokens(vs), cb) == Outcome(vs, Ok(()), false)
  {
    EnvelopeEntersElements(vs, cb);
    assert vs[..0] == [];
    ElementsDeliverRest(vs, 0, cb);
  }

  /** The opening of a well-formed envelope hands over to the element
      loop at the first array element. */
  lemma EnvelopeEntersElements(vs: seq<JsonValue>, cb: Callback)
    ensures Convert(200, EnvelopeTokens(vs), cb) == Elements(EnvelopeTokens(vs), 3, [], cb)
  {
    var ts := EnvelopeTokens(vs);
    assert ts[0] == StartObject && ts[1] == Field("results") && ts[2] == StartArray;
    OpeningEntersElements(ts, cb);
  }

  lemma OpeningEntersElements(ts: seq<Token>, cb: Callback)
    requires |ts| >= 3 && ts[0] == StartObject && ts[1] == Field("results") && ts[2] == StartArray
    ensures Convert(200, ts, cb) == Elements(ts, 3, [], cb)
  {
    assert TokenName(At(ts, 0)) == "START_OBJECT" && Expect(At(ts, 0), "START_OBJECT").Ok?;
    assert TokenName(At(ts, 1)) == "FIELD_NAME" && Expect(At(ts, 1), "FIELD_NAME").Ok?;
    assert TokenName(At(ts, 2)) == "START_ARRAY" && Expect(At(ts, 2), "START_ARRAY").Ok?;
    assert Envelope(ts, cb) == Elements(ts, 3, [], cb);
  }

  /** An accepted element moves the loop on by one token. */
  lemma AcceptedStep(ts: seq<Token>, i: nat, accepted: seq<JsonValue>, cb: Callback)
    requires i < |ts| && ts[i].Value? && cb(accepted, ts[i].v) == Accepted
    ensures Elements(ts, i, accepted, cb) == Elements(ts, i + 1, accepted + [ts[i].v], cb)
  {
  }

  lemma {:induction false} RefusalStopsRest(vs: seq<JsonValue>, k: nat, stop: nat, cb: Callback)
    requires k <= stop < |vs|
    requires forall j :: k <= j < stop ==> cb(vs[..j], vs[j]) == Accepted
    requires cb(vs[..stop], vs[stop]) == Refused
    ensures Elements(EnvelopeTokens(vs), 3 + k, vs[..k], cb) == Outcome(vs[..stop], Ok(()), false)
    decreases stop - k
  {
    var ts := EnvelopeTokens(vs);
    assert ts[3 + k] == Value(vs[k]);
    if k < stop {
      assert vs[..k] + [vs[k]] == vs[..k + 1];
      AcceptedStep(ts, 3 + k, vs[..k], cb);
      RefusalStopsRest(vs, k + 1, stop, cb);
    }
  }

  /** A refusal ends consumption normally: the elements before it were
      delivered and nothing after it is. */
  lemma RefusalEndsNormally(vs: seq<JsonValue>, stop: nat, cb: Callback)
    requires stop < |vs|
    requires forall j :: 0 <= j < stop ==> cb(vs[..j], vs[j]) == Accepted
    requires cb(vs[..stop], vs[stop]) == Refused
    ensures Convert(200, EnvelopeTokens(vs), cb) == Outcome(vs[..stop], Ok(()), false)
  {
    var ts := EnvelopeTokens(vs);
    calc {
      Convert(200, ts, cb);
    == { EnvelopeEntersElements(vs, cb); }
      Elements(ts, 3, [], cb);
    == { assert vs[..0] == []; RefusalStopsRest(vs, 0, stop, cb); }
      Outcome(vs[..stop], Ok(()), false);
    }
  }

  /** The numbers 1 to 10. */
  function OneToTen(): (vs: seq<JsonValue>)
    ensures |vs| == 10 && forall k :: 0 <= k < 10 ==> vs[k] == JNumber(k + 1)
  {
    seq(10, k requires 0 <= k < 10 => JNumber(k + 1))
  }

  /** Refuses every number of at least 5. */
  function RefuseFromFive(seen: seq<JsonValue>, v: JsonValue): CallbackOutcome {
    if v.JNumber? && v.n >= 5 then Refused else Accepted
  }

  /** The two scenarios of the converter's tests: all ten numbers reach a
      collecting callback; a callback refusing from 5 on keeps 1 to 4. */
  lemma OneToTenScenarios()
    ensures Convert(200, EnvelopeTokens(OneToTen()), AcceptAll) == Outcome(OneToTen(), Ok(()), false)
    ensures Convert(200, EnvelopeTokens(OneToTen()), RefuseFromFive).accepted == OneToTen()[..4]
    ensures Convert(200, EnvelopeTokens(OneToTen()), RefuseFromFive).result == Ok(())
  {
    var vs := OneToTen();
    EveryElementDelivered(vs, AcceptAll);
    RefusalEndsNormally(vs, 4, RefuseFromFive);
  }

  /** Without the "success" trailer the stream is reported as incomplete,
      even though every element was delivered. */
  lemma MissingTrailerFails(vs: seq<JsonValue>, cb: Callback)
    requires forall j :: 0 <= j < |vs| ==> cb(vs[..j], vs[j]) == Accepted
    ensures var ts := EnvelopeTokens(vs)[..|vs| + 4];
      Convert(200, ts, cb) == Fail(vs, Io(IoError(NOT_TERMINATED)))
  {
    var ts := EnvelopeTokens(vs)[..|vs| + 4];
    assert ts[0] == StartObject && ts[1] == Field("results") && ts[2] == StartArray;
    OpeningEntersElements(ts, cb);
    assert vs[..0] == [];
    TruncatedRest(vs, 0, cb);
  }

  lemma {:induction false} TruncatedRest(vs: seq<JsonValue>, k: nat, cb: Callback)
    requires k <= |vs|
    requires forall j :: k <= j < |vs| ==> cb(vs[..j], vs[j]) == Accepted
    ensures Elements(EnvelopeTokens(vs)[..|vs| + 4], 3 + k, vs[..k], cb) == Fail(vs, Io(IoError(NOT_TERMINATED)))
    decreases |vs| - k
  {
    var ts := EnvelopeTokens(vs)[..|vs| + 4];
    if k == |vs| {
      assert ts[3 + k] == EndArray;
      assert At(ts, 4 + k).None?;
      assert vs[..k] == vs;
    } else {
      assert ts[3 + k] == Value(vs[k]);
      assert vs[..k] + [vs[k]] == vs[..k + 1];
      AcceptedStep(ts, 3 + k, vs[..k], cb);
      TruncatedRest(vs, k + 1, cb);
    }
  }
  /** The stream failing after every element so far was delivered (the
      size limit running out, say) fails unchecked, with the I/O failure
      as its cause: it is thrown from inside the mapping iterator. */
  lemma FailureInsideTheArrayIsUnchecked(vs: seq<JsonValue>, io: IoFailure, cb: Callback)
    requires forall j :: 0 <= j < |vs| ==> cb(vs[..j], vs[j]) == Accepted
    ensures var ts := EnvelopeTokens(vs)[..|vs| + 3] + [Broken(Io(io))];
      Convert(200, ts, cb) == Fail(vs, UncheckedIo(io))
  {
    var ts := EnvelopeTokens(vs)[..|vs| + 3] + [Broken(Io(io))];
    assert ts[0] == StartObject && ts[1] == Field("results") && ts[2] == StartArray;
    OpeningEntersElements(ts, cb);
    assert vs[..0] == [];
    BrokenRest(vs, io, 0, cb);
  }

  lemma {:induction false} BrokenRest(vs: seq<JsonValue>, io: IoFailure, k: nat, cb: Callback)
    requires k <= |vs|
    requires forall j :: k <= j < |vs| ==> cb(vs[..j], vs[j]) == Accepted
    ensures Elements(EnvelopeTokens(vs)[..|vs| + 3] + [Broken(Io(io))], 3 + k, vs[..k], cb) == Fail(vs, UncheckedIo(io))
    decreases |vs| - k
  {
    var ts := EnvelopeTokens(vs)[..|vs| + 3] + [Broken(Io(io))];
    EnvelopeTokensShape(vs);
    if k == |vs| {
      assert ts[3 + k] == Broken(Io(io));
      assert vs[..k] == vs;
    } else {
      assert ts[3 + k] == Value(vs[k]);
      assert vs[..k] + [vs[k]] == vs[..k + 1];
      AcceptedStep(ts, 3 + k, vs[..k], cb);
      BrokenRest(vs, io, k + 1, cb);
    }
  }
}

=== FILE: strings.dfy ===
/** The `java.lang.String` / commons-lang `StringUtils` operations the client
    relies on, over `seq<char>`. Case mapping covers the ASCII letters only. */
module Strings {
  import opened Outcomes

  const INT_MIN: int := -0x8000_0000
  const INT_MAX: int := 0x7FFF_FFFF
  const LONG_MIN: int := -0x8000_0000_0000_0000
  const LONG_MAX: int := 0x7FFF_FFFF_FFFF_FFFF

  predicate IsInt32(x: int) { INT_MIN <= x <= INT_MAX }

  /** A Java `int`. */
  type Int32 = x: int | INT_MIN <= x <= INT_MAX

  /** Two's-complement wrap-around of a Java `int` computation. */
  function Wrap32(x: int): (r: int)
    ensures IsInt32(r)
    ensures (r - x) % 0x1_0000_0000 == 0
    ensures IsInt32(x) ==> r == x
  {
    (x - INT_MIN) % 0x1_0000_0000 + INT_MIN
  }

  function LowerChar(c: char): (r: char)
    ensures 'A' <= c <= 'Z' ==> 'a' <= r <= 'z'
    ensures !('A' <= c <= 'Z') ==> r == c
  {
    if 'A' <= c <= 'Z' then (c as int + 32) as char else c
  }

  function UpperChar(c: char): (r: char)
    ensures 'a' <= c <= 'z' ==> 'A' <= r <= 'Z'
    ensures !('a' <= c <= 'z') ==> r == c
  {
    if 'a' <= c <= 'z' then (c as int - 32) as char else c
  }

  /** `toLowerCase(Locale.ENGLISH)` restricted to ASCII letters. */
  function ToLower(s: string): (r: string)
    ensures |r| == |s|
    ensures forall i :: 0 <= i < |s| ==> r[i] == LowerChar(s[i])
  {
    seq(|s|, i requires 0 <= i < |s| => LowerChar(s[i]))
  }

  function ToUpper(s: string): (r: string)
    ensures |r| == |s|
    ensures forall i :: 0 <= i < |s| ==> r[i] == UpperChar(s[i])
  {
    seq(|s|, i requires 0 <= i < |s| => UpperChar(s[i]))
  }

  lemma ToLowerIdempotent(s: string)
    ensures ToLower(ToLower(s)) == ToLower(s)
  {
  }

  /** `StringUtils.equalsIgnoreCase` on two non-null strings. */
  predicate EqualsIgnoreCase(a: string, b: string) {
    ToLower(a) == ToLower(b)
  }

  /** `String.trim` drops leading and trailing characters up to U+0020. */
  predicate IsTrimmable(c: char) { c <= ' ' }

  function TrimStart(s: string): (r: string)
    ensures |r| <= |s| && r == s[|s| - |r|..]
    ensures |r| > 0 ==> !IsTrimmable(r[0])
    ensures forall i :: 0 <= i < |s| - |r| ==> IsTrimmable(s[i])
  {
    if |s| > 0 && IsTrimmable(s[0]) then TrimStart(s[1..]) else s
  }

  function TrimEnd(s: string): (r: string)
    ensures |r| <= |s| && r == s[..|r|]
    ensures |r| > 0 ==> !IsTrimmable(r[|r| - 1])
    ensures forall i :: |r| <= i < |s| ==> IsTrimmable(s[i])
  {
    if |s| > 0 && IsTrimmable(s[|s| - 1]) then TrimEnd(s[..|s| - 1]) else s
  }

  function Trim(s: string): (r: string)
    ensures |r| <= |s|
    ensures |r| > 0 ==> !IsTrimmable(r[0]) && !IsTrimmable(r[|r| - 1])
    ensures (forall i :: 0 <= i < |s| ==> IsTrimmable(s[i])) <==> r == []
  {
    var t := TrimStart(s);
    var r := TrimEnd(t);
    r
  }

  /** `Character.isWhitespace`: the Java whitespace code points. */
  predicate IsJavaWhitespace(c: char) {
    || ('\t' <= c <= '\r')
    || ('\U{1C}' <= c <= ' ')
    || c == '\U{1680}'
    || ('\U{2000}' <= c <= '\U{2006}')
    || ('\U{2008}' <= c <= '\U{200A}')
    || c == '\U{2028}' || c == '\U{2029}' || c == '\U{205F}' || c == '\U{3000}'
  }

  /** `StringUtils.isBlank`: null, empty or only whitespace. */
  predicate IsBlank(s: Option<string>) {
    match s
    case None => true
    case Some(v) => forall i :: 0 <= i < |v| ==> IsJavaWhitespace(v[i])
  }

  /** `StringUtils.trimToNull`. */
  function TrimToNull(s: Option<string>): (r: Option<string>)
    ensures r.Some? ==> s.Some? && |r.value| > 0 && r.value == Trim(s.value)
    ensures s.Some? && Trim(s.value) != [] ==> r == Some(Trim(s.value))
  {
    match s
    case None => None
    case Some(v) => if Trim(v) == [] then None else Some(Trim(v))
  }

  /** `StringUtils.trimToEmpty`. */
  function TrimToEmpty(s: Option<string>): (r: string)
    ensures s.None? ==> r == []
    ensures s.Some? ==> r == Trim(s.value)
  {
    match s
    case None => []
    case Some(v) => Trim(v)
  }

  predicate IsDigit(c: char) { '0' <= c <= '9' }

  function DigitValue(c: char): (d: nat)
    requires IsDigit(c)
    ensures d < 10
  {
    c as int - '0' as int
  }

  function DigitChar(d: nat): (c: char)
    requires d < 10
    ensures IsDigit(c) && DigitValue(c) == d
  {
    ('0' as int + d) as char
  }

  predicate AllDigits(s: string) {
    forall i :: 0 <= i < |s| ==> IsDigit(s[i])
  }

  /** Decimal value of a run of ASCII digits, most significant first. */
  function DigitsValue(s: string): nat
    requires AllDigits(s)
  {
    if |s| == 0 then 0 else DigitsValue(s[..|s| - 1]) * 10 + DigitValue(s[|s| - 1])
  }

  /** `Long.parseLong` for ASCII input: an optional sign, at least one digit,
      and a value inside the `long` range; `None` stands for the
      `NumberFormatException`. */
  function ParseLong(s: string): (r: Option<int>)
    ensures r.Some? ==> LONG_MIN <= r.value <= LONG_MAX
    ensures |s| == 0 ==> r.None?
  {
    if |s| == 0 then None
    else
      var negative := s[0] == '-';
      var digits := if s[0] == '-' || s[0] == '+' then s[1..] else s;
      if |digits| == 0 || !AllDigits(digits) then None
      else
        var v: int := if negative then -(DigitsValue(digits) as int) else DigitsValue(digits);
        if LONG_MIN <= v <= LONG_MAX then Some(v) else None
  }

  /** Decimal rendering of a natural number (`Long.toString` without sign). */
  function NatToDigits(n: nat): (s: string)
    ensures |s| > 0 && AllDigits(s)
    decreases n
  {
    if n < 10 then [DigitChar(n)] else NatToDigits(n / 10) + [DigitChar(n % 10)]
  }

  function LongToString(n: int): (s: string)
    ensures |s| > 0
  {
    if n < 0 then "-" + NatToDigits(-n) else NatToDigits(n)
  }

  lemma {:induction false} DigitsRoundTrip(n: nat)
    ensures DigitsValue(NatToDigits(n)) == n
    decreases n
  {
    if n >= 10 {
      var s := NatToDigits(n);
      assert s[..|s| - 1] == NatToDigits(n / 10);
      DigitsRoundTrip(n / 10);
    }
  }

  /** Parsing the decimal rendering of any `long` gives the value back. */
  lemma ParseLongRoundTrip(n: int)
    requires LONG_MIN <= n <= LONG_MAX
    ensures ParseLong(LongToString(n)) == Some(n)
  {
    DigitsRoundTrip(if n < 0 then -n else n);
    if n < 0 {
      assert LongToString(n)[1..] == NatToDigits(-n);
    }
  }

  /** `String.hashCode` as the JDK computes it: Horner's rule over the
      characters, wrapping to an `int` after every step. */
  function HashCode(s: string): (h: int)
    ensures IsInt32(h)
  {
    if |s| == 0 then 0 else Wrap32(31 * HashCode(s[..|s| - 1]) + s[|s| - 1] as int)
  }

  function Pow31(k: nat): (p: nat)
    ensures p >= 1
  {
    if k == 0 then 1 else 31 * Pow31(k - 1)
  }

  /** The formula `String.hashCode` documents, without wrap-around:
      `s[0]*31^(n-1) + s[1]*31^(n-2) + ... + s[n-1]`. */
  function PolyHash(s: string): int {
    if |s| == 0 then 0 else s[0] as int * Pow31(|s| - 1) + PolyHash(s[1..])
  }

  /** Appending a character is one Horner step of the documented formula. */
  lemma {:induction false} PolyHashSnoc(s: string, c: char)
    ensures PolyHash(s + [c]) == 31 * PolyHash(s) + c as int
    decreases |s|
  {
    if |s| == 0 {
      assert s + [c] == [c];
      assert [c][1..] == [];
    } else {
      assert (s + [c])[1..] == s[1..] + [c];
      assert (s + [c])[0] == s[0];
      PolyHashSnoc(s[1..], c);
      calc {
        PolyHash(s + [c]);
        s[0] as int * Pow31(|s|) + PolyHash(s[1..] + [c]);
        s[0] as int * (31 * Pow31(|s| - 1)) + 31 * PolyHash(s[1..]) + c as int;
        { assert s[0] as int * (31 * Pow31(|s| - 1)) == 31 * (s[0] as int * Pow31(|s| - 1)); }
        31 * PolyHash(s) + c as int;
      }
    }
  }

  /** Numbers that differ by a multiple of 2^32 wrap to the same `int`. */
  lemma WrapCongruent(x: int, y: int, k: int)
    requires x - y == k * 0x1_0000_0000
    ensures Wrap32(x) == Wrap32(y)
  {
    var a := x - INT_MIN;
    var b := y - INT_MIN;
    assert a == b + k * 0x1_0000_0000;
    assert a % 0x1_0000_0000 == b % 0x1_0000_0000 by {
      var qb := b / 0x1_0000_0000;
      var rb := b % 0x1_0000_0000;
      assert b == qb * 0x1_0000_0000 + rb && 0 <= rb < 0x1_0000_0000;
      assert a == (qb + k) * 0x1_0000_0000 + rb;
    }
  }

  /** Wrapping an intermediate result of `c * x + a` does not change the
      wrapped total. */
  lemma WrapScaled(x: int, c: int, a: int)
    ensures Wrap32(c * Wrap32(x) + a) == Wrap32(c * x + a)
  {
    var w := Wrap32(x);
    var k := (w - x) / 0x1_0000_0000;
    assert w - x == k * 0x1_0000_0000;
    assert (c * w + a) - (c * x + a) == (c * k) * 0x1_0000_0000;
    WrapCongruent(c * w + a, c * x + a, c * k);
  }

  /** The JDK's wrapping computation equals the documented formula taken
      modulo 2^32: wrapping after every step or once at the end agree. */
  lemma {:induction false} HashCodeIsPolynomial(s: string)
    ensures HashCode(s) == Wrap32(PolyHash(s))
    decreases |s|
  {
    if |s| > 0 {
      var init := s[..|s| - 1];
      var c := s[|s| - 1];
      assert s == init + [c];
      HashCodeIsPolynomial(init);
      PolyHashSnoc(init, c);
      var p := PolyHash(init);
      var w := Wrap32(p);
      var k := (w - p) / 0x1_0000_0000;
      assert w - p == k * 0x1_0000_0000;
      WrapCongruent(31 * w + c as int, 31 * p + c as int, 31 * k);
    }
  }

  /** Two small values: the empty string hashes to 0, "ab" to 97*31 + 98. */
  lemma HashCodeExamples()
    ensures HashCode("") == 0
    ensures HashCode("ab") == 3105
  {
    assert "ab"[..1] == "a";
    assert "a"[..0] == "";
  }
}

=== FILE: testing_dispatch.dfy ===
/** The testing client: `TestingHttpClientBuilder` records (matcher,
    generator) pairs in order, `TestingHttpClientFactory` answers each
    request from the first pair whose matcher accepts it, and
    `MethodPathMatcher` is the matcher `on(method).of(path)` registers.
    Custom matchers, custom generators, observers and the response
    handler are foreign code and enter as parameters. */
module TestingDispatch {
  import opened Outcomes
  import opened BodySources
  import opened Requests
  import opened TestingResponses
  import ObserverResolution
  import ObserverChains
  import Strings

  // ---------------------------------------------------------------------
  // MethodPathMatcher

  /** Both fields may be `null`. */
  datatype MethodPathMatcher = MethodPathMatcher(verb: Option<Method>, path: Option<string>)

  /** `apply`: the method must be the matcher's and the URI path must equal
      the matcher's path. The path is only read when the method matches,
      and a missing URI or path is then dereferenced. */
  function ApplyMethodPath(m: MethodPathMatcher, r: Request): (res: Result<bool>)
    ensures res == Ok(true) <==> m.verb == Some(r.verb) && r.url.Some? && r.url.value.path.Some? && m.path == r.url.value.path
    ensures m.verb != Some(r.verb) ==> res == Ok(false)
    ensures res.Err? <==> m.verb == Some(r.verb) && (r.url.None? || r.url.value.path.None?)
    ensures res.Err? ==> res.failure == NullPointer
  {
    if m.verb != Some(r.verb) then Ok(false)
    else if r.url.None? || r.url.value.path.None? then Err(NullPointer)
    else Ok(Some(r.url.value.path.value) == m.path)
  }

  /** `equals` as written: identical methods, and paths equal or both
      `null`. */
  predicate MatcherEquals(a: MethodPathMatcher, b: MethodPathMatcher) {
    && a.verb == b.verb
    && (if a.path.None? then b.path.None? else b.path.Some? && a.path.value == b.path.value)
  }

  /** `equals` is exactly value equality of the two fields. */
  lemma MatcherEqualsIsEquality(a: MethodPathMatcher, b: MethodPathMatcher)
    ensures MatcherEquals(a, b) <==> a == b
  {
  }

  /** `hashCode`: 31 * (31 + hash(method)) + hash(path) in 32-bit
      arithmetic, 0 for a `null` field. An enum's hash is its identity
      hash, so it is a parameter. */
  function MatcherHash(m: MethodPathMatcher, methodHash: Method -> Strings.Int32): (h: int)
    ensures Strings.IsInt32(h)
    ensures m.verb.None? && m.path.None? ==> h == 961
    ensures var mh := if m.verb.Some? then methodHash(m.verb.value) else 0;
      var ph := if m.path.Some? then Strings.PolyHash(m.path.value) else 0;
      h == Strings.Wrap32(961 + 31 * mh + ph)
  {
    var mh: int := if m.verb.Some? then methodHash(m.verb.value) else 0;
    var ph: int := if m.path.Some? then Strings.HashCode(m.path.value) else 0;
    var inner := Strings.Wrap32(31 * 1 + mh);
    Strings.WrapScaled(31 + mh, 31, ph);
    PathHashShift(961 + 31 * mh, m.path);
    Strings.Wrap32(31 * inner + ph)
  }

  /** Adding the wrapped hash of a path, or the documented polynomial,
      wraps to the same `int`. */
  lemma PathHashShift(a: int, path: Option<string>)
    ensures var ph := if path.Some? then Strings.HashCode(path.value) else 0;
      var pp := if path.Some? then Strings.PolyHash(path.value) else 0;
      Strings.Wrap32(a + ph) == Strings.Wrap32(a + pp)
  {
    if path.Some? {
      Strings.HashCodeIsPolynomial(path.value);
      var h := Strings.HashCode(path.value);
      var p := Strings.PolyHash(path.value);
      var k := (h - p) / 0x1_0000_0000;
      assert h - p == k * 0x1_0000_0000;
      Strings.WrapCongruent(a + h, a + p, k);
    }
  }

  /** Equal matchers hash alike, as `HashMap` keys must. */
  lemma EqualMatchersHashAlike(a: MethodPathMatcher, b: MethodPathMatcher, methodHash: Method -> Strings.Int32)
    requires MatcherEquals(a, b)
    ensures MatcherHash(a, methodHash) == MatcherHash(b, methodHash)
  {
  }

  // ---------------------------------------------------------------------
  // Matchers, generators and the builder

  /** A `RequestMatcher`: the method/path matcher, or any other
      implementation, known by its identity. */
  datatype Matcher = ByMethodPath(m: MethodPathMatcher) | CustomMatcher(id: nat)

  /** What the custom matchers answer. */
  type CustomApply = (nat, Request) -> Result<bool>

  function Apply(m: Matcher, r: Request, custom: CustomApply): (res: Result<bool>)
    ensures m.ByMethodPath? ==> res == ApplyMethodPath(m.m, r)
    ensures m.CustomMatcher? ==> res == custom(m.id, r)
  {
    match m
    case ByMethodPath(mp) => ApplyMethodPath(mp, r)
    case CustomMatcher(id) => custom(id, r)
  }

  /** A `ResponseGenerator`: a fixed response, a JAX-RS response, the
      `IOException` of `respondWith(IOException)`, or any other
      implementation, known by its identity. */
  datatype Generator = FixedGen(fixed: Fixed) | JaxRsGen(jaxrs: JaxRs) | Throwing(e: IoFailure) | CustomGen(id: nat)

  /** The foreign code a request meets: custom generators, the JAX-RS
      reason phrases, and the observers' two hooks. */
  datatype Environment = Environment(
    customRespond: (nat, Request) -> Result<Canned>,
    reasonPhrase: int -> Option<string>,
    onRequest: (ObserverResolution.Observer, Request) -> Result<Request>,
    onResponse: (ObserverResolution.Observer, Canned) -> Result<Canned>)

  /** `respondTo`. */
  function Respond(g: Generator, r: Request, env: Environment): (res: Result<Canned>)
    ensures g.Throwing? ==> res == Err(Io(g.e))
    ensures g.FixedGen? ==> res == Ok(RespondFixed(g.fixed))
    ensures g.JaxRsGen? ==> res == Ok(RespondJaxRs(g.jaxrs, r, env.reasonPhrase))
    ensures g.CustomGen? ==> res == env.customRespond(g.id, r)
  {
    match g
    case FixedGen(f) => Ok(RespondFixed(f))
    case JaxRsGen(j) => Ok(RespondJaxRs(j, r, env.reasonPhrase))
    case Throwing(e) => Err(Io(e))
    case CustomGen(id) => env.customRespond(id, r)
  }

  datatype Entry = Entry(matcher: Matcher, generator: Generator)

  datatype TestingBuilder = TestingBuilder(
    entries: seq<Entry>,
    mapper: Option<Mapper>,
    observers: set<ObserverResolution.Observer>)

  const EMPTY_BUILDER: TestingBuilder := TestingBuilder([], None, {})

  /** `whenMatches(m).respondWith(generator)`: a new entry after all the
      earlier ones. */
  function RespondWith(b: TestingBuilder, m: Matcher, g: Generator): (b': TestingBuilder)
    ensures b'.entries == b.entries + [Entry(m, g)]
    ensures b'.mapper == b.mapper && b'.observers == b.observers
  {
    b.(entries := b.entries + [Entry(m, g)])
  }

  /** `on(method).of(path)`. */
  function On(verb: Method, path: Option<string>): (m: Matcher)
    ensures m.ByMethodPath? && m.m.verb == Some(verb) && m.m.path == path
  {
    ByMethodPath(MethodPathMatcher(Some(verb), path))
  }

  /** `respondWith(IOException)`. */
  function RespondWithException(b: TestingBuilder, m: Matcher, e: IoFailure): (b': TestingBuilder)
    ensures b' == RespondWith(b, m, Throwing(e))
  {
    RespondWith(b, m, Throwing(e))
  }

  /** `respondWith(ResponseBuilder)`: the generator is built with the
      builder's mapper at once, so a bad response throws here and
      registers nothing. */
  function RespondWithResponse(b: TestingBuilder, m: Matcher, r: JaxRsResponse, utf8: string -> seq<byte>, mediaType: MediaTypeParser): (res: Result<TestingBuilder>)
    ensures NewJaxRs(b.mapper, r, utf8, mediaType).Err? <==> res.Err?
    ensures res.Err? ==> res.failure == NewJaxRs(b.mapper, r, utf8, mediaType).failure
    ensures res.Ok? ==> res.value == RespondWith(b, m, JaxRsGen(NewJaxRs(b.mapper, r, utf8, mediaType).value))
  {
    match NewJaxRs(b.mapper, r, utf8, mediaType)
    case Err(f) => Err(f)
    case Ok(g) => Ok(RespondWith(b, m, JaxRsGen(g)))
  }

  /** `withObjectMapper`. */
  function WithObjectMapper(b: TestingBuilder, mapper: Option<Mapper>): (b': TestingBuilder)
    ensures b'.mapper == mapper && b'.entries == b.entries && b'.observers == b.observers
  {
    b.(mapper := mapper)
  }

  /** `withObserver`: observers form a set. */
  function WithObserver(b: TestingBuilder, o: ObserverResolution.Observer): (b': TestingBuilder)
    ensures b'.observers == b.observers + {o}
    ensures b'.entries == b.entries && b'.mapper == b.mapper
  {
    b.(observers := b.observers + {o})
  }

  /** Two entries with the same (equal) matcher. */
  predicate HasDuplicateMatcher(es: seq<Entry>) {
    exists i, j :: 0 <= i < j < |es| && es[i].matcher == es[j].matcher
  }

  function DuplicateAt(es: seq<Entry>, i: nat): (found: bool)
    requires i <= |es|
    ensures found <==> exists a, b :: i <= a < b < |es| && es[a].matcher == es[b].matcher
    decreases |es| - i
  {
    if i == |es| then false
    else
      var later := exists b :: i < b < |es| && es[i].matcher == es[b].matcher;
      later || DuplicateAt(es, i + 1)
  }

  datatype TestingFactory = TestingFactory(
    entries: seq<Entry>,
    observers: set<ObserverResolution.Observer>,
    started: bool,
    stopped: bool)

  /** `build()`: the table is an `ImmutableMap`, whose builder refuses two
      entries with equal keys. The builder itself is a value and so is
      untouched. */
  function Build(b: TestingBuilder): (res: Result<TestingFactory>)
    ensures res.Err? <==> HasDuplicateMatcher(b.entries)
    ensures res.Err? ==> res.failure.IllegalArgument?
    ensures res.Ok? ==> res.value == TestingFactory(b.entries, b.observers, false, false)
  {
    if DuplicateAt(b.entries, 0) then Err(IllegalArgument("Multiple entries with same key"))
    else Ok(TestingFactory(b.entries, b.observers, false, false))
  }

  // ---------------------------------------------------------------------
  // The factory

  /** `getHttpBodySourceFor`: a testing source with no encoding that has not
      been read. */
  function BodySourceFor(content: Content): (src: BodySource)
    ensures src.Testing? && src.content == content && src.encoding.None? && src.memo.None?
  {
    Testing(content, None, None)
  }

  /** `start` and `stop` set their own flag, with no guard. */
  function Start(f: TestingFactory): (f': TestingFactory)
    ensures f'.started && f'.stopped == f.stopped && f'.entries == f.entries && f'.observers == f.observers
  {
    f.(started := true)
  }

  function Stop(f: TestingFactory): (f': TestingFactory)
    ensures f'.stopped && f'.started == f.started && f'.entries == f.entries && f'.observers == f.observers
  {
    f.(stopped := true)
  }

  /** Unlike the Apache factory, a testing factory can be stopped before it
      is started and started after it is stopped, and the order does not
      matter. */
  lemma StartStopCommute(f: TestingFactory)
    ensures Start(Stop(f)) == Stop(Start(f))
    ensures Start(Stop(f)).started && Start(Stop(f)).stopped
  {
  }

  /** The exact-name lookup the factory uses for request headers: the
      values of the headers whose name equals `name`, in order. */
  function ExactValues(hs: seq<Header>, name: string): (vs: seq<string>)
    ensures |vs| <= |hs|
    ensures |vs| == 0 <==> forall i :: 0 <= i < |hs| ==> hs[i].name != name
    ensures |vs| > 0 ==> exists i :: 0 <= i < |hs| && hs[i].name == name && vs[0] == hs[i].value
    ensures |vs| > 1 ==> exists i, j :: 0 <= i < j < |hs| && hs[i].name == name && hs[j].name == name
    decreases |hs|
  {
    if |hs| == 0 then []
    else
      var rest := ExactValues(hs[1..], name);
      assert forall i :: 0 <= i < |hs| - 1 ==> hs[1..][i] == hs[i + 1];
      if hs[0].name == name then [hs[0].value] + rest else rest
  }

  /** The factory's `getHeader`: `null` for none, the value for one, and
      an `IllegalArgumentException` for more than one. Names match
      exactly. */
  function ExactHeader(hs: seq<Header>, name: string): (r: Result<Option<string>>)
    ensures r == Ok(None) <==> forall i :: 0 <= i < |hs| ==> hs[i].name != name
    ensures r.Ok? && r.value.Some? ==> exists i :: 0 <= i < |hs| && hs[i].name == name && r.value.value == hs[i].value
    ensures r.Err? ==> r.failure.IllegalArgument? && exists i, j :: 0 <= i < j < |hs| && hs[i].name == name && hs[j].name == name
  {
    var vs := ExactValues(hs, name);
    if |vs| > 1 then Err(IllegalArgument("multiple " + name + " headers"))
    else if |vs| == 0 then Ok(None)
    else Ok(Some(vs[0]))
  }

  /** A second header of the same name is always refused. */
  lemma {:induction false} TwoExactHeadersRefused(hs: seq<Header>, name: string, i: nat, j: nat)
    requires i < j < |hs| && hs[i].name == name && hs[j].name == name
    ensures ExactHeader(hs, name).Err?
    decreases |hs|
  {
    if i == 0 {
      assert hs[1..][j - 1] == hs[j];
      assert |ExactValues(hs[1..], name)| > 0;
    } else {
      assert hs[1..][i - 1] == hs[i] && hs[1..][j - 1] == hs[j];
      TwoExactHeadersRefused(hs[1..], name, i - 1, j - 1);
      assert |ExactValues(hs[1..], name)| > 1;
    }
  }

  /** The request observers, in the observer set's iteration order, as an
      observer chain: the first exception stops it. */
  function ObserveRequest(order: seq<ObserverResolution.Observer>, r: Request, env: Environment): (res: Result<Request>)
    ensures order == [] ==> res == Ok(r)
    ensures |order| == 1 ==> res == env.onRequest(order[0], r)
    ensures |order| > 0 && env.onRequest(order[0], r).Err? ==> res == env.onRequest(order[0], r)
  {
    ObserverChains.ApplyObservers(ObserverChains.Stages(order, env.onRequest), r)
  }

  function ObserveResponse(order: seq<ObserverResolution.Observer>, c: Canned, env: Environment): (res: Result<Canned>)
    ensures order == [] ==> res == Ok(c)
    ensures |order| == 1 ==> res == env.onResponse(order[0], c)
    ensures |order| > 0 && env.onResponse(order[0], c).Err? ==> res == env.onResponse(order[0], c)
  {
    ObserverChains.ApplyObservers(ObserverChains.Stages(order, env.onResponse), c)
  }

  /** The first entry, in registration order, whose matcher accepts the
      request: its index, or `|es|` when none does. A matcher that throws
      ends the search. */
  function FirstMatch(es: seq<Entry>, r: Request, custom: CustomApply): (res: Result<nat>)
    ensures res.Ok? ==> res.value <= |es|
    ensures res.Ok? ==> forall j :: 0 <= j < res.value ==> Apply(es[j].matcher, r, custom) == Ok(false)
    ensures res.Ok? && res.value < |es| ==> Apply(es[res.value].matcher, r, custom) == Ok(true)
    ensures res.Err? ==> exists i :: && 0 <= i < |es| && Apply(es[i].matcher, r, custom) == Err(res.failure)
                                     && forall j :: 0 <= j < i ==> Apply(es[j].matcher, r, custom) == Ok(false)
    decreases |es|
  {
    if |es| == 0 then Ok(0)
    else
      match Apply(es[0].matcher, r, custom)
      case Err(f) => Err(f)
      case Ok(true) => Ok(0)
      case Ok(false) =>
        var rest := FirstMatch(es[1..], r, custom);
        assert forall j :: 0 <= j < |es| - 1 ==> es[1..][j] == es[j + 1];
        match rest
        case Err(f) =>
          assert exists i :: (&& 0 <= i < |es| && Apply(es[i].matcher, r, custom) == Err(f)
                              && forall j :: 0 <= j < i ==> Apply(es[j].matcher, r, custom) == Ok(false)) by {
            var i :| && 0 <= i < |es| - 1 && Apply(es[1..][i].matcher, r, custom) == Err(f)
                     && forall j :: 0 <= j < i ==> Apply(es[1..][j].matcher, r, custom) == Ok(false);
            forall j | 0 <= j < i + 1 ensures Apply(es[j].matcher, r, custom) == Ok(false) {
              if j > 0 { assert Apply(es[1..][j - 1].matcher, r, custom) == Ok(false); }
            }
            assert Apply(es[i + 1].matcher, r, custom) == Err(f);
          }
          Err(f)
        case Ok(k) =>
          assert forall j :: 0 <= j < k + 1 ==> Apply(es[j].matcher, r, custom) == Ok(false) by {
            forall j | 0 <= j < k + 1 ensures Apply(es[j].matcher, r, custom) == Ok(false) {
              if j > 0 { assert Apply(es[1..][j - 1].matcher, r, custom) == Ok(false); }
            }
          }
          Ok(k + 1)
  }

  /** Hand the request's content type and encoding, found by exact name,
      to its body source, if it has one. */
  function PrepareBody(r: Request): (res: Result<Request>)
    ensures r.bodySource.None? ==> res == Ok(r)
    ensures res.Ok? ==> res.value == r.(bodySource := res.value.bodySource)
    ensures r.bodySource.Some? && ExactHeader(r.headers, "Content-Type").Err? ==> res == Err(ExactHeader(r.headers, "Content-Type").failure)
    ensures r.bodySource.Some? && res.Ok? ==>
      && ExactHeader(r.headers, "Content-Type").Ok? && ExactHeader(r.headers, "Content-Encoding").Ok?
      && res.value.bodySource == Some(BodySources.SetContentEncoding(
           BodySources.SetContentType(r.bodySource.value, ExactHeader(r.headers, "Content-Type").value),
           ExactHeader(r.headers, "Content-Encoding").value))
  {
    match r.bodySource
    case None => Ok(r)
    case Some(src) =>
      match ExactHeader(r.headers, "Content-Type")
      case Err(f) => Err(f)
      case Ok(ct) =>
        var typed := BodySources.SetContentType(src, ct);
        match ExactHeader(r.headers, "Content-Encoding")
        case Err(f) => Err(f)
        case Ok(ce) => Ok(r.(bodySource := Some(BodySources.SetContentEncoding(typed, ce))))
  }

  /** An enumeration of the observer set without repeats: the order
      `ImmutableSet.copyOf` gives, which is not modelled further. */
  predicate Enumerates(order: seq<ObserverResolution.Observer>, s: set<ObserverResolution.Observer>) {
    && (set i | 0 <= i < |order| :: order[i]) == s
    && (forall i, j :: 0 <= i < j < |order| ==> order[i] != order[j])
  }

  /** `performRequest` with the response handler `handle`. */
  function Perform<T>(f: TestingFactory, r: Request, order: seq<ObserverResolution.Observer>, env: Environment,
                      custom: CustomApply, handle: (Handler, Canned) -> Result<T>): (res: Result<T>)
    requires Enumerates(order, f.observers)
    ensures ObserveRequest(order, r, env).Err? ==> res == Err(ObserveRequest(order, r, env).failure)
    ensures ObserveRequest(order, r, env).Ok? ==>
      var r1 := ObserveRequest(order, r, env).value;
      && (FirstMatch(f.entries, r1, custom) == Ok(|f.entries|) ==> res.Err? && res.failure.IllegalState?)
      && (FirstMatch(f.entries, r1, custom).Err? ==> res == Err(FirstMatch(f.entries, r1, custom).failure))
      && (FirstMatch(f.entries, r1, custom).Ok? && FirstMatch(f.entries, r1, custom).value < |f.entries| && PrepareBody(r1).Err? ==>
            res == Err(PrepareBody(r1).failure))
      && (FirstMatch(f.entries, r1, custom).Ok? && FirstMatch(f.entries, r1, custom).value < |f.entries| && PrepareBody(r1).Ok? ==>
            var r2 := PrepareBody(r1).value;
            var g := f.entries[FirstMatch(f.entries, r1, custom).value].generator;
            && (Respond(g, r2, env).Err? ==> res == Err(Respond(g, r2, env).failure))
            && (Respond(g, r2, env).Ok? && ObserveResponse(order, Respond(g, r2, env).value, env).Err? ==>
                  res == Err(ObserveResponse(order, Respond(g, r2, env).value, env).failure))
            && (Respond(g, r2, env).Ok? && ObserveResponse(order, Respond(g, r2, env).value, env).Ok? ==>
                  (r2.handler.None? ==> res == Err(NullPointer))
                  && (r2.handler.Some? ==> res == handle(r2.handler.value, ObserveResponse(order, Respond(g, r2, env).value, env).value))))
  {
    match ObserveRequest(order, r, env)
    case Err(e) => Err(e)
    case Ok(r1) =>
      match FirstMatch(f.entries, r1, custom)
      case Err(e) => Err(e)
      case Ok(i) =>
        if i == |f.entries| then Err(IllegalState("No response matcher found for request"))
        else
          match PrepareBody(r1)
          case Err(e) => Err(e)
          case Ok(r2) =>
            match Respond(f.entries[i].generator, r2, env)
            case Err(e) => Err(e)
            case Ok(c) =>
              match ObserveResponse(order, c, env)
              case Err(e) => Err(e)
              case Ok(c2) =>
                if r2.handler.None? then Err(NullPointer) else handle(r2.handler.value, c2)
  }

  // ---------------------------------------------------------------------
  // The testing body source

  /** What `getContent` hands out: a buffer over bytes, or the caller's own
      stream. */
  datatype Stream = Buffered(bytes: seq<byte>) | CallerStream(streamId: nat)

  /** `getContent`: the first successful call over bytes or text buffers
      them, and every later call returns that same buffer, whatever the
      encoding has become since. Text is encoded with the content encoding,
      or UTF-8 without one; `encode` is `String.getBytes(charsetName)`,
      whose failure is an `UnsupportedEncodingException`. A caller's stream
      is handed back as it is; any other object is refused. */
  function GetContent(src: BodySource, encode: (string, string) -> Result<seq<byte>>): (r: (BodySource, Result<Stream>))
    requires src.Testing?
    ensures r.0.Testing? && r.0.content == src.content && r.0.encoding == src.encoding
    ensures src.memo.Some? ==> r == (src, Ok(Buffered(src.memo.value)))
    ensures src.memo.None? && src.content.Bytes? ==> r == (src.(memo := Some(src.content.bytes)), Ok(Buffered(src.content.bytes)))
    ensures src.memo.None? && src.content.Text? ==>
      var enc := encode(src.content.text, src.encoding.GetOr("UTF-8"));
      && (enc.Err? ==> r == (src, Err(enc.failure)))
      && (enc.Ok? ==> r == (src.(memo := Some(enc.value)), Ok(Buffered(enc.value))))
    ensures src.memo.None? && src.content.Stream? ==> r == (src, Ok(CallerStream(src.content.streamId)))
    ensures src.memo.None? && src.content.OtherObject? ==> r.0 == src && r.1.Err? && r.1.failure.UnsupportedOperation?
  {
    if src.memo.Some? then (src, Ok(Buffered(src.memo.value)))
    else
      match src.content
      case Bytes(b) => (src.(memo := Some(b)), Ok(Buffered(b)))
      case Text(t) =>
        (match encode(t, src.encoding.GetOr("UTF-8"))
         case Err(f) => (src, Err(f))
         case Ok(b) => (src.(memo := Some(b)), Ok(Buffered(b))))
      case Stream(id) => (src, Ok(CallerStream(id)))
      case OtherObject(c) => (src, Err(UnsupportedOperation("What do you want me to do with a class " + c)))
  }

  /** Once `getContent` has succeeded, calling it again gives the same
      stream and leaves the source as it was, even after the factory has
      set a new content encoding: the content is read only once. */
  lemma ContentIsReadOnce(src: BodySource, encode: (string, string) -> Result<seq<byte>>, encoding: Option<string>)
    requires src.Testing? && GetContent(src, encode).1.Ok?
    ensures var after := GetContent(src, encode).0;
      && GetContent(after, encode) == (after, GetContent(src, encode).1)
      && (src.content.Bytes? || src.content.Text? ==>
            GetContent(BodySources.SetContentEncoding(after, encoding), encode).1 == GetContent(src, encode).1)
  {
  }

  /** A text body is encoded with the encoding the factory hands over from
      the request's Content-Encoding header, and UTF-8 without one. */
  lemma TextUsesContentEncoding(r: Request, text: string, encode: (string, string) -> Result<seq<byte>>)
    requires r.bodySource == Some(BodySourceFor(Text(text)))
    requires PrepareBody(r).Ok?
    ensures var src := PrepareBody(r).value.bodySource.value;
      var charset := ExactHeader(r.headers, "Content-Encoding").value.GetOr("UTF-8");
      && src.Testing?
      && (encode(text, charset).Ok? ==> GetContent(src, encode).1 == Ok(Buffered(encode(text, charset).value)))
  {
  }

  // ---------------------------------------------------------------------
  // Scenarios of the builder's tests

  /** A request with no body, no observers' changes and the given method and
      path. */
  predicate PlainRequest(r: Request, verb: Method, path: string) {
    r.verb == verb && r.url.Some? && r.url.value.path == Some(path) && r.bodySource.None?
  }

  /** A client built with no entries refuses every request with an
      `IllegalStateException`. */
  lemma EmptyClientRefuses<T>(r: Request, env: Environment, custom: CustomApply, handle: (Handler, Canned) -> Result<T>)
    ensures Build(EMPTY_BUILDER).Ok?
    ensures var res := Perform(Build(EMPTY_BUILDER).value, r, [], env, custom, handle);
      res.Err? && res.failure.IllegalState?
  {
    var f := Build(EMPTY_BUILDER).value;
    var none: seq<ObserverResolution.Observer> := [];
    assert Enumerates(none, {});
    assert FirstMatch(f.entries, r, custom) == Ok(0);
  }

  /** Of several matching entries the first one registered answers. */
  lemma EarliestMatchAnswers(es: seq<Entry>, r: Request, custom: CustomApply, i: nat)
    requires i < |es| && Apply(es[i].matcher, r, custom) == Ok(true)
    ensures FirstMatch(es, r, custom).Err? || FirstMatch(es, r, custom).value <= i
  {
  }

  /** `on(GET).of("/exception").respondWith(new IOException("danger"))`:
      a GET of that path throws the same exception. */
  lemma ExceptionIsRethrown<T>(r: Request, env: Environment, custom: CustomApply, handle: (Handler, Canned) -> Result<T>)
    requires PlainRequest(r, GET, "/exception")
    ensures var b := RespondWithException(EMPTY_BUILDER, On(GET, Some("/exception")), IoError("danger"));
      && Build(b).Ok?
      && Perform(Build(b).value, r, [], env, custom, handle) == Err(Io(IoError("danger")))
  {
    var b := RespondWithException(EMPTY_BUILDER, On(GET, Some("/exception")), IoError("danger"));
    assert !HasDuplicateMatcher(b.entries);
    var f := Build(b).value;
    var none: seq<ObserverResolution.Observer> := [];
    assert Enumerates(none, {});
    assert FirstMatch(f.entries, r, custom) == Ok(0);
  }

  /** `testSimpleResponse`: three paths registered for GET; each path gets
      its own generator, and a path nobody registered gets none. */
  lemma SimpleResponseDispatch(r: Request, gs: seq<Generator>, custom: CustomApply, path: string)
    requires |gs| == 3 && PlainRequest(r, GET, path)
    ensures var b := RespondWith(RespondWith(RespondWith(EMPTY_BUILDER,
                       On(GET, Some("/whozamit")), gs[0]), On(GET, Some("/foo")), gs[1]), On(GET, Some("/")), gs[2]);
      && Build(b).Ok?
      && (path == "/whozamit" ==> FirstMatch(b.entries, r, custom) == Ok(0))
      && (path == "/foo" ==> FirstMatch(b.entries, r, custom) == Ok(1))
      && (path == "/" ==> FirstMatch(b.entries, r, custom) == Ok(2))
      && (path !in {"/whozamit", "/foo", "/"} ==> FirstMatch(b.entries, r, custom) == Ok(3))
  {
    var b := RespondWith(RespondWith(RespondWith(EMPTY_BUILDER,
               On(GET, Some("/whozamit")), gs[0]), On(GET, Some("/foo")), gs[1]), On(GET, Some("/")), gs[2]);
    var es := b.entries;
    assert es[0].matcher != es[1].matcher && es[0].matcher != es[2].matcher && es[1].matcher != es[2].matcher by {
      assert "/whozamit"[1] != "/foo"[1];
      assert |"/foo"| != |"/"| && |"/whozamit"| != |"/"|;
    }
    assert !HasDuplicateMatcher(es);
    assert es[1..][1..][1..] == [];
  }
}

=== FILE: testing_responses.dfy ===
/** The canned responses of the testing client: `FixedResponseGenerator`,
    which is configured field by field, and
    `JaxRsResponseHttpResponseGenerator`, which derives its content type,
    body and length from a JAX-RS `Response`. String encoding and Jackson
    serialisation are foreign calls and enter as parameters. */
module TestingResponses {
  import opened Outcomes
  import opened BodySources
  import opened Requests
  import InternalResponses

  /** How a canned response looks its headers up: `Exact` is a `HashMap`
      keyed by the exact name; `Metadata` is a JAX-RS metadata map, which
      matches names ignoring case and keeps the values in the order they
      were added. */
  datatype HeaderTable =
    | Exact(table: map<string, seq<string>>)
    | Metadata(entries: seq<InternalResponses.ResponseHeader>)

  /** What a generated `HttpClientResponse`'s getters return. `statusText`
      is a `Result` because the JAX-RS reason-phrase lookup fails for
      unknown codes. */
  datatype Canned = Canned(
    status: int,
    statusText: Result<Option<string>>,
    uri: Option<Uri>,
    contentType: Option<string>,
    contentLength: Option<int>,
    charset: Option<string>,
    body: seq<byte>,
    headers: HeaderTable,
    redirected: bool)

  /** `getHeaders(name)`: `null` when the name is absent. */
  function GetHeaders(c: Canned, name: string): (vs: Option<seq<string>>)
    ensures c.headers.Exact? ==> (vs.Some? <==> name in c.headers.table)
    ensures c.headers.Exact? && vs.Some? ==> vs.value == c.headers.table[name]
    ensures c.headers.Metadata? ==>
      (vs.Some? <==> exists i :: 0 <= i < |c.headers.entries| && InternalResponses.Key(c.headers.entries[i].name) == InternalResponses.Key(name))
    ensures c.headers.Metadata? && vs.Some? ==> |vs.value| > 0
  {
    match c.headers
    case Exact(t) => if name in t then Some(t[name]) else None
    case Metadata(es) =>
      var k := InternalResponses.Key(name);
      if InternalResponses.FirstIndex(es, k) < |es| then Some(InternalResponses.ValuesFor(es, k)) else None
  }

  /** `getHeader(name)`: the first value, `null` when the name is absent.
      The exact table indexes its list without checking it is non-empty,
      so an empty list would throw. */
  function GetHeader(c: Canned, name: string): (v: Result<Option<string>>)
    ensures GetHeaders(c, name).None? ==> v == Ok(None)
    ensures GetHeaders(c, name).Some? && |GetHeaders(c, name).value| > 0 ==> v == Ok(Some(GetHeaders(c, name).value[0]))
    ensures v.Err? <==> GetHeaders(c, name) == Some([])
  {
    match c.headers
    case Exact(t) =>
      if name !in t then Ok(None)
      else if |t[name]| == 0 then Err(Unchecked("IndexOutOfBoundsException"))
      else Ok(Some(t[name][0]))
    case Metadata(es) =>
      var vs := InternalResponses.ValuesFor(es, InternalResponses.Key(name));
      if |vs| == 0 then Ok(None) else Ok(Some(vs[0]))
  }

  // ---------------------------------------------------------------------
  // FixedResponseGenerator

  datatype Fixed = Fixed(
    status: int,
    statusText: Option<string>,
    contentType: Option<string>,
    charset: Option<string>,
    redirected: bool,
    uri: Option<Uri>,
    contentLength: int,
    allHeaders: map<string, seq<string>>,
    buffer: seq<byte>)
  {
    /** Every list in the header table holds a value: `addHeader` is the
        only way in, and it always adds one. */
    predicate Valid() {
      forall k :: k in allHeaders ==> |allHeaders[k]| > 0
    }
  }

  /** `new FixedResponseGenerator(byte[])`. */
  function FixedOfBytes(buffer: seq<byte>): (g: Fixed)
    ensures g.Valid() && g.allHeaders == map[]
    ensures g.status == 200 && g.statusText == Some("") && g.contentType == Some("text/plain")
    ensures g.charset == Some("utf-8") && !g.redirected && g.uri.None?
    ensures g.contentLength == |buffer| && g.buffer == buffer
  {
    Fixed(200, Some(""), Some("text/plain"), Some("utf-8"), false, None, |buffer|, map[], buffer)
  }

  /** `new FixedResponseGenerator(String)`: the UTF-8 bytes of the text. */
  function FixedOfText(text: string, utf8: string -> seq<byte>): (g: Fixed)
    ensures g == FixedOfBytes(utf8(text))
    ensures g.contentLength == |utf8(text)|
  {
    FixedOfBytes(utf8(text))
  }

  /** The setters; each returns the generator. */
  datatype FixedSetting =
    | SetStatusCode(code: int)
    | SetStatusText(text: Option<string>)
    | SetUri(u: Option<Uri>)
    | SetContentType(t: Option<string>)
    | SetCharset(cs: Option<string>)
    | Chunked

  function Configure(g: Fixed, s: FixedSetting): (g': Fixed)
    ensures g'.allHeaders == g.allHeaders && g'.buffer == g.buffer && g'.redirected == g.redirected
    ensures g.Valid() ==> g'.Valid()
  {
    match s
    case SetStatusCode(c) => g.(status := c)
    case SetStatusText(t) => g.(statusText := t)
    case SetUri(u) => g.(uri := u)
    case SetContentType(t) => g.(contentType := t)
    case SetCharset(cs) => g.(charset := cs)
    case Chunked => g.(contentLength := -1)
  }

  /** `addHeader`: appends to the list for that exact name. */
  function AddHeader(g: Fixed, key: string, value: string): (g': Fixed)
    ensures g'.Valid() <== g.Valid()
    ensures key in g'.allHeaders
    ensures g'.allHeaders[key] == (if key in g.allHeaders then g.allHeaders[key] else []) + [value]
    ensures forall k :: k != key ==> (k in g'.allHeaders <==> k in g.allHeaders)
    ensures forall k :: k != key && k in g.allHeaders ==> g'.allHeaders[k] == g.allHeaders[k]
    ensures g' == g.(allHeaders := g'.allHeaders)
  {
    var before := if key in g.allHeaders then g.allHeaders[key] else [];
    g.(allHeaders := g.allHeaders[key := before + [value]])
  }

  /** `respondTo`: every getter reads the generator's fields. */
  function RespondFixed(g: Fixed): (c: Canned)
    ensures c.status == g.status && c.statusText == Ok(g.statusText) && c.uri == g.uri
    ensures c.contentType == g.contentType && c.charset == g.charset && c.redirected == g.redirected
    ensures c.contentLength == Some(g.contentLength) && c.body == g.buffer
    ensures c.headers == Exact(g.allHeaders)
  {
    Canned(g.status, Ok(g.statusText), g.uri, g.contentType, Some(g.contentLength), g.charset,
           g.buffer, Exact(g.allHeaders), g.redirected)
  }

  /** Each setter changes exactly one getter of the responses generated
      afterwards. */
  lemma SettersChangeOneGetter(g: Fixed, code: int, text: Option<string>, u: Option<Uri>, t: Option<string>, cs: Option<string>)
    ensures RespondFixed(Configure(g, SetStatusCode(code))) == RespondFixed(g).(status := code)
    ensures RespondFixed(Configure(g, SetStatusText(text))) == RespondFixed(g).(statusText := Ok(text))
    ensures RespondFixed(Configure(g, SetUri(u))) == RespondFixed(g).(uri := u)
    ensures RespondFixed(Configure(g, SetContentType(t))) == RespondFixed(g).(contentType := t)
    ensures RespondFixed(Configure(g, SetCharset(cs))) == RespondFixed(g).(charset := cs)
    ensures RespondFixed(Configure(g, Chunked)) == RespondFixed(g).(contentLength := Some(-1))
  {
  }

  /** Headers added to a generator come back in the order they were
      added, under the exact name only; the first value never changes. */
  lemma AddedHeadersComeBackInOrder(g: Fixed, key: string, values: seq<string>)
    requires key !in g.allHeaders
    ensures var g' := AddAll(g, key, values);
      && GetHeaders(RespondFixed(g'), key) == (if |values| == 0 then None else Some(values))
      && (|values| > 0 ==> GetHeader(RespondFixed(g'), key) == Ok(Some(values[0])))
  {
    AddAllCollects(g, key, values);
  }

  /** The list under a fresh name is exactly the values added to it. */
  lemma {:induction false} AddAllCollects(g: Fixed, key: string, values: seq<string>)
    requires key !in g.allHeaders
    ensures var t := AddAll(g, key, values).allHeaders;
      if |values| == 0 then key !in t else key in t && t[key] == values
    decreases |values|
  {
    if |values| > 0 {
      var front := values[..|values| - 1];
      AddAllCollects(g, key, front);
      assert front + [values[|values| - 1]] == values;
    }
  }

  /** `addHeader(key, v)` for each value in turn. */
  function AddAll(g: Fixed, key: string, values: seq<string>): (g': Fixed)
    ensures g.Valid() ==> g'.Valid()
    decreases |values|
  {
    if |values| == 0 then g else AddHeader(AddAll(g, key, values[..|values| - 1]), key, values[|values| - 1])
  }

  /** A valid generator's `getHeader` never throws, and answers for
      exactly the names that were added. */
  lemma ValidFixedHeaderLookup(g: Fixed, name: string)
    requires g.Valid()
    ensures GetHeader(RespondFixed(g), name).Ok?
    ensures GetHeader(RespondFixed(g), name).value.Some? <==> name in g.allHeaders
  {
  }

  // ---------------------------------------------------------------------
  // JaxRsResponseHttpResponseGenerator

  /** A JAX-RS response entity. `Object` is any other type, to be
      serialised by Jackson. */
  datatype Entity = NoEntity | TextEntity(text: string) | BytesEntity(bytes: seq<byte>) | ObjectEntity(id: nat)

  /** A built JAX-RS `Response`: status, entity and metadata (the headers,
      in the order they were set). */
  datatype JaxRsResponse = JaxRsResponse(status: int, entity: Entity, metadata: seq<InternalResponses.ResponseHeader>)

  /** `ObjectMapper.writeValueAsBytes`; `None` is the `IOException`. */
  datatype Mapper = Mapper(write: nat -> Option<seq<byte>>)

  datatype JaxRs = JaxRs(response: JaxRsResponse, body: seq<byte>, contentType: string, contentLength: int, charset: string)

  const TEXT_PLAIN: string := "text/plain"
  const APPLICATION_OCTET_STREAM: string := "application/octet-stream"
  const APPLICATION_JSON: string := "application/json"
  const UTF_8: string := "UTF-8"
  const CONTENT_TYPE: string := "Content-Type"

  /** The metadata's Content-Type values. */
  function TypeHeaders(r: JaxRsResponse): seq<string> {
    InternalResponses.ValuesFor(r.metadata, InternalResponses.Key(CONTENT_TYPE))
  }

  /** The content type used when the response sets none. */
  function DefaultType(e: Entity): string {
    match e
    case NoEntity => TEXT_PLAIN
    case TextEntity(_) => TEXT_PLAIN
    case BytesEntity(_) => APPLICATION_OCTET_STREAM
    case ObjectEntity(_) => APPLICATION_JSON
  }

  /** `MediaType.valueOf` on a header's text, rendered back by the
      media type's `toString`: the JAX-RS runtime's parser, whose failure
      is an `IllegalArgumentException`. */
  type MediaTypeParser = string -> Result<string>

  /** The response sets no Content-Type, or one that parses. */
  predicate TypeAccepted(r: JaxRsResponse, mediaType: MediaTypeParser) {
    var types := TypeHeaders(r);
    |types| == 0 || (|types| == 1 && mediaType(types[0]).Ok?)
  }

  /** The constructor. The Content-Type is checked and parsed before the
      entity is looked at, so those failures come first. */
  function NewJaxRs(mapper: Option<Mapper>, r: JaxRsResponse, utf8: string -> seq<byte>, mediaType: MediaTypeParser): (res: Result<JaxRs>)
    ensures |TypeHeaders(r)| > 1 ==> res.Err? && res.failure.IllegalArgument?
    ensures |TypeHeaders(r)| == 1 && mediaType(TypeHeaders(r)[0]).Err? ==> res == Err(mediaType(TypeHeaders(r)[0]).failure)
    ensures res.Ok? ==> TypeAccepted(r, mediaType)
    ensures res.Ok? && |TypeHeaders(r)| == 1 ==> res.value.contentType == mediaType(TypeHeaders(r)[0]).value
    ensures res.Ok? && |TypeHeaders(r)| == 0 ==> res.value.contentType == DefaultType(r.entity)
    ensures res.Ok? ==> res.value.contentLength == |res.value.body| && res.value.charset == UTF_8 && res.value.response == r
    ensures TypeAccepted(r, mediaType) ==>
      && (r.entity.NoEntity? ==> res.Ok? && res.value.body == [])
      && (r.entity.TextEntity? ==> res.Ok? && res.value.body == utf8(r.entity.text))
      && (r.entity.BytesEntity? ==> res.Ok? && res.value.body == r.entity.bytes)
      && (r.entity.ObjectEntity? && mapper.None? ==> res == Err(NullPointer))
      && (r.entity.ObjectEntity? && mapper.Some? ==>
            (res.Ok? <==> mapper.value.write(r.entity.id).Some?)
            && (res.Ok? ==> res.value.body == mapper.value.write(r.entity.id).value)
            && (res.Err? ==> res.failure.IllegalState?))
  {
    var types := TypeHeaders(r);
    if |types| > 1 then Err(IllegalArgument("multiple Content-Type headers?!"))
    else
      var parsed: Result<string> := if |types| == 1 then mediaType(types[0]) else Ok(DefaultType(r.entity));
      match parsed
      case Err(f) => Err(f)
      case Ok(contentType) =>
        var encoded: Result<seq<byte>> :=
          match r.entity
          case NoEntity => Ok([])
          case TextEntity(t) => Ok(utf8(t))
          case BytesEntity(b) => Ok(b)
          case ObjectEntity(id) =>
            if mapper.None? then Err(NullPointer)
            else if mapper.value.write(id).None? then Err(IllegalState("JsonProcessingException"))
            else Ok(mapper.value.write(id).value);
        match encoded
        case Err(f) => Err(f)
        case Ok(bytes) => Ok(JaxRs(r, bytes, contentType, |bytes|, UTF_8))
  }

  /** `respondTo`: the status, the request's URI, the derived type, body and
      length, the metadata as headers, and never a redirect. The reason
      phrase is JAX-RS's `Status.fromStatusCode`, `null` for unknown codes,
      which the getter then dereferences. */
  function RespondJaxRs(g: JaxRs, request: Request, reasonPhrase: int -> Option<string>): (c: Canned)
    ensures c.status == g.response.status && c.uri == request.url && !c.redirected
    ensures reasonPhrase(g.response.status).None? <==> c.statusText == Err(NullPointer)
    ensures reasonPhrase(g.response.status).Some? ==> c.statusText == Ok(reasonPhrase(g.response.status))
    ensures c.contentType == Some(g.contentType) && c.charset == Some(g.charset)
    ensures c.contentLength == Some(g.contentLength) && c.body == g.body
    ensures c.headers == Metadata(g.response.metadata)
  {
    var text := match reasonPhrase(g.response.status)
      case None => Err(NullPointer)
      case Some(p) => Ok(Some(p));
    Canned(g.response.status, text, request.url, Some(g.contentType), Some(g.contentLength), Some(g.charset),
           g.body, Metadata(g.response.metadata), false)
  }

  /** The content length always equals the number of body bytes a caller
      reads, whatever the entity. */
  lemma JaxRsLengthIsBodyLength(mapper: Option<Mapper>, r: JaxRsResponse, utf8: string -> seq<byte>, mediaType: MediaTypeParser,
                                 request: Request, reasonPhrase: int -> Option<string>)
    requires NewJaxRs(mapper, r, utf8, mediaType).Ok?
    ensures var c := RespondJaxRs(NewJaxRs(mapper, r, utf8, mediaType).value, request, reasonPhrase);
      c.contentLength == Some(|c.body|) && c.charset == Some(UTF_8)
  {
  }

  /** The JAX-RS response of the builder test for header lookups. */
  const HEADER_TEST: JaxRsResponse := JaxRsResponse(500, TextEntity("{\"a\":\"okay\"}"), [
    InternalResponses.ResponseHeader("Connection", "closed"),
    InternalResponses.ResponseHeader("Content-Type", "application/json; charset=bogus"),
    InternalResponses.ResponseHeader("Content-Language", "klingon"),
    InternalResponses.ResponseHeader("MAGIC", "a"),
    InternalResponses.ResponseHeader("MAGIC", "b"),
    InternalResponses.ResponseHeader("MAGIC", "c")])

  lemma HeaderTestKeys()
    ensures InternalResponses.Key("MAGIC") == "magic" == InternalResponses.Key("magic")
    ensures InternalResponses.Key("Content-Type") == "content-type"
    ensures InternalResponses.Key("Content-Language") == "content-language"
    ensures |InternalResponses.Key("Connection")| == 10 && |InternalResponses.Key("bogus")| == 5
    ensures InternalResponses.Key("bogus")[0] == 'b'
  {
    InternalResponses.KeyOfLiteral("MAGIC", "magic");
    InternalResponses.KeyOfLiteral("magic", "magic");
    InternalResponses.KeyOfLiteral("Content-Type", "content-type");
    InternalResponses.KeyOfLiteral("Content-Language", "content-language");
  }

  /** The metadata has exactly one Content-Type, whose text is what the
      media-type parser is given: the response is accepted with the
      parser's rendering of it when it parses, and refused with the
      parser's exception when it does not. */
  lemma HeaderTestContentType(utf8: string -> seq<byte>, mediaType: MediaTypeParser)
    ensures var declared := "application/json; charset=bogus";
      var g := NewJaxRs(None, HEADER_TEST, utf8, mediaType);
      && (mediaType(declared).Ok? ==> g.Ok? && g.value.contentType == mediaType(declared).value)
      && (mediaType(declared).Err? ==> g == Err(mediaType(declared).failure))
  {
    HeaderTestKeys();
    var es := HEADER_TEST.metadata;
    assert es[1..][1..][1..] == es[3..];
    assert InternalResponses.ValuesFor(es[3..], "content-type") == [] by {
      assert es[3..][1..] == es[4..] && es[4..][1..] == es[5..] && es[5..][1..] == [];
    }
    assert TypeHeaders(HEADER_TEST) == ["application/json; charset=bogus"];
  }

  lemma HeaderTestMagic()
    ensures InternalResponses.ValuesFor(HEADER_TEST.metadata, "magic") == ["a", "b", "c"]
  {
    HeaderTestKeys();
    var es := HEADER_TEST.metadata;
    assert es[1..][1..] == es[2..] && es[2..][1..] == es[3..];
    assert es[3..][1..] == es[4..] && es[4..][1..] == es[5..] && es[5..][1..] == [];
    assert InternalResponses.ValuesFor(es[3..], "magic") == ["a", "b", "c"];
  }

  lemma HeaderTestLanguage()
    ensures InternalResponses.ValuesFor(HEADER_TEST.metadata, "content-language") == ["klingon"]
  {
    HeaderTestKeys();
    var es := HEADER_TEST.metadata;
    assert es[1..][1..] == es[2..] && es[2..][1..] == es[3..];
    assert es[3..][1..] == es[4..] && es[4..][1..] == es[5..] && es[5..][1..] == [];
    assert InternalResponses.ValuesFor(es[3..], "content-language") == [];
  }

  lemma HeaderTestBogus()
    ensures InternalResponses.ValuesFor(HEADER_TEST.metadata, InternalResponses.Key("bogus")) == []
  {
    HeaderTestKeys();
    var es := HEADER_TEST.metadata;
    forall i | 0 <= i < |es|
      ensures InternalResponses.Key(es[i].name) != InternalResponses.Key("bogus")
    {
      if i < 3 {
        assert |InternalResponses.Key(es[i].name)| == |es[i].name| >= 10;
      } else {
        assert es[i].name == "MAGIC";
      }
    }
  }

  /** Lookups ignore case; a repeated header gives its first value and all
      values in order; an absent one gives `null` from both getters. */
  lemma HeaderTestLookups(g: JaxRs, request: Request, reasonPhrase: int -> Option<string>)
    requires g.response == HEADER_TEST
    ensures var c := RespondJaxRs(g, request, reasonPhrase);
      && GetHeader(c, "magic") == Ok(Some("a"))
      && GetHeaders(c, "magic") == Some(["a", "b", "c"])
      && GetHeader(c, "Content-Language") == Ok(Some("klingon"))
      && GetHeader(c, "bogus") == Ok(None)
      && GetHeaders(c, "bogus") == None
  {
    HeaderTestKeys();
    HeaderTestMagic();
    HeaderTestLanguage();
    HeaderTestBogus();
  }
}

=== FILE: trust.dfy ===
/** The trust managers the Apache factory installs: the platform default,
    one built from the configured trust store, a `MultiTrustManager` over
    several, and `AlwaysTrustServerTrustManager`, which skips server
    checks. What a single leaf manager decides about a certificate chain
    depends on key material outside this model and is a parameter. */
module Trust {
  import opened Outcomes

  datatype Cert = Cert(id: nat)

  /** A certificate chain and the authentication type it is checked for. */
  datatype Chain = Chain(certs: seq<Cert>, authType: string)

  datatype Leaf = PlatformDefault | TrustStore(path: string, password: string)

  datatype TrustManager =
    | Single(leaf: Leaf)
    | Multi(delegates: seq<Leaf>)
    | AlwaysTrustServer(inner: TrustManager)

  datatype Side = Client | Server

  /** A leaf's verdict: `None` trusts, `Some(m)` is a certificate
      exception with message `m`. */
  type Verdicts = (Leaf, Side, Chain) -> Option<string>

  const NO_MANAGERS: string := "No trust managers installed!"

  /** `MultiTrustManager.check*Trusted` over the delegates' verdicts in
      set-iteration order: the first delegate that trusts ends the check
      successfully; if none does, the last delegate's exception is
      rethrown; with no delegates the check fails outright. */
  method CheckAll(verdicts: seq<Option<string>>) returns (r: Result<()>)
    ensures r.Ok? <==> exists i :: 0 <= i < |verdicts| && verdicts[i].None?
    ensures |verdicts| == 0 ==> r == Err(Certificate(NO_MANAGERS))
    ensures |verdicts| > 0 && r.Err? ==> r == Err(Certificate(verdicts[|verdicts| - 1].value))
  {
    if |verdicts| == 0 {
      return Err(Certificate(NO_MANAGERS));
    }
    var last: Option<string> := None;
    var i := 0;
    while i < |verdicts|
      invariant 0 <= i <= |verdicts|
      invariant forall j :: 0 <= j < i ==> verdicts[j].Some?
      invariant i > 0 ==> last == verdicts[i - 1]
    {
      if verdicts[i].None? {
        return Ok(());
      }
      last := verdicts[i];
      i := i + 1;
    }
    return Err(Certificate(last.value));
  }

  /** The same decision as a function, used to compose managers. */
  function MultiVerdict(verdicts: seq<Option<string>>): (v: Option<string>)
    ensures v.None? <==> exists i :: 0 <= i < |verdicts| && verdicts[i].None?
    ensures |verdicts| == 0 ==> v == Some(NO_MANAGERS)
    ensures |verdicts| > 0 && v.Some? ==> v == verdicts[|verdicts| - 1]
  {
    if |verdicts| == 0 then Some(NO_MANAGERS)
    else if verdicts[0].None? then None
    else if |verdicts| == 1 then verdicts[0]
    else MultiVerdict(verdicts[1..])
  }

  function DelegateVerdicts(delegates: seq<Leaf>, side: Side, chain: Chain, leafVerdict: Verdicts): (vs: seq<Option<string>>)
    ensures |vs| == |delegates|
    ensures forall i :: 0 <= i < |delegates| ==> vs[i] == leafVerdict(delegates[i], side, chain)
  {
    seq(|delegates|, i requires 0 <= i < |delegates| => leafVerdict(delegates[i], side, chain))
  }

  /** What a composed manager decides about a chain. */
  function Check(tm: TrustManager, side: Side, chain: Chain, leafVerdict: Verdicts): (v: Option<string>)
    ensures tm.AlwaysTrustServer? && side == Server ==> v.None?
    ensures tm.AlwaysTrustServer? && side == Client ==> v == Check(tm.inner, side, chain, leafVerdict)
    ensures tm.Multi? ==> (v.None? <==> exists i :: 0 <= i < |tm.delegates| && leafVerdict(tm.delegates[i], side, chain).None?)
    ensures tm.Single? ==> v == leafVerdict(tm.leaf, side, chain)
  {
    match tm
    case Single(leaf) => leafVerdict(leaf, side, chain)
    case Multi(ds) => MultiVerdict(DelegateVerdicts(ds, side, chain, leafVerdict))
    case AlwaysTrustServer(inner) => if side == Server then None else Check(inner, side, chain, leafVerdict)
  }

  /** The iteration order of the delegate set decides only which exception
      is reported, never whether the chain is trusted. */
  lemma MultiOrderIrrelevant(d1: seq<Leaf>, d2: seq<Leaf>, side: Side, chain: Chain, leafVerdict: Verdicts)
    requires forall l :: l in d1 <==> l in d2
    ensures Check(Multi(d1), side, chain, leafVerdict).None? <==> Check(Multi(d2), side, chain, leafVerdict).None?
  {
    if Check(Multi(d1), side, chain, leafVerdict).None? {
      var i :| 0 <= i < |d1| && leafVerdict(d1[i], side, chain).None?;
      assert d1[i] in d2;
      var j :| 0 <= j < |d2| && d2[j] == d1[i];
      assert leafVerdict(d2[j], side, chain).None?;
    }
    if Check(Multi(d2), side, chain, leafVerdict).None? {
      var i :| 0 <= i < |d2| && leafVerdict(d2[i], side, chain).None?;
      assert d2[i] in d1;
      var j :| 0 <= j < |d1| && d1[j] == d2[i];
      assert leafVerdict(d1[j], side, chain).None?;
    }
  }

  /** `getAcceptedIssuers`: the union over the delegates; the wrapper
      reports its inner manager's. */
  function Issuers(tm: TrustManager, leafIssuers: Leaf -> set<Cert>): (r: set<Cert>)
    ensures tm.Multi? ==> forall c :: c in r <==> exists i :: 0 <= i < |tm.delegates| && c in leafIssuers(tm.delegates[i])
  {
    match tm
    case Single(leaf) => leafIssuers(leaf)
    case Multi(ds) => set i, c | 0 <= i < |ds| && c in leafIssuers(ds[i]) :: c
    case AlwaysTrustServer(inner) => Issuers(inner, leafIssuers)
  }

  /** `addTrustManager` puts a delegate into a set: adding one twice
      changes nothing. */
  function AddDelegate(delegates: seq<Leaf>, leaf: Leaf): (r: seq<Leaf>)
    ensures forall l :: l in r <==> l in delegates || l == leaf
    ensures leaf in delegates ==> r == delegates
  {
    if leaf in delegates then delegates else delegates + [leaf]
  }

  /** The SSL settings of `HttpClientDefaults` that pick the managers. */
  datatype SslDefaults = SslDefaults(
    truststore: Option<string>,
    truststorePassword: Option<string>,
    truststoreFallback: bool,
    serverCertVerification: bool,
    keystore: Option<string>,
    keystoreType: Option<string>,
    keystorePassword: Option<string>)

  /** `getTrustManager`: the platform default unless both the trust store
      and its password are set, in which case a multi manager over the
      store, preceded by the platform default when fallback is on; wrapped
      to trust every server when server verification is off. */
  function TrustManagerFor(d: SslDefaults): (tm: TrustManager)
    ensures !d.serverCertVerification <==> tm.AlwaysTrustServer?
    ensures var base := if tm.AlwaysTrustServer? then tm.inner else tm;
      && (d.truststore.None? || d.truststorePassword.None? ==> base == Single(PlatformDefault))
      && (d.truststore.Some? && d.truststorePassword.Some? ==>
            && base.Multi?
            && TrustStore(d.truststore.value, d.truststorePassword.value) in base.delegates
            && (PlatformDefault in base.delegates <==> d.truststoreFallback))
  {
    var base :=
      if d.truststore.None? || d.truststorePassword.None? then Single(PlatformDefault)
      else
        var withFallback := if d.truststoreFallback then AddDelegate([], PlatformDefault) else [];
        Multi(AddDelegate(withFallback, TrustStore(d.truststore.value, d.truststorePassword.value)));
    if d.serverCertVerification then base else AlwaysTrustServer(base)
  }

  /** With server verification off, every server chain is trusted, while
      client chains still go to the configured managers. */
  lemma VerificationOffTrustsEveryServer(d: SslDefaults, chain: Chain, leafVerdict: Verdicts)
    requires !d.serverCertVerification
    ensures Check(TrustManagerFor(d), Server, chain, leafVerdict).None?
  {
  }

  /** With a custom store and fallback, a chain the platform trusts is
      trusted even when the store rejects it. */
  lemma FallbackTrustsPlatformChains(d: SslDefaults, side: Side, chain: Chain, leafVerdict: Verdicts)
    requires d.truststore.Some? && d.truststorePassword.Some? && d.truststoreFallback
    requires leafVerdict(PlatformDefault, side, chain).None?
    ensures Check(TrustManagerFor(d), side, chain, leafVerdict).None?
  {
    var tm := TrustManagerFor(d);
    var base := if tm.AlwaysTrustServer? then tm.inner else tm;
    var i :| 0 <= i < |base.delegates| && base.delegates[i] == PlatformDefault;
    assert leafVerdict(base.delegates[i], side, chain).None?;
  }

  datatype KeyManager = KeyManager(keystore: string, keystoreType: string, password: string)

  /** `getKeyManagers`: one manager when keystore, type and password are
      all set, otherwise none (`null`). */
  function KeyManagersFor(d: SslDefaults): (r: Option<KeyManager>)
    ensures r.Some? <==> d.keystore.Some? && d.keystoreType.Some? && d.keystorePassword.Some?
    ensures r.Some? ==> r.value == KeyManager(d.keystore.value, d.keystoreType.value, d.keystorePassword.value)
  {
    if d.keystore.None? || d.keystoreType.None? || d.keystorePassword.None? then None
    else Some(KeyManager(d.keystore.value, d.keystoreType.value, d.keystorePassword.value))
  }
}
